=== FILE: README.md ===
# cat-maintenance in Dafny

This project is a Dafny model of the catalog-maintenance scripts of
BookOps-CAT/cat-maintenance. The scripts read bib records and rewrite or
classify them. There are two kinds of record:

- bib records as the catalog service returns them, as JSON;
- MARC records, as the pymarc library holds them.

The model covers these pieces:

- **Catalog JSON accessors** (`PlatformBib`): leader positions, the 008,
  tag-presence predicates, call numbers, the OCLC number, the timestamp and
  the deletion flag.
- **Branch-duplicate discovery** (`BranchDups`):
  - the type and ebook gates, and library identification;
  - record scoring with the freshness bonus, and winner selection;
  - the duplicate report and the admission filter of `parse_results`.
- **Trailing-"b" clean-up** (`TrailingB`):
  - OCN recognition and normalisation;
  - the 035 rewrite;
  - moving the OCN into 001/003;
  - removing 908 and, optionally, 991.
- **Read-along call numbers** (`ReadAlong`): the 099 "J" to "J-E"
  conversion.
- **MARC-to-CSV filter** (`MarcParser`): ISBN extraction, the Sierra bib
  number parse, and the per-record row filter.
- **Catalog-JSON-to-MARC crosswalk** (`Crosswalks`).
- **Map and laptop crosswalks** (`MapsCrosswalk`, `LaptopsCrosswalk`): sheet
  rows become MARC records.
- **Log scan for bib numbers the catalog did not find** (`VerifyBibNos`).
  Each log line arrives with its trailing "\n", as iterating over a text
  file gives it; that "\n" is one of the two characters the number
  extraction skips at the end of the line.

Shared modules hold the pieces the scripts borrow from Python and pymarc:

- `Results`: `Option`, `Result` and the error values that stand for raised
  exceptions.
- `Strings`: `strip`, `split`, `join`, slicing, digits, case.
- `Dict`: an insertion-ordered dict as a sequence of pairs.
- `Marc`: a record is a leader plus a sequence of control and data fields;
  the library stores a numeric tag with three digits and makes a field a
  control field exactly when that tag is below 010.
- `OrderedFields`: pymarc's `add_ordered_field`.
- `Rows`: order-keeping filters.

Every operation is a pure function over immutable datatypes. Exceptions
become `Err` values. The file system, the network, the wall clock and
logging are not modelled. Their data enters as parameters:

- the rows of a sheet;
- the lines of a log;
- the list of JSON records;
- the date or timestamp;
- the research location codes.

## Model

| member | source | states |
|---|---|---|
| PlatformBib.GetLeader | scripts/platform_bib_parser.py:24-28 | the leader is the content of the first varField whose fieldTag is "_"; none when there is no such varField |
| PlatformBib.LeaderChar | scripts/platform_bib_parser.py:31-57 | a leader position is read when the leader is long enough; a missing leader and a short leader are the two errors the indexing raises |
| PlatformBib.GetRecType | scripts/platform_bib_parser.py:31-36 | the record type is leader character 6, and reading succeeds exactly when the leader has more than 6 characters |
| PlatformBib.GetBlvl | scripts/platform_bib_parser.py:39-43 | the bib level is leader character 7, available exactly when the leader is longer than 7 |
| PlatformBib.GetEncodingLevel | scripts/platform_bib_parser.py:53-57 | the encoding level is leader character 17, available exactly when the leader is longer than 17 |
| PlatformBib.GetTag008 | scripts/platform_bib_parser.py:46-50 | the 008 is the content of the first varField with marcTag 008; none without one |
| PlatformBib.GetItemForm | scripts/platform_bib_parser.py:60-68 | item form is character 23 of the 008, and is none exactly when there is no 008 or it has 23 characters or fewer |
| PlatformBib.Has050Tag | scripts/platform_bib_parser.py:76-83 | true iff some varField has marcTag 050 |
| PlatformBib.Has505Tag | scripts/platform_bib_parser.py:86-93 | true iff some varField has marcTag 505 |
| PlatformBib.Has520Tag | scripts/platform_bib_parser.py:96-103 | true iff some varField has marcTag 520 |
| PlatformBib.HasSubjectTags | scripts/platform_bib_parser.py:106-121 | true iff some varField carries one of 600, 610, 611, 630, 650, 651, 655 |
| PlatformBib.Has082Tag | scripts/platform_bib_parser.py:124-131 | true iff some varField has marcTag 082 |
| PlatformBib.HasResearchCallNumber | scripts/platform_bib_parser.py:134-141 | true iff some varField has marcTag 852 |
| PlatformBib.HasBranchCallNumber | scripts/platform_bib_parser.py:144-151 | true iff some varField has marcTag 091 |
| PlatformBib.HasNationalLibraryAuthenticationCode | scripts/platform_bib_parser.py:154-161 | true iff some varField has marcTag 042 |
| PlatformBib.IsDlcRecord | scripts/platform_bib_parser.py:164-174 | fails exactly when an 040 has no subfields (iterating None); otherwise true iff some 040 subfield content is exactly "DLC" |
| PlatformBib.GetBranchCallNumber | scripts/platform_bib_parser.py:177-184 | none iff there is no 091; fails iff the first 091 has no subfields; otherwise the first 091's subfield contents joined by single spaces, with no lower-case letter left |
| PlatformBib.HasCallNumber | scripts/platform_bib_parser.py:206-213 | equals has-branch-call-number or has-research-call-number |
| PlatformBib.HasOclcNumber | scripts/platform_bib_parser.py:216-226 | true iff some 003 reads "OCoLC" or some 991 is present |
| PlatformBib.HasLcNumber | scripts/platform_bib_parser.py:229-235 | true iff some varField has marcTag 010 |
| PlatformBib.LastControlNumber | scripts/platform_bib_parser.py:190-197 | the result is a canonical decimal (no leading zeros) of some 001, and is none when no 001 parses as an integer |
| PlatformBib.GetOclcNumber | scripts/platform_bib_parser.py:187-203 | as written: fails iff a 991 has no subfields, otherwise the last integer-parsable 001 in canonical form; the 991 $y plays no part |
| PlatformBib.LastControlNumberConcat | scripts/platform_bib_parser.py:189-197 | the scan keeps the last parsable 001: a later one overrides everything before it |
| PlatformBib.Field991NeverChangesOclcNumber | scripts/platform_bib_parser.py:198-202 | inserting any 991 anywhere never changes the OCLC number as written |
| PlatformBib.LastYIsLast | scripts/platform_bib_parser.py:200-202 | the $y a 991 contributes is the content of one of its $y subfields |
| PlatformBib.LastIntendedOclc | scripts/platform_bib_parser.py:189-202 | with the assignment meant at line 202, the last 001 or 991 $y that supplies a number wins, and none is found only when no field supplies one |
| PlatformBib.GetOclcNumberIntended | scripts/platform_bib_parser.py:187-203 | corrected: same failure as the original; a trailing 991 with a $y decides the number |
| PlatformBib.OclcNumberFrom991Lost | scripts/platform_bib_parser.py:202 | a record whose only number is a 991 $y "12345" gets no OCLC number as written, but "12345" as intended |
| PlatformBib.GetTimestamp | scripts/platform_bib_parser.py:238-249 | the timestamp is never negative, is 0.0 when no 005 parses, and is the last 005's value when that one parses |
| PlatformBib.TimestampOfLastParsable | scripts/platform_bib_parser.py:238-249 | the timestamp is the value of the last 005 that parses, whatever unparsable 005s or other fields come after it |
| PlatformBib.IsMarkedForDeletion | scripts/platform_bib_parser.py:257-264 | none iff fixed field "31" is absent; true iff it is present with value "d" |
| BranchDups.IsValidBibType | scripts/nyp_branch_dups_discovery.py:81-91 | a record that passes the type gate is never an ebook (the gate needs item form " " or "d", the ebook test needs "o") |
| BranchDups.HasCallNumberConflict | scripts/nyp_branch_dups_discovery.py:94-100 | a conflict iff both call numbers are present and differ (so it is symmetric and false on equal or missing values) |
| BranchDups.AnyIn | scripts/nyp_branch_dups_discovery.py:266-269 | true iff some location code is in the research set |
| BranchDups.NoneIn | scripts/nyp_branch_dups_discovery.py:272-277 | true iff no location code is in the research set |
| BranchDups.HasOnlyBranchLocations | scripts/nyp_branch_dups_discovery.py:266-277 | only-branch-locations is exactly the negation of has-research-location |
| BranchDups.IdentifyLibrary | scripts/nyp_branch_dups_discovery.py:287-314 | an "ia" location forces neutral; otherwise never neutral; branches, research and mixed each hold iff their call-number and location conditions hold |
| BranchDups.LevelScore | scripts/nyp_branch_dups_discovery.py:112-119 | encoding level " ", "I" or "1" scores 2; one of "34578K" scores 1; all else 0 |
| BranchDups.ScoreRecordLevel | scripts/nyp_branch_dups_discovery.py:112-119 | fails exactly when the leader cannot be read at position 17; the score is at most 2 |
| BranchDups.RecordSignalsFacts | scripts/nyp_branch_dups_discovery.py:132-178 | reading a record's signals fails iff a bare 040 or an unreadable encoding level is met; the live and call-number signals are the deletion flag negated and 091-or-852 |
| BranchDups.Weight | scripts/nyp_branch_dups_discovery.py:131-178 | the sum of the points is at most 18; a live record gets at least 2; a deleted one at most 16 |
| BranchDups.BaseScore | scripts/nyp_branch_dups_discovery.py:127-183 | a record's base score is in range (at most 18, at least 2 when not marked for deletion, at most 16 when marked) and fails exactly when a signal cannot be read |
| BranchDups.ScoreIgnoresIsbns | scripts/nyp_branch_dups_discovery.py:180-183 | replacing the ISBNs never changes the score: the ISBN score is computed but not added |
| BranchDups.MapResults | scripts/nyp_branch_dups_discovery.py:129-183 | the loop over the records fails iff one record fails, and otherwise yields one value per record in order |
| BranchDups.MaxReal | scripts/nyp_branch_dups_discovery.py:192-194 | the newest timestamp is one of the timestamps and no timestamp exceeds it |
| BranchDups.WithBonus | scripts/nyp_branch_dups_discovery.py:195-199 | each id keeps its place and gets its base score plus 1 exactly when its timestamp equals the newest; at least one id gets the bonus; scores stay within 0..19 |
| BranchDups.DetermineRecordsScore | scripts/nyp_branch_dups_discovery.py:127-201 | fails iff there are no records or one record's signals cannot be read; otherwise one score per id, same ids in the same order, each the base score plus the freshness bonus |
| BranchDups.RecordsScoreBounded | scripts/nyp_branch_dups_discovery.py:127-201 | every score lies in 0..19 and some record is the newest |
| BranchDups.BaseScoresBounded | scripts/nyp_branch_dups_discovery.py:131-183 | every base score a batch produces is at most 18 |
| BranchDups.NewestAmongSameValues | scripts/nyp_branch_dups_discovery.py:192-196 | being newest depends only on the set of timestamps, not their order |
| BranchDups.TimestampsOfSameEntries | scripts/nyp_branch_dups_discovery.py:186-189 | records drawn from another batch have their timestamps among that batch's timestamps |
| BranchDups.SameEntriesScoreOk | scripts/nyp_branch_dups_discovery.py:127-201 | scoring a non-empty selection of a batch that scores succeeds too |
| BranchDups.SameEntriesSameNewest | scripts/nyp_branch_dups_discovery.py:186-199 | the same record in two orderings of a batch gets the bonus in both or in neither |
| BranchDups.ScoresIndependentOfOrder | scripts/nyp_branch_dups_discovery.py:127-201 | reordering the records never changes any record's score |
| BranchDups.ArgMaxFirst | scripts/nyp_branch_dups_discovery.py:205-208 | the position found holds a maximal score and every earlier score is strictly smaller |
| BranchDups.HighestScore | scripts/nyp_branch_dups_discovery.py:204-208 | fails iff there are no scores (the sorted list is empty); otherwise the winner's score is maximal and it is the first such id in dict order |
| BranchDups.Relate | scripts/nyp_branch_dups_discovery.py:242-263 | a call-number conflict takes precedence; a title conflict iff no call-number conflict and the titles differ; a clean duplicate otherwise |
| BranchDups.RowCells | scripts/nyp_branch_dups_discovery.py:245-262 | five cells: the winner and the other id each wrapped as b…a, the two compared values (empty for a missing one), and "awaiting" |
| BranchDups.CompareRow | scripts/nyp_branch_dups_discovery.py:233-263 | the row pairs the winner with the other id; title rows carry the titles, the other two reports the 091 call numbers |
| BranchDups.CompareAll | scripts/nyp_branch_dups_discovery.py:233-263 | one row per remaining record, in order; fails iff some record's call number or OCLC number cannot be read |
| BranchDups.CompareAllSavesOclc | scripts/nyp_branch_dups_discovery.py:236-240 | the OCLC numbers the loop saves are those of the remaining records, in order, none for a record without one |
| BranchDups.ReportFor | scripts/nyp_branch_dups_discovery.py:221-263 | with the winner deleted first, one row per other record, none of them pairs the winner with itself, each row's relation is decided by the two call numbers and titles; the saved OCLC numbers are the winner's, then the others' in order |
| BranchDups.CreateDupReport | scripts/nyp_branch_dups_discovery.py:211-263 | an empty batch fails; the winner is the highest-scoring id; one row per other record, none pairing the winner with itself |
| BranchDups.Screen | scripts/nyp_branch_dups_discovery.py:325-348 | fails iff the bib level is unreadable; a record is admitted iff it is not an ebook, is branches, passes the type gate and is not marked for deletion; ebooks go to their own report |
| BranchDups.IdsWhere | scripts/nyp_branch_dups_discovery.py:322-348 | one id per passing record, in record order: the collected ids are exactly the ids of the passing records |
| BranchDups.AdmittedIds | scripts/nyp_branch_dups_discovery.py:346-348 | the matched ids are the ids of the admitted records, one per admitted record, in record order |
| BranchDups.EbookRow | scripts/nyp_branch_dups_discovery.py:335-338 | the ebook row is the wrapped bib number and the ISBN cell, which is empty when there are no ISBNs |
| BranchDups.EbookRowSplits | scripts/nyp_branch_dups_discovery.py:335-338 | splitting the ISBN cell on commas gives back the record's ISBNs when there is one or more and none holds a comma |
| BranchDups.WhereIsFilter | scripts/nyp_branch_dups_discovery.py:322-348 | the records collected are those the front-to-back loop keeps, in the same order, one per passing record |
| BranchDups.IndexWhere | scripts/nyp_branch_dups_discovery.py:321-347 | the branch-match dict has distinct keys, holds only passing records under their own ids, and has a key for each passing record |
| BranchDups.IndexWhereHasKey | scripts/nyp_branch_dups_discovery.py:345-347 | the dict has a key exactly for each id of a passing record |
| BranchDups.IndexWhereKeys | scripts/nyp_branch_dups_discovery.py:345-347 | the dict's keys are the passing ids in the order each first passes, each once, which is the order the tie-break in `highest_score` walks |
| BranchDups.IndexWhereLastWins | scripts/nyp_branch_dups_discovery.py:345-347 | a repeated id holds the last passing record with that id |
| BranchDups.ParseResults | scripts/nyp_branch_dups_discovery.py:317-352 | one ebook row per ebook record, in record order, each that record's row; the matched ids are the admitted ones; a report exists iff more than one record is admitted, and it is the report of the admitted records |
| BranchDups.UnreadableLeaderStopsBatch | scripts/nyp_branch_dups_discovery.py:323-326 | one record with an unreadable bib level stops the whole batch |
| Dict.RemoveAt | scripts/nyp_branch_dups_discovery.py:230 | deleting the winner removes its key and keeps the other entries in order |
| TrailingB.SetControlData | scripts/trailing_b.py:19-30 | the first field with the tag now carries the data; an existing tag is overwritten, not duplicated; a missing tag is added once; no other tag changes |
| TrailingB.EnforceOclcSymbolIn003 | scripts/trailing_b.py:19-23 | the first 003 reads "OCoLC"; the number of 003s stays the same, or becomes 1 if there was none; other tags are untouched |
| TrailingB.AddOcnTo001 | scripts/trailing_b.py:26-30 | the first 001 is the OCN; an existing 001 is replaced rather than duplicated; other tags are untouched |
| TrailingB.OcnAsControlNo | scripts/trailing_b.py:33-39 | fails iff the record has no 001; otherwise the 001 is the OCN and the 003 reads "OCoLC" |
| TrailingB.AnyStartsWith | scripts/trailing_b.py:45-48 | true iff some value starts with the prefix |
| TrailingB.HasOcn | scripts/trailing_b.py:42-49 | true iff the field is present, has subfields, and some $a starts with "(OCoLC)", case-sensitively |
| TrailingB.HasOcnExamples | scripts/trailing_b.py:42-49 | another prefix, a trailing "B", a missing field and a field without $a behave as documented |
| TrailingB.NormalizeOcn | scripts/trailing_b.py:52-63 | rejects the value iff, lower-cased and stripped, it does not start with "(ocolc)"; any number returned is a non-empty digit string |
| TrailingB.DropTrailingB | scripts/trailing_b.py:57-58 | at most one trailing "b" or "B" goes; a value not ending in one is unchanged |
| TrailingB.NormalizeOcnRoundTrip | scripts/trailing_b.py:52-75 | the value line 75 writes back normalises to the same digits |
| TrailingB.NormalizeOcnStable | scripts/trailing_b.py:52-75 | normalising the rewritten 035 gives the same number again |
| TrailingB.NormalizeOcnPadded | scripts/trailing_b.py:52-63 | "(OCoLC)", blanks, digits, an optional b/B and blanks normalise to the digits |
| TrailingB.NormalizeOcnRejectsLetters | scripts/trailing_b.py:59-61 | a remainder that starts with a letter is rejected as not digits |
| TrailingB.Fix035 | scripts/trailing_b.py:71-75 | a field without an OCN is left alone; an OCN field yields digits and keeps its tag |
| TrailingB.Fix035Rewrites | scripts/trailing_b.py:72-75 | the rewrite succeeds iff the first $a normalises and is the only $a; then the $a becomes "(OCoLC)" + digits and still bears an OCN |
| TrailingB.Fix035sKeepsTags | scripts/trailing_b.py:71-75 | the 035 loop keeps every field's tag and position |
| TrailingB.Fix035sKeepsOthers | scripts/trailing_b.py:71-75 | fields other than 035 are untouched |
| TrailingB.Fix035sCollectsDigits | scripts/trailing_b.py:70-74 | every collected OCN is a digit string |
| TrailingB.Fix035sFailsOn | scripts/trailing_b.py:72-73 | one 035 whose OCN does not normalise fails the record |
| TrailingB.Fix035sFixesEach | scripts/trailing_b.py:71-75 | each 035 is replaced by its own rewrite |
| TrailingB.Fix035sCount | scripts/trailing_b.py:70-74 | one OCN is collected per OCN-bearing 035 |
| TrailingB.FixField | scripts/trailing_b.py:71-75 | non-035 fields pass through; a collected OCN is digits |
| TrailingB.Prune | scripts/trailing_b.py:84-88 | 908 is always removed; 991 is removed iff del_991 is "yes" and kept otherwise; no other tag changes |
| TrailingB.MoveOcn | scripts/trailing_b.py:77-82 | with exactly one OCN, 001 becomes it and 003 "OCoLC" without duplicating either; otherwise the record is unchanged |
| TrailingB.FixRecord | scripts/trailing_b.py:66-90 | fails iff some 035 fails; the leader is kept; 908 is gone, and 991 too when asked |
| TrailingB.FixRecordKeeps991 | scripts/trailing_b.py:84-86 | without "yes", the 991s survive the whole fix |
| TrailingB.FixRecordMovesOcn | scripts/trailing_b.py:77-82 | with exactly one OCN-bearing 035, the 001 is a digit string and the 003 "OCoLC", neither duplicated |
| TrailingB.FixRecordKeepsControlNumber | scripts/trailing_b.py:77-79 | with any other count of OCN-bearing 035s, the 001 and 003 are unchanged |
| TrailingB.Fix035sKeepsLegacy991 | scripts/trailing_b.py:71-75 | the 035 loop does not change whether some 991 $y names a number other than a given one |
| TrailingB.FixRecordIgnores991y | scripts/trailing_b.py:77-82 | as written: with one OCN-bearing 035 the number becomes the first 001 even when a 991 $y names another number, so a legacy 001 that differs is lost |
| TrailingB.MoveOcnIntended | scripts/trailing_b.py:3-7 | corrected: with one OCN and a 991 $y naming another number the record is left as it is; in every other case the step is MoveOcn's |
| TrailingB.FixRecordIntended | scripts/trailing_b.py:66-90 | corrected body: fails iff some 035 fails; the leader is kept; 908 is gone, and 991 too when asked |
| TrailingB.FixRecordIntendedKeepsLegacy | scripts/trailing_b.py:3-7 | corrected: when a 991 $y names another number, the 001s and 003s are those of the input and only the 035s are cleaned |
| TrailingB.FixRecordIntendedMovesOcn | scripts/trailing_b.py:3-5 | corrected: with no 991 $y naming another number the result is the code's, and the number becomes the first 001 with "OCoLC" in the first 003 |
| TrailingB.FixRecordIntendedOtherCounts | scripts/trailing_b.py:77-79 | corrected: with no OCN-bearing 035 or more than one, the result is the code's |
| ReadAlong.Retag | scripts/readalong.py:12-13 | a value that strips to "J" becomes "J-E"; any other value is unchanged |
| ReadAlong.JeSubfields | scripts/readalong.py:10-15 | no more subfields than $a values, all coded "a" |
| ReadAlong.JuvenileBecomesJe | scripts/readalong.py:12-15 | a "J" (blanks allowed) becomes one $a "J-E" |
| ReadAlong.FictionDropped | scripts/readalong.py:14-15 | a "FIC" (blanks allowed) is dropped |
| ReadAlong.OtherKeptVerbatim | scripts/readalong.py:14-15 | any other value is kept unstripped |
| ReadAlong.SettledKept | scripts/readalong.py:10-15 | values that are neither "J" nor "FIC" come through verbatim and in order |
| ReadAlong.OutputSettled | scripts/readalong.py:10-15 | no output value strips to "J" or "FIC" |
| ReadAlong.ChangeToJe | scripts/readalong.py:9-17 | the result is a 099 with blank indicators holding only $a subfields, no more of them than the input had $a |
| ReadAlong.ChangeToJeIdempotent | scripts/readalong.py:9-17 | converting an already converted call number changes nothing |
| ReadAlong.JuvenileFictionExample | scripts/readalong.py:9-17 | a word, "J", "FIC", a name come out as the word, "J-E", the name |
| MarcParser.IsbnToken | scripts/marc_parser.py:18 | an ISBN token is stripped and holds no blank |
| MarcParser.ExtractIsbns | scripts/marc_parser.py:15-21 | no entries give "" |
| MarcParser.ExtractIsbnsSplits | scripts/marc_parser.py:15-21 | splitting the output on "," gives back each entry's first token, one per entry, in order |
| MarcParser.ParseBibNo | scripts/marc_parser.py:24-30 | a number iff the input has at least 11 characters and character 1 is "b"; then it is characters 1..10, ten long, starting with "b" |
| MarcParser.ParseBibNoRoundTrip | scripts/marc_parser.py:24-30 | a 907 value of one character, the bib number and anything after gives the bib number back |
| MarcParser.ItemForm | scripts/marc_parser.py:41 | without an 008 the read fails; otherwise the item form is character 23 of an 008 |
| MarcParser.Eligible | scripts/marc_parser.py:39-42 | a leader of 7 or fewer characters fails at the first index it lacks; otherwise the type gate on leader 6, 7 and the item form |
| MarcParser.Marc2ListRow | scripts/marc_parser.py:39-57 | a row iff the record passes the gate and has no 852; such a record without a 907 is an error; the row's ISBNs come from the 020s and its bib number is MarcParser.ParseBibNo of the first 907's value: characters 1 to 10 of it when there are ten and they start "b", and none otherwise |
| MarcParser.Marc2ListRowBibNo | scripts/marc_parser.py:49-53 | a record that passes the gate, has no 852, and whose first 907 reads one character, a "b" bib number of ten characters, then anything, gets a row carrying exactly that bib number |
| MarcParser.Marc2ListCount | scripts/marc_parser.py:33-57 | a successful run writes one row per kept record |
| MarcParser.Marc2ListFails | scripts/marc_parser.py:33-57 | the run fails iff some record fails |
| Crosswalks.Flatten | scripts/crosswalks.py:27-30 | the flat list has two entries per subfield |
| Crosswalks.FlattenAt | scripts/crosswalks.py:27-30 | each subfield's code and content sit side by side in the flat list |
| Crosswalks.PairsOfFlatten | scripts/crosswalks.py:26-36 | reading the flat list as pairs gives back each subfield, in order |
| Crosswalks.ToField | scripts/crosswalks.py:19-36 | the tag is stored as the MARC library normalises it; the field is a control field exactly when the tag is a number below 10, holding the content, or empty data when subfields were sent; otherwise a data field with the indicators and the subfields in order, or none when none were sent |
| Crosswalks.ThreeDigitTagDecides | scripts/crosswalks.py:19-36 | a three-digit tag is kept, and the field is a control field exactly when the tag starts with "00" |
| Crosswalks.TagOverridesShape | scripts/crosswalks.py:19-36 | a 245 without subfields is a data field with none; a 001 with subfields is a control field with empty data |
| Crosswalks.PlatformToMarc | scripts/crosswalks.py:4-37 | the leader is that of the last "_" varField, else the default; the fields are the other varFields converted in order |
| Crosswalks.ConvertAllCount | scripts/crosswalks.py:15-36 | one field per varField that is not "_" |
| Crosswalks.ConvertAllAt | scripts/crosswalks.py:15-36 | input order is kept |
| Crosswalks.LeaderAddsNoField | scripts/crosswalks.py:16-17 | a "_" varField adds no field |
| Crosswalks.LastLeaderWins | scripts/crosswalks.py:16-17 | a later "_" overrides earlier ones |
| Crosswalks.KeepsLeader | scripts/crosswalks.py:16-17 | without a "_" the leader stays |
| OrderedFields.InsertionPoint | scripts/maps_crosswalk.py:197-198 | the place add_ordered_field picks lies after every field whose tag reads at most the new one's, and at the first field whose tag reads greater |
| OrderedFields.AddOrderedSplices | scripts/maps_crosswalk.py:197-198 | add_ordered_field inserts the field at that place and leaves the fields before and after it as they were |
| OrderedFields.AddOrderedOtherTags | scripts/trailing_b.py:23 | an ordered insertion changes no other tag's fields |
| OrderedFields.AddOrderedNewTag | scripts/trailing_b.py:23 | inserting a new tag makes it the only field with that tag |
| OrderedFields.AddOrderedPermutes | scripts/maps_crosswalk.py:197-198 | an ordered insertion adds the field and loses none |
| OrderedFields.AddAllOrderedPermutes | scripts/laptops_crosswalk.py:131-132 | adding fields in order keeps exactly the given fields |
| OrderedFields.AddOrderedKeepsOrder | scripts/maps_crosswalk.py:197-198 | insertion into a tag-ordered record keeps it ordered |
| OrderedFields.AddAllOrderedSorts | scripts/maps_crosswalk.py:197-198 | adding to an empty record yields ascending tags |
| OrderedFields.AddAllOrderedAppends | scripts/maps_crosswalk.py:197-198 | fields already in tag order are simply appended |
| OrderedFields.LastTwoSwapped | scripts/laptops_crosswalk.py:131-132 | a field with a smaller tag added last lands before the larger one |
| MapsCrosswalk.MakeMapData | scripts/maps_crosswalk.py:202-205 | a row makes a record iff it has all twelve columns |
| MapsCrosswalk.ParseRows | scripts/maps_crosswalk.py:202-205 | the sheet parses iff every row has twelve columns; one record per row |
| MapsCrosswalk.SourceReader | scripts/maps_crosswalk.py:202-205 | the header row "Barcode" is dropped and every other row kept |
| MapsCrosswalk.SourceReaderWithoutHeader | scripts/maps_crosswalk.py:202-205 | without a header row every row is kept |
| MapsCrosswalk.SourceReaderConcat | scripts/maps_crosswalk.py:202-205 | the sheet is read row by row: two parts read as the first's records followed by the second's, so order and repeats are kept |
| MapsCrosswalk.SourceReaderOne | scripts/maps_crosswalk.py:202-205 | a single header row gives nothing, any other twelve-column row its record |
| MapsCrosswalk.DetermineSequence | scripts/maps_crosswalk.py:34-35 | at least 8 characters; for n >= 0 the digits read back as n; 8 or more digits unchanged |
| MapsCrosswalk.SequenceInjective | scripts/maps_crosswalk.py:34-35 | different numbers give different sequences |
| MapsCrosswalk.EncodeScale | scripts/maps_crosswalk.py:43-48 | none iff there is no ":"; a result holds no comma |
| MapsCrosswalk.EncodeScaleOf | scripts/maps_crosswalk.py:43-48 | the result is the text after the first ":" with commas removed |
| MapsCrosswalk.NormScale | scripts/maps_crosswalk.py:51-55 | "Scale " + scale when ":" occurs, else "Scale not given" |
| MapsCrosswalk.ScaleStatementsAgree | scripts/maps_crosswalk.py:43-55 | the 255 says "Scale not given" iff no 034 is made |
| MapsCrosswalk.NormPubDateAsWritten | scripts/maps_crosswalk.py:58-62 | as written: an empty date gives a one-element list, any other date stays |
| MapsCrosswalk.PubDateAsWrittenNotText | scripts/maps_crosswalk.py:157-168 | the value for an empty date is not text that could go into $c |
| MapsCrosswalk.NormPubDate | scripts/maps_crosswalk.py:58-62 | corrected: never empty, and a given date is kept |
| MapsCrosswalk.NormPubDateCorrects | scripts/maps_crosswalk.py:58-62 | the corrected text is the as-written text, or the only element of the as-written list |
| MapsCrosswalk.ElementSubfields | scripts/maps_crosswalk.py:65-81 | $a the first element stripped, $z each middle one in order, $v the last stripped |
| MapsCrosswalk.SubjectSubfields | scripts/maps_crosswalk.py:65-81 | the heading split on " - " gives $a, the $z's and $v as above |
| MapsCrosswalk.SubjectCodes | scripts/maps_crosswalk.py:65-81 | starts "a", ends "v", "z" between; as many subfields as elements, at least two |
| MapsCrosswalk.SubjectWithoutDash | scripts/maps_crosswalk.py:65-81 | a heading without " - " is both $a and $v |
| MapsCrosswalk.EncodeSubjects | scripts/maps_crosswalk.py:84-90 | one 650 per "--" segment, in order |
| MapsCrosswalk.OneHeadingOneField | scripts/maps_crosswalk.py:84-90 | a string without "--" gives one 650 |
| MapsCrosswalk.MakeField | scripts/maps_crosswalk.py:128-136 | building a field succeeds iff it is given exactly two indicators |
| MapsCrosswalk.CoordinateFields | scripts/maps_crosswalk.py:120-126 | a 034 iff the scale encodes |
| MapsCrosswalk.AltTitleFields | scripts/maps_crosswalk.py:144-148 | a 246 iff the alternate title is given |
| MapsCrosswalk.ScaleFields | scripts/maps_crosswalk.py:150-153 | the 255 is always there |
| MapsCrosswalk.PublicationFields | scripts/maps_crosswalk.py:155-171 | the 264 is always there |
| MapsCrosswalk.SeriesFields | scripts/maps_crosswalk.py:173-177 | a 490 iff the series is given |
| MapsCrosswalk.NoteFields | scripts/maps_crosswalk.py:179-183 | a 500 iff the note is given |
| MapsCrosswalk.ContentsFields | scripts/maps_crosswalk.py:185-190 | a 505 iff the contents are given |
| MapsCrosswalk.SubjectFields | scripts/maps_crosswalk.py:192-195 | one 650 per heading, none without subjects |
| MapsCrosswalk.Field110 | scripts/maps_crosswalk.py:128-136 | the 110 is built iff two indicators are given |
| MapsCrosswalk.BuildMapBib | scripts/maps_crosswalk.py:93-199 | the record is made iff the 110 gets two indicators; then the map leader and the fields added in order |
| MapsCrosswalk.MakeMapBibAsWritten | scripts/maps_crosswalk.py:128-136 | as written, every call fails on the 110's one-element indicator list |
| MapsCrosswalk.MakeMapBib | scripts/maps_crosswalk.py:93-199 | corrected: the map leader; the fields stay in the order `make_bib` collects them, that order is ascending by tag, and the 001 "fldmap-" + sequence comes first |
| MapsCrosswalk.MapBibLayout | scripts/maps_crosswalk.py:93-199 | ordered insertion into an empty record leaves the collected fields in place, because their tags already ascend |
| MapsCrosswalk.Numbered | scripts/maps_crosswalk.py:208-214 | one record per row, the i-th numbered start + i |
| MapsCrosswalk.CreateBibsAsWritten | scripts/maps_crosswalk.py:208-214 | as written, a sheet with any row fails on the first row's 110 indicators; an empty sheet gives nothing |
| MapsCrosswalk.CreateBibs | scripts/maps_crosswalk.py:208-214 | corrected: one map record per row, built by the corrected `make_bib`, numbered from the start sequence |
| MapsCrosswalk.CreateBibsDistinct | scripts/maps_crosswalk.py:208-214 | corrected: two records of one run have different 001s |
| LaptopsCrosswalk.MakeLaptopData | scripts/laptops_crosswalk.py:19-22 | a row makes a record iff it has all its columns |
| LaptopsCrosswalk.ParseRows | scripts/laptops_crosswalk.py:19-22 | the sheet parses iff every row is complete; one record per row |
| LaptopsCrosswalk.SourceReader | scripts/laptops_crosswalk.py:19-22 | exactly the rows of the HP EliteBook 840 G6 are kept |
| LaptopsCrosswalk.SourceReaderConcat | scripts/laptops_crosswalk.py:19-22 | the sheet is read row by row: two parts read as the first's records followed by the second's, so order and repeats are kept |
| LaptopsCrosswalk.SourceReaderOne | scripts/laptops_crosswalk.py:19-22 | a single row of the model gives its record, any other six-column row nothing |
| LaptopsCrosswalk.OtherModelsSkipped | scripts/laptops_crosswalk.py:19-22 | rows of other models give nothing |
| LaptopsCrosswalk.DetermineLapNum | scripts/laptops_crosswalk.py:25-26 | characters 7 and 8 of the name, clipped like a Python slice |
| LaptopsCrosswalk.LapNumOf | scripts/laptops_crosswalk.py:25-26 | a seven-character stem then two characters gives those two |
| LaptopsCrosswalk.DetermineLockerNum | scripts/laptops_crosswalk.py:29-30 | "Locker number " followed by the last four characters (fewer if the name is short) |
| LaptopsCrosswalk.LockerNumOf | scripts/laptops_crosswalk.py:29-30 | a name ending in four characters gives "Locker number " + those four |
| LaptopsCrosswalk.ConstructItemNote | scripts/laptops_crosswalk.py:33-34 | the note starts with the bay, ends with the WLAN MAC, and holds the serial at its fixed place |
| LaptopsCrosswalk.ItemNoteNamesLaptop | scripts/laptops_crosswalk.py:33-34 | right after " - Name: " the note names the laptop as "32_PUBLAP" followed by the laptop number, once |
| LaptopsCrosswalk.AltTitles | scripts/laptops_crosswalk.py:60-68 | six title variants, the last the PC name |
| LaptopsCrosswalk.AltTitleFields | scripts/laptops_crosswalk.py:59-87 | eight 246s with indicators "3" " ": six with a single $a, then two with $a type. and $n |
| LaptopsCrosswalk.FixedField | scripts/laptops_crosswalk.py:46-49 | the 008 begins with the supplied date |
| LaptopsCrosswalk.IdentityFields | scripts/laptops_crosswalk.py:45-57 | the 008, the 099 and a 245 whose $a is the locker text followed by "." |
| LaptopsCrosswalk.MakeLaptopBib | scripts/laptops_crosswalk.py:37-134 | the fixed laptop leader; fifteen fields ascending by tag, the 949 ahead of the 960; the closing 960 $n is the item note for the locker and laptop number read from the computer name |
| LaptopsCrosswalk.LaptopBibLayout | scripts/laptops_crosswalk.py:37-134 | ordered insertion keeps the fields up to the 500 in place and puts the 949, added last, before the 960 |
| LaptopsCrosswalk.LaptopBibTitles | scripts/laptops_crosswalk.py:54-87 | the 245 then exactly the eight 246s, no other 246 |
| LaptopsCrosswalk.LaptopBibDate | scripts/laptops_crosswalk.py:46-49 | the first field is the 008: the date then the fixed suffix |
| LaptopsCrosswalk.LaptopNoteExample | scripts/laptops_crosswalk.py:33-34 | for the computer "ABCDEFG07-1234" the note reads "Bay #: Locker number 1234 - Name: 32_PUBLAP07 - …" |
| LaptopsCrosswalk.CreateBibs | scripts/laptops_crosswalk.py:137-142 | one laptop record per kept row, in order |
| VerifyBibNos.ExtractSierraNo | scripts/verify_platform_bib_nos.py:17-19 | starts "b", ends "a"; ten long with the line's characters -10..-2 inside when the line has ten or more |
| VerifyBibNos.ExtractSierraNoOf | scripts/verify_platform_bib_nos.py:17-19 | eight digits and two more characters at the end give "b" + digits + "a" |
| VerifyBibNos.ScanOfKept | scripts/verify_platform_bib_nos.py:22-27 | the generator yields f of the passing lines, in line order |
| VerifyBibNos.MissingOfNotFound | scripts/verify_platform_bib_nos.py:22-27 | one number per line with the 404 marker, in line order |
| VerifyBibNos.OtherLinesSilent | scripts/verify_platform_bib_nos.py:25-27 | lines without the marker contribute nothing |
| VerifyBibNos.MissingSierraNumbers | scripts/verify_platform_bib_nos.py:22-27 | the loop yields the numbers of the marker lines, as many as there are such lines |

## Left out

- File and network I/O: reading MARC and CSV files, writing CSV and MARC
  (`save2csv`, `save2marc`), `query_platform`, the platform session and token
  classes, `check_bib_in_platform` and `verify`. Rows and records are returned
  instead of being written.
- Logging and warnings (including the `warnings.warn` in `fix_file`) and all
  `__main__` blocks.
- The contents of `research_locations`, `platform` and `utils`. These are
  not part of this model; the research location codes are a parameter.
- scripts/errors.py only declares exception classes; raised exceptions are
  `Err` values.
- A failing batch returns only an error in the model and writes nothing.
  The scripts have already written the rows for the records before the
  failing one.
- The wall clock: `create_timestamp` and `date.today` are parameters (a
  timestamp string, a date string, a per-record clock).
- `readalong.process_file`: its 947 and 949 construction and the 998 lookup
  are glue around `change_to_je`.
- `get_locations`, `get_bibNo`, `get_isbns` and `get_normalized_title` read
  one JSON key each and carry no contract.
- PlatformBib.GetTimestamp: `float()` is restricted to `digits[.digits]`.
  Other text that Python parses counts as unparsable.
- PlatformBib.LastControlNumber: `int()` is restricted to ASCII digit
  strings. Blanks and signs are not modelled.
- Strings: `strip`, `lower` and `upper` know only ASCII white space and
  letters.
- OrderedFields.TagValue: a tag that is not a digit string reads as 0,
  where pymarc's `int(tag)` would raise. Every tag the scripts add is three
  digits.
- pymarc's `Field.value()` is modelled as the subfield values joined by
  single spaces.
- pymarc encoding flags are not modelled.
- TrailingB.SetControlData: an existing field with the tag is replaced by
  a control field. The script only sets `.data` on it, which differs only
  when that field was a data field.
- MarcParser.Marc2ListRow: `raise (f"...")` raises a TypeError rather than
  the message. The model reports the missing 907 as one error value.
- ReadAlong.ChangeToJe requires a data field. A 099 read by pymarc always
  is one.
- Crosswalks.ToField: a JSON `null` content becomes empty text.
- Crosswalks.ToField: a varField with no marcTag makes the MARC library raise TypeError (`int(None)`); the data model carries a missing marcTag as "" and cannot tell the two apart, so that failure is not represented.
- Crosswalks.ToField: the library's `int(tag)` also accepts surrounding blanks, a sign and underscores; the model treats only plain digit strings as numeric tags, which covers the three-digit tags the catalog sends.
- BranchDups.DetermineRecordsScore: `standardNumbers` is always a list.
  A JSON `null` there makes `len(None)` in `score_isbns` raise for every
  record, and the model cannot express that failure.
- BranchDups.EbookRow: for the same reason, the `",".join(None)` failure
  of an ebook with null ISBNs is not modelled.
- BranchDups.IdentifyLibrary: `locations` is always a list. A JSON `null`
  there makes `get_locations` raise, which the model cannot express.
- BranchDups.IdentifyLibrary: follows the code, which marks a record as
  branches when it has a 091 or when none of its locations is a research
  location. A record with no locations at all therefore counts as
  branches.
- PlatformBib.IsMarkedForDeletion: `fixedFields` is always present. A
  record without the key raises a KeyError in the script.
- PlatformBib.GetBranchCallNumber: subfield contents are always text. A
  JSON `null` content makes `" ".join` raise in the script.
- BranchDups.ReportFor: the OCLC numbers saved for holdings cleanup are
  read with line 202 of the parser corrected (`GetOclcNumberIntended`,
  see Findings). Lines 226 and 238 call the as-written `get_oclc_number`,
  which never takes a 991 $y. The same holds for BranchDups.CompareAll and
  BranchDups.CreateDupReport.
- MapsCrosswalk.CreateBibs: built on the corrected MakeMapBib. As written,
  the first row raises at line 133 (see Findings), so no record is made;
  MapsCrosswalk.CreateBibsAsWritten states that. The same holds for
  MapsCrosswalk.CreateBibsDistinct.
- TrailingB.FixRecord: follows the code; the docstring's 991 $y rule is
  not implemented there (see Findings). TrailingB.FixRecordIntended adds it.
  A 991 $y is compared, as text, with the normalised number.
- LaptopsCrosswalk.MakeLaptopBib: follows the code, which builds the 960
  before the 949. `add_ordered_field` then puts the 949 first.

## Findings

| source | as written | input that shows it | evidently intended | confidence | as-written member | corrected member |
|---|---|---|---|---|---|---|
| scripts/platform_bib_parser.py:202 | `oclc_number == subfield.get("content")` compares and discards, so a 991 $y never supplies the OCLC number | a bib whose only number is a 991 with $y "12345": the result is None | assign the $y content, so that the 991 $y can supply the number | high (not executed) | PlatformBib.OclcNumberFrom991Lost | PlatformBib.GetOclcNumberIntended |
| scripts/maps_crosswalk.py:133 | `indicators=["1" " "]` is one string "1 " after implicit concatenation, and pymarc demands two indicators | any map row: `make_bib` raises before the record is built | `["1", " "]` | high (not executed) | MapsCrosswalk.MakeMapBibAsWritten | MapsCrosswalk.MakeMapBib |
| scripts/maps_crosswalk.py:58-62 | an empty date becomes the list `["date of publication not identified"]`, which then goes into 264 $c as a list | a row with an empty publication date | the text "date of publication not identified" | medium (not executed) | MapsCrosswalk.PubDateAsWrittenNotText | MapsCrosswalk.NormPubDateCorrects |
| scripts/trailing_b.py:77-82 | the module docstring (lines 3-7) keeps the legacy 001 when a 991 $y differs from the 035, but the body never reads a 991 and moves the single number whenever there is one | a record with 001 "legacy", one 035 $a "(OCoLC)123B" and a 991 $y "456": the 001 becomes "123" | keep the 001 and 003 and only clean the 035 | medium (not executed) | TrailingB.FixRecordIgnores991y | TrailingB.FixRecordIntendedKeepsLegacy |

=== FILE: branch_dups.dfy ===
/** The branch duplicate-detection engine of
  scripts/nyp_branch_dups_discovery.py: eligibility and ebook gates, the
  four-way library classifier, the weighted record scorer with its
  freshness bonus, winner selection and the pairwise classification of the
  remaining candidates. CSV writes are returned as rows; the research
  location codes (RES_CODES, defined outside this model) are a parameter. */
module BranchDups {
  import opened Results
  import opened Strings
  import opened Dict
  import opened PlatformBib
  import opened Rows

  // ---------------------------------------------------------------------
  // Gates

  /** `is_valid_bib_type`: language material, monograph, printed (blank or
      "d" form of item). */
  predicate IsValidBibType(recType: char, blvl: char, itemForm: Option<char>)
    ensures IsValidBibType(recType, blvl, itemForm) ==> !IsEbook(recType, blvl, itemForm)
  {
    recType == 'a' && blvl == 'm' && (itemForm == Some(' ') || itemForm == Some('d'))
  }

  /** `is_ebook`: language material, monograph, online form of item. */
  predicate IsEbook(recType: char, blvl: char, itemForm: Option<char>) {
    recType == 'a' && blvl == 'm' && itemForm == Some('o')
  }

  /** `has_call_number_conflict`: equal values, or a missing one, are never
      a conflict. */
  function HasCallNumberConflict(call1: Option<string>, call2: Option<string>): (r: bool)
    ensures r <==> call1.Some? && call2.Some? && call1.value != call2.value
  {
    if call1 == call2 then false
    else if call1.None? || call2.None? then false
    else true
  }

  /** `has_title_discrepancies`. */
  predicate HasTitleDiscrepancies(b1: Bib, b2: Bib) {
    GetNormalizedTitle(b1) != GetNormalizedTitle(b2)
  }

  // ---------------------------------------------------------------------
  // Library affiliation

  /** `has_research_location`: returns at the first research location. */
  function AnyIn(locs: seq<string>, codes: set<string>): (r: bool)
    ensures r <==> exists i :: 0 <= i < |locs| && locs[i] in codes
  {
    if locs == [] then false
    else if locs[0] in codes then true
    else
      assert forall i :: 0 < i < |locs| ==> locs[i] == locs[1..][i - 1];
      AnyIn(locs[1..], codes)
  }

  /** `has_only_branch_locations`: walks every location, clearing the flag
      at each research one. */
  function NoneIn(locs: seq<string>, codes: set<string>): (r: bool)
    ensures r <==> forall i :: 0 <= i < |locs| ==> locs[i] !in codes
  {
    if locs == [] then true
    else
      assert forall i :: 0 < i < |locs| ==> locs[i] == locs[1..][i - 1];
      locs[0] !in codes && NoneIn(locs[1..], codes)
  }

  predicate HasResearchLocation(b: Bib, resCodes: set<string>) {
    AnyIn(GetLocations(b), resCodes)
  }

  /** True for a record with no locations at all. */
  predicate HasOnlyBranchLocations(b: Bib, resCodes: set<string>)
    ensures HasOnlyBranchLocations(b, resCodes) <==> !HasResearchLocation(b, resCodes)
  {
    NoneIn(GetLocations(b), resCodes)
  }

  /** `has_ebook_location`: the "ia" location is held. */
  predicate HasEbookLocation(b: Bib) {
    "ia" in GetLocations(b)
  }

  datatype Library = Neutral | Research | Mixed | Branches

  /** `identify_library`. The "ia" location decides first; otherwise a
      research signal (852 or a research location) and a branch signal
      (091, or no research location at all) combine. */
  function IdentifyLibrary(b: Bib, resCodes: set<string>): (lib: Library)
    ensures HasEbookLocation(b) ==> lib == Neutral
    ensures !HasEbookLocation(b) ==> lib != Neutral
    ensures lib == Branches <==>
      !HasEbookLocation(b) && !HasResearchCallNumber(b) && !HasResearchLocation(b, resCodes)
    ensures lib == Research <==>
      !HasEbookLocation(b) && HasResearchLocation(b, resCodes) && !HasBranchCallNumber(b)
    ensures lib == Mixed <==>
      !HasEbookLocation(b) && (HasResearchCallNumber(b) || HasResearchLocation(b, resCodes))
      && (HasBranchCallNumber(b) || !HasResearchLocation(b, resCodes))
  {
    var research := HasResearchCallNumber(b) || HasResearchLocation(b, resCodes);
    var branches := HasBranchCallNumber(b) || HasOnlyBranchLocations(b, resCodes);
    if HasEbookLocation(b) then Neutral
    else if research && !branches then Research
    else if research && branches then Mixed
    else if !research && branches then Branches
    else Neutral
  }

  // ---------------------------------------------------------------------
  // Scoring

  /** The points `score_record_level` gives an encoding level. */
  function LevelScore(lvl: char): (s: nat)
    ensures s <= 2
    ensures s == 2 <==> lvl == ' ' || lvl == 'I' || lvl == '1'
    ensures s == 1 <==> lvl in "34578K"
  {
    if lvl in " I1" then 2
    else if lvl in "34578K" then 1
    else 0
  }

  /** `score_record_level`; fails where reading leader position 17 fails. */
  function ScoreRecordLevel(b: Bib): (r: Result<nat>)
    ensures r.Err? <==> GetEncodingLevel(b).Err?
    ensures r.Ok? ==> r.value <= 2
  {
    var lvl :- GetEncodingLevel(b);
    Ok(LevelScore(lvl))
  }

  /** The facts `determine_records_score` reads off one record. */
  datatype Signals = Signals(
    live: bool,
    callNumber: bool,
    oclcNumber: bool,
    lcNumber: bool,
    deweyCall: bool,
    lcCall: bool,
    contents: bool,
    summary: bool,
    authenticated: bool,
    dlc: bool,
    subjects: bool,
    level: nat)

  /** Reads the signals in the order the scorer does; the DLC check and the
      encoding level are the two that can fail. */
  function RecordSignals(b: Bib): Result<Signals> {
    var dlc :- IsDlcRecord(b);
    var level :- ScoreRecordLevel(b);
    Ok(Signals(!MarkedForDeletion(b), HasCallNumber(b), HasOclcNumber(b), HasLcNumber(b),
               Has082Tag(b), Has050Tag(b), Has505Tag(b), Has520Tag(b),
               HasNationalLibraryAuthenticationCode(b), dlc, HasSubjectTags(b), level))
  }

  /** What the signals say about the record: they fail exactly where a
      040 without subfields or an unreadable encoding level stops the
      scorer, and otherwise record liveness, the call number and the level
      points faithfully. */
  lemma RecordSignalsFacts(b: Bib)
    ensures RecordSignals(b).Err? <==> HasBare(b.varFields, "040") || GetEncodingLevel(b).Err?
    ensures RecordSignals(b).Ok? ==> RecordSignals(b).value.level <= 2
    ensures RecordSignals(b).Ok? ==> (RecordSignals(b).value.live <==> !MarkedForDeletion(b))
    ensures RecordSignals(b).Ok? ==>
      (RecordSignals(b).value.callNumber <==> HasBranchCallNumber(b) || HasResearchCallNumber(b))
  {
  }

  function Points(earned: bool, n: nat): nat {
    if earned then n else 0
  }

  /** The weights of `determine_records_score`: two points for being live,
      for a call number, an OCLC number, an authentication code and DLC
      cataloguing; one for an LCCN, a Dewey or LC call number, a contents or
      summary note, and subject headings; plus the encoding-level points. */
  function Weight(s: Signals): (w: nat)
    requires s.level <= 2
    ensures w <= 18
    ensures s.live ==> w >= 2
    ensures !s.live ==> w <= 16
  {
    Points(s.live, 2) + Points(s.callNumber, 2) + Points(s.oclcNumber, 2)
    + Points(s.lcNumber, 1) + Points(s.deweyCall, 1) + Points(s.lcCall, 1)
    + Points(s.contents, 1) + Points(s.summary, 1)
    + Points(s.authenticated, 2) + Points(s.dlc, 2) + Points(s.subjects, 1)
    + s.level
  }

  /** One record's score in `determine_records_score`, before the freshness
      bonus. `score_isbns` is evaluated there but never added. */
  function BaseScore(b: Bib): (r: Result<nat>)
    ensures r.Err? <==> RecordSignals(b).Err?
    ensures r.Ok? ==> r.value <= 18
    ensures r.Ok? && !MarkedForDeletion(b) ==> r.value >= 2
    ensures r.Ok? && MarkedForDeletion(b) ==> r.value <= 16
  {
    RecordSignalsFacts(b);
    var s :- RecordSignals(b);
    Ok(Weight(s))
  }

  /** Two records agreeing on their variable and fixed fields read the same
      signals. */
  lemma SignalsFromFields(b1: Bib, b2: Bib)
    requires b1.varFields == b2.varFields && b1.fixedFields == b2.fixedFields
    ensures RecordSignals(b1) == RecordSignals(b2)
  {
  }

  /** The number of ISBNs never reaches the score. */
  lemma ScoreIgnoresIsbns(b: Bib, isbns: seq<string>)
    ensures BaseScore(b.(standardNumbers := isbns)) == BaseScore(b)
  {
    SignalsFromFields(b.(standardNumbers := isbns), b);
  }

  /** Applies a fallible scorer to every element, failing if any fails. */
  function MapResults<T, U>(xs: seq<T>, f: T -> Result<U>): (r: Result<seq<U>>)
    ensures r.Err? <==> exists i :: 0 <= i < |xs| && f(xs[i]).Err?
    ensures r.Ok? ==> |r.value| == |xs|
    ensures r.Ok? ==> forall i :: 0 <= i < |xs| ==> f(xs[i]) == Ok(r.value[i])
  {
    if xs == [] then Ok([])
    else
      var init := xs[..|xs| - 1];
      assert forall i :: 0 <= i < |init| ==> init[i] == xs[i];
      var front :- MapResults(init, f);
      var last :- f(xs[|xs| - 1]);
      Ok(front + [last])
  }

  function Timestamps(bibs: seq<(string, Bib)>): (ts: seq<real>)
    ensures |ts| == |bibs|
    ensures forall i :: 0 <= i < |bibs| ==> ts[i] == GetTimestamp(bibs[i].1)
  {
    seq(|bibs|, i requires 0 <= i < |bibs| => GetTimestamp(bibs[i].1))
  }

  /** `sorted(values, reverse=True)[0]`. */
  function MaxReal(xs: seq<real>): (m: real)
    requires |xs| > 0
    ensures exists i :: 0 <= i < |xs| && xs[i] == m
    ensures forall i :: 0 <= i < |xs| ==> xs[i] <= m
  {
    if |xs| == 1 then xs[0]
    else
      var init := xs[..|xs| - 1];
      assert forall i :: 0 <= i < |init| ==> init[i] == xs[i];
      var m := MaxReal(init);
      if xs[|xs| - 1] > m then xs[|xs| - 1] else m
  }

  /** Position `i` holds the newest timestamp. */
  predicate NewestAt(ts: seq<real>, i: nat)
    requires i < |ts|
  {
    forall j :: 0 <= j < |ts| ==> ts[j] <= ts[i]
  }

  /** Pairs each key with its base score, plus one for every position tied
      for the newest timestamp. */
  function WithBonus(keys: seq<string>, base: seq<nat>, ts: seq<real>): (r: seq<(string, int)>)
    requires |keys| == |base| == |ts| > 0
    ensures |r| == |keys|
    ensures forall i :: 0 <= i < |r| ==> r[i].0 == keys[i]
    ensures forall i :: 0 <= i < |r| ==> r[i].1 == base[i] + (if NewestAt(ts, i) then 1 else 0)
    ensures exists i :: 0 <= i < |ts| && NewestAt(ts, i)
    ensures (forall i :: 0 <= i < |base| ==> base[i] <= 18) ==> forall i :: 0 <= i < |r| ==> 0 <= r[i].1 <= 19
  {
    var newest := MaxReal(ts);
    assert forall i :: 0 <= i < |ts| ==> (NewestAt(ts, i) <==> ts[i] == newest);
    seq(|keys|, i requires 0 <= i < |keys| => (keys[i], base[i] + (if ts[i] == newest then 1 else 0)))
  }

  /** `determine_records_score`: one score per candidate, keyed and ordered
      like the candidates; every candidate tied for the newest timestamp
      gets one extra point. An empty batch fails at `sorted(...)[0]`. */
  function DetermineRecordsScore(bibs: seq<(string, Bib)>): (r: Result<seq<(string, int)>>)
    requires DistinctKeys(bibs)
    ensures r.Err? <==> bibs == [] || exists i :: 0 <= i < |bibs| && BaseScore(bibs[i].1).Err?
    ensures r.Ok? ==> |r.value| == |bibs| && DistinctKeys(r.value)
    ensures r.Ok? ==> forall i :: 0 <= i < |bibs| ==> r.value[i].0 == bibs[i].0
    ensures r.Ok? ==> forall i :: 0 <= i < |bibs| ==>
      r.value[i].1 == BaseScore(bibs[i].1).value + (if NewestAt(Timestamps(bibs), i) then 1 else 0)
  {
    var cs := Values(bibs);
    var base :- MapResults(cs, BaseScore);
    if bibs == [] then Err(EmptyBatch)
    else Ok(WithBonus(Keys(bibs), base, Timestamps(bibs)))
  }

  /** Every score lies between 0 and 19, and at least one candidate gets
      the newest-timestamp point. */
  lemma RecordsScoreBounded(bibs: seq<(string, Bib)>)
    requires DistinctKeys(bibs)
    requires DetermineRecordsScore(bibs).Ok?
    ensures forall i :: 0 <= i < |bibs| ==> 0 <= DetermineRecordsScore(bibs).value[i].1 <= 19
    ensures exists i :: 0 <= i < |bibs| && NewestAt(Timestamps(bibs), i)
  {
    var cs := Values(bibs);
    var base := MapResults(cs, BaseScore).value;
    BaseScoresBounded(cs, base);
    var scored := WithBonus(Keys(bibs), base, Timestamps(bibs));
    assert DetermineRecordsScore(bibs).value == scored;
  }

  lemma BaseScoresBounded(cs: seq<Bib>, base: seq<nat>)
    requires |base| == |cs|
    requires forall i :: 0 <= i < |cs| ==> BaseScore(cs[i]) == Ok(base[i])
    ensures forall i :: 0 <= i < |base| ==> base[i] <= 18
  {
    forall i | 0 <= i < |base| ensures base[i] <= 18 {
      assert BaseScore(cs[i]).Ok?;
    }
  }

  /** Whether a value is the newest depends only on the set of values
      around it, not on their arrangement. */
  lemma NewestAmongSameValues(ts: seq<real>, us: seq<real>, i: nat, j: nat)
    requires forall k :: 0 <= k < |us| ==> us[k] in ts
    requires forall k :: 0 <= k < |ts| ==> ts[k] in us
    requires i < |ts| && j < |us| && ts[i] == us[j]
    ensures NewestAt(ts, i) <==> NewestAt(us, j)
  {
    forall k | 0 <= k < |us| ensures NewestAt(ts, i) ==> us[k] <= us[j] {
      assert us[k] in ts;
    }
    forall k | 0 <= k < |ts| ensures NewestAt(us, j) ==> ts[k] <= ts[i] {
      assert ts[k] in us;
    }
  }

  /** Every timestamp of one arrangement appears in the other. */
  lemma TimestampsOfSameEntries(bibs: seq<(string, Bib)>, other: seq<(string, Bib)>)
    requires forall e :: e in bibs ==> e in other
    ensures forall k :: 0 <= k < |bibs| ==> Timestamps(bibs)[k] in Timestamps(other)
  {
    var ts, us := Timestamps(bibs), Timestamps(other);
    forall k | 0 <= k < |bibs| ensures ts[k] in us {
      var x := ts[k];
      assert bibs[k] in other;
      var m :| 0 <= m < |other| && other[m] == bibs[k];
      assert us[m] == x;
    }
  }

  lemma SameEntriesScoreOk(bibs: seq<(string, Bib)>, other: seq<(string, Bib)>)
    requires DistinctKeys(bibs) && DistinctKeys(other)
    requires forall e :: e in other ==> e in bibs
    requires other != []
    requires DetermineRecordsScore(bibs).Ok?
    ensures DetermineRecordsScore(other).Ok?
  {
    assert forall j :: 0 <= j < |bibs| ==> BaseScore(bibs[j].1).Ok?;
    forall k | 0 <= k < |other| ensures BaseScore(other[k].1).Ok? {
      assert other[k] in bibs;
      var j :| 0 <= j < |bibs| && bibs[j] == other[k];
    }
    assert !exists k :: 0 <= k < |other| && BaseScore(other[k].1).Err?;
  }

  lemma SameEntriesSameNewest(bibs: seq<(string, Bib)>, other: seq<(string, Bib)>, i: nat, j: nat)
    requires forall e :: e in bibs <==> e in other
    requires i < |bibs| && j < |other| && bibs[i] == other[j]
    ensures NewestAt(Timestamps(bibs), i) <==> NewestAt(Timestamps(other), j)
  {
    TimestampsOfSameEntries(bibs, other);
    TimestampsOfSameEntries(other, bibs);
    NewestAmongSameValues(Timestamps(bibs), Timestamps(other), i, j);
  }

  /** Scores do not depend on the order the candidates arrive in: the same
      entry scores the same in any arrangement of the same entries. */
  lemma ScoresIndependentOfOrder(bibs: seq<(string, Bib)>, other: seq<(string, Bib)>, i: nat, j: nat)
    requires DistinctKeys(bibs) && DistinctKeys(other)
    requires forall e :: e in bibs <==> e in other
    requires i < |bibs| && j < |other| && bibs[i] == other[j]
    requires DetermineRecordsScore(bibs).Ok?
    ensures DetermineRecordsScore(other).Ok?
    ensures DetermineRecordsScore(other).value[j].1 == DetermineRecordsScore(bibs).value[i].1
  {
    SameEntriesScoreOk(bibs, other);
    SameEntriesSameNewest(bibs, other, i, j);
    var b := bibs[i].1;
    var bonus := if NewestAt(Timestamps(bibs), i) then 1 else 0;
    assert DetermineRecordsScore(bibs).value[i].1 == BaseScore(b).value + bonus;
    assert DetermineRecordsScore(other).value[j].1 == BaseScore(b).value + bonus;
  }

  /** Position of the first maximal element. */
  function ArgMaxFirst(xs: seq<int>): (k: nat)
    requires |xs| > 0
    ensures k < |xs|
    ensures forall j :: 0 <= j < |xs| ==> xs[j] <= xs[k]
    ensures forall j :: 0 <= j < k ==> xs[j] < xs[k]
  {
    if |xs| == 1 then 0
    else
      var init := xs[..|xs| - 1];
      assert forall i :: 0 <= i < |init| ==> init[i] == xs[i];
      var k := ArgMaxFirst(init);
      if xs[|xs| - 1] > xs[k] then |xs| - 1 else k
  }

  /** `highest_score`: the first id, in dict order, whose score is the
      maximum. An empty table fails at `sorted(...)[0]`. */
  function HighestScore(scores: seq<(string, int)>): (r: Result<string>)
    ensures r.Err? <==> scores == []
    ensures r.Ok? ==> exists k :: 0 <= k < |scores| && scores[k].0 == r.value
                       && (forall j :: 0 <= j < |scores| ==> scores[j].1 <= scores[k].1)
                       && (forall j :: 0 <= j < k ==> scores[j].1 < scores[k].1)
  {
    if scores == [] then Err(EmptyBatch)
    else Ok(scores[ArgMaxFirst(Values(scores))].0)
  }

  // ---------------------------------------------------------------------
  // Duplicate report

  datatype Relation = CallNumberConflict | TitleConflict | CleanDuplicate

  /** How a candidate relates to the winner: a call-number conflict takes
      precedence over a title conflict; anything else is a clean duplicate. */
  function Relate(dstCall: Option<string>, call: Option<string>,
                  dstTitle: Option<string>, title: Option<string>): (rel: Relation)
    ensures rel == CallNumberConflict <==> dstCall.Some? && call.Some? && dstCall.value != call.value
    ensures rel == TitleConflict <==> !HasCallNumberConflict(dstCall, call) && dstTitle != title
    ensures rel == CleanDuplicate <==> !HasCallNumberConflict(dstCall, call) && dstTitle == title
  {
    if HasCallNumberConflict(dstCall, call) then CallNumberConflict
    else if dstTitle != title then TitleConflict
    else CleanDuplicate
  }

  /** One report row: relation, winner id, candidate id and the two values
      compared (call numbers, or titles for a title conflict). */
  datatype DupRow = DupRow(
    relation: Relation,
    winner: string,
    other: string,
    winnerValue: Option<string>,
    otherValue: Option<string>)

  /** A CSV cell: csv writes None as an empty string. */
  function Cell(v: Option<string>): string {
    v.GetOr("")
  }

  /** The CSV row written for a report row. */
  function RowCells(row: DupRow): (cells: seq<string>)
    ensures |cells| == 5 && cells[4] == "awaiting"
    ensures cells[0] == "b" + row.winner + "a" && cells[1] == "b" + row.other + "a"
    ensures row.winnerValue.Some? ==> cells[2] == row.winnerValue.value
    ensures row.otherValue.Some? ==> cells[3] == row.otherValue.value
    ensures row.winnerValue.None? ==> cells[2] == ""
    ensures row.otherValue.None? ==> cells[3] == ""
  {
    ["b" + row.winner + "a", "b" + row.other + "a", Cell(row.winnerValue), Cell(row.otherValue), "awaiting"]
  }

  /** The winner, the OCLC numbers kept for holdings cleanup (winner first)
      and one row per other candidate. */
  datatype DupReport = DupReport(winner: string, oclcNumbers: seq<string>, rows: seq<DupRow>)

  function OptionToSeq(o: Option<string>): (s: seq<string>)
    ensures |s| <= 1
    ensures o.Some? ==> s == [o.value]
    ensures o.None? ==> s == []
  {
    if o.Some? then [o.value] else []
  }

  /** What `create_dup_report` saves for later OCLC holdings cleanup from
      one candidate: its OCLC number when it has one, read with line 202
      of the parser corrected. */
  function SavedOclc(e: (string, Bib)): seq<string> {
    match GetOclcNumberIntended(e.1)
    case Ok(o) => OptionToSeq(o)
    case Err(_) => []
  }

  function CompareRow(dstId: string, dstCall: Option<string>, dstTitle: Option<string>,
                      id: string, call: Option<string>, title: Option<string>): (row: DupRow)
    ensures row.winner == dstId && row.other == id
    ensures row.relation == Relate(dstCall, call, dstTitle, title)
    ensures row.relation == TitleConflict ==> row.winnerValue == dstTitle && row.otherValue == title
    ensures row.relation != TitleConflict ==> row.winnerValue == dstCall && row.otherValue == call
  {
    var rel := Relate(dstCall, call, dstTitle, title);
    if rel == TitleConflict then DupRow(rel, dstId, id, dstTitle, title)
    else DupRow(rel, dstId, id, dstCall, call)
  }

  /** The loop over the candidates left after the winner is removed: one
      row per candidate, and the OCLC numbers saved, in candidate order. */
  function CompareAll(dstId: string, dstCall: Option<string>, dstTitle: Option<string>,
                      rest: seq<(string, Bib)>): (r: Result<(seq<DupRow>, seq<string>)>)
    ensures r.Ok? ==> |r.value.0| == |rest|
    ensures r.Ok? ==> forall i :: 0 <= i < |rest| ==>
      GetBranchCallNumber(rest[i].1).Ok? && GetOclcNumberIntended(rest[i].1).Ok?
      && r.value.0[i] == CompareRow(dstId, dstCall, dstTitle, rest[i].0,
                                    GetBranchCallNumber(rest[i].1).value, GetNormalizedTitle(rest[i].1))
    ensures r.Err? <==> exists i :: 0 <= i < |rest| &&
                          (GetBranchCallNumber(rest[i].1).Err? || GetOclcNumberIntended(rest[i].1).Err?)
  {
    if rest == [] then Ok(([], []))
    else
      var init := rest[..|rest| - 1];
      assert forall i :: 0 <= i < |init| ==> init[i] == rest[i];
      var (id, bib) := rest[|rest| - 1];
      var front :- CompareAll(dstId, dstCall, dstTitle, init);
      var call :- GetBranchCallNumber(bib);
      var oclc :- GetOclcNumberIntended(bib);
      var row := CompareRow(dstId, dstCall, dstTitle, id, call, GetNormalizedTitle(bib));
      Ok((front.0 + [row], front.1 + OptionToSeq(oclc)))
  }

  /** The OCLC numbers the loop saves are those of the candidates, in
      order, none for a candidate without one. */
  lemma {:induction false} CompareAllSavesOclc(dstId: string, dstCall: Option<string>, dstTitle: Option<string>,
                                               rest: seq<(string, Bib)>)
    requires CompareAll(dstId, dstCall, dstTitle, rest).Ok?
    ensures CompareAll(dstId, dstCall, dstTitle, rest).value.1 == FlatMap(rest, SavedOclc)
    decreases |rest|
  {
    if rest != [] {
      var init := rest[..|rest| - 1];
      var last := rest[|rest| - 1];
      var front := CompareAll(dstId, dstCall, dstTitle, init);
      var oclc := GetOclcNumberIntended(last.1);
      assert front.Ok? && oclc.Ok?;
      assert CompareAll(dstId, dstCall, dstTitle, rest).value.1 == front.value.1 + OptionToSeq(oclc.value);
      CompareAllSavesOclc(dstId, dstCall, dstTitle, init);
      assert SavedOclc(last) == OptionToSeq(oclc.value);
      FlatMapInitLast(rest, SavedOclc);
    }
  }

  /** The report once the winner's position `k` is known: the winner is
      deleted from the batch and every remaining candidate, in order, is
      classified against it. The OCLC numbers saved are the winner's, then
      the other candidates' in order. */
  function ReportFor(dupBibs: seq<(string, Bib)>, k: nat): (r: Result<DupReport>)
    requires DistinctKeys(dupBibs) && k < |dupBibs|
    ensures r.Ok? ==> r.value.winner == dupBibs[k].0 && |r.value.rows| == |dupBibs| - 1
    ensures r.Ok? ==> forall i :: 0 <= i < |r.value.rows| ==>
      r.value.rows[i].winner == dupBibs[k].0 && r.value.rows[i].other == RemoveAt(dupBibs, k)[i].0
    ensures r.Ok? ==> forall i :: 0 <= i < |r.value.rows| ==> r.value.rows[i].other != dupBibs[k].0
    ensures r.Ok? ==> GetBranchCallNumber(dupBibs[k].1).Ok? && GetOclcNumberIntended(dupBibs[k].1).Ok?
    ensures r.Ok? ==> forall i :: 0 <= i < |r.value.rows| ==>
      var e := RemoveAt(dupBibs, k)[i].1;
      && GetBranchCallNumber(e).Ok?
      && r.value.rows[i].relation == Relate(GetBranchCallNumber(dupBibs[k].1).value, GetBranchCallNumber(e).value,
                                            GetNormalizedTitle(dupBibs[k].1), GetNormalizedTitle(e))
    ensures r.Ok? ==> r.value.oclcNumbers == FlatMap([dupBibs[k]] + RemoveAt(dupBibs, k), SavedOclc)
  {
    var (dstId, dstBib) := dupBibs[k];
    var dstCall :- GetBranchCallNumber(dstBib);
    var dstTitle := GetNormalizedTitle(dstBib);
    var dstOclc :- GetOclcNumberIntended(dstBib);
    var rest := RemoveAt(dupBibs, k);
    var compared :- CompareAll(dstId, dstCall, dstTitle, rest);
    assert forall i :: 0 <= i < |rest| ==> rest[i].0 != dstId by {
      forall i | 0 <= i < |rest| ensures rest[i].0 != dstId {
        assert !HasKey(rest, dstId);
      }
    }
    CompareAllSavesOclc(dstId, dstCall, dstTitle, rest);
    assert ([dupBibs[k]] + rest)[1..] == rest;
    Ok(DupReport(dstId, OptionToSeq(dstOclc) + compared.1, compared.0))
  }

  /** `create_dup_report` as a row producer: the winner is the id
      `highest_score` picks from the batch's scores. */
  function CreateDupReport(dupBibs: seq<(string, Bib)>): (r: Result<DupReport>)
    requires DistinctKeys(dupBibs)
    ensures dupBibs == [] ==> r.Err?
    ensures r.Ok? ==> DetermineRecordsScore(dupBibs).Ok?
    ensures r.Ok? ==> HighestScore(DetermineRecordsScore(dupBibs).value) == Ok(r.value.winner)
    ensures r.Ok? ==> |r.value.rows| == |dupBibs| - 1
    ensures r.Ok? ==> forall i :: 0 <= i < |r.value.rows| ==>
      r.value.rows[i].winner == r.value.winner && r.value.rows[i].other != r.value.winner
  {
    var scores :- DetermineRecordsScore(dupBibs);
    ReportFor(dupBibs, ArgMaxFirst(Values(scores)))
  }

  // ---------------------------------------------------------------------
  // Filtering the matches of one lookup

  datatype Verdict = EbookVerdict | WrongLibrary(library: Library) | InvalidType | MarkedDeleted | Admit

  /** The decision `parse_results` takes for one record, in its order:
      ebook, wrong library, invalid type, marked for deletion, admitted. */
  function Screen(b: Bib, resCodes: set<string>): (r: Result<Verdict>)
    ensures r.Err? <==> GetBlvl(b).Err?
    ensures r == Ok(Admit) <==>
      && GetBlvl(b).Ok?
      && IsValidBibType(GetRecType(b).value, GetBlvl(b).value, GetItemForm(b))
      && IdentifyLibrary(b, resCodes) == Branches
      && !MarkedForDeletion(b)
    ensures r == Ok(EbookVerdict) <==>
      GetBlvl(b).Ok? && IsEbook(GetRecType(b).value, GetBlvl(b).value, GetItemForm(b))
  {
    var recType :- GetRecType(b);
    var blvl :- GetBlvl(b);
    var itemForm := GetItemForm(b);
    var library := IdentifyLibrary(b, resCodes);
    if IsEbook(recType, blvl, itemForm) then Ok(EbookVerdict)
    else if library != Branches then Ok(WrongLibrary(library))
    else if !IsValidBibType(recType, blvl, itemForm) then Ok(InvalidType)
    else if MarkedForDeletion(b) then Ok(MarkedDeleted)
    else Ok(Admit)
  }

  /** Records passing every gate of `parse_results`. */
  predicate Admitted(b: Bib, resCodes: set<string>) {
    Screen(b, resCodes) == Ok(Admit)
  }

  /** The ids of the records satisfying `p`, in record order: one per
      such record. */
  function IdsWhere(records: seq<Bib>, p: Bib -> bool): (ids: seq<string>)
    ensures |ids| == |Where(records, p)|
    ensures forall i :: 0 <= i < |ids| ==> ids[i] == Where(records, p)[i].id
    ensures forall id :: id in ids ==> exists i :: 0 <= i < |records| && records[i].id == id && p(records[i])
    ensures forall i :: 0 <= i < |records| && p(records[i]) ==> records[i].id in ids
  {
    var kept := Where(records, p);
    var ids := seq(|kept|, i requires 0 <= i < |kept| => kept[i].id);
    assert forall id :: id in ids ==> exists i :: 0 <= i < |records| && records[i].id == id && p(records[i]) by {
      forall id | id in ids ensures exists i :: 0 <= i < |records| && records[i].id == id && p(records[i]) {
        var j :| 0 <= j < |ids| && ids[j] == id;
        assert kept[j] in kept;
        var i :| 0 <= i < |records| && records[i] == kept[j];
      }
    }
    assert forall i :: 0 <= i < |records| && p(records[i]) ==> records[i].id in ids by {
      forall i | 0 <= i < |records| && p(records[i]) ensures records[i].id in ids {
        var j :| 0 <= j < |kept| && kept[j] == records[i];
        assert ids[j] == records[i].id;
      }
    }
    ids
  }

  /** The ids of the admitted records, in record order: one per admitted
      record. */
  function AdmittedIds(records: seq<Bib>, resCodes: set<string>): (ids: seq<string>)
    ensures |ids| == |Where(records, b => Admitted(b, resCodes))|
    ensures forall i :: 0 <= i < |ids| ==> ids[i] == Where(records, b => Admitted(b, resCodes))[i].id
    ensures forall id :: id in ids ==>
      exists i :: 0 <= i < |records| && records[i].id == id && Admitted(records[i], resCodes)
    ensures forall i :: 0 <= i < |records| && Admitted(records[i], resCodes) ==> records[i].id in ids
  {
    IdsWhere(records, b => Admitted(b, resCodes))
  }

  /** The ebook report row: bib number and its ISBNs joined by commas. */
  function EbookRow(b: Bib): (row: seq<string>)
    ensures |row| == 2 && row[0] == "b" + b.id + "a"
    ensures GetIsbns(b) == [] ==> row[1] == ""
  {
    ["b" + GetBibNo(b) + "a", Join(GetIsbns(b), ",")]
  }

  /** The ISBN cell splits on commas back into the record's ISBNs, when
      there is at least one and none holds a comma. */
  lemma EbookRowSplits(b: Bib)
    requires GetIsbns(b) != [] && forall i :: 0 <= i < |GetIsbns(b)| ==> ',' !in GetIsbns(b)[i]
    ensures Split(EbookRow(b)[1], ",") == GetIsbns(b)
  {
    SplitJoin(GetIsbns(b), ',');
  }

  /** The records satisfying `p`, in order. */
  function Where(records: seq<Bib>, p: Bib -> bool): (r: seq<Bib>)
    ensures |r| <= |records|
    ensures forall b :: b in r ==> b in records && p(b)
    ensures forall i :: 0 <= i < |records| && p(records[i]) ==> records[i] in r
  {
    if records == [] then []
    else
      var init := records[..|records| - 1];
      assert forall i :: 0 <= i < |init| ==> init[i] == records[i];
      var last := records[|records| - 1];
      Where(init, p) + (if p(last) then [last] else [])
  }

  /** Collecting from the back keeps the same records, in the same order,
      as the front-to-back filter of the `for` loop, so there is one per
      record that passes. */
  lemma {:induction false} WhereIsFilter(records: seq<Bib>, p: Bib -> bool)
    ensures Where(records, p) == Filter(records, p)
    ensures |Where(records, p)| == CountKept(records, p)
    decreases |records|
  {
    if records != [] {
      var init := records[..|records| - 1];
      var last := records[|records| - 1];
      WhereIsFilter(init, p);
      assert init + [last] == records;
      FilterConcat(init, [last], p);
      assert [last][1..] == [];
    }
    FilterCount(records, p);
  }

  /** The dict built by `branch_matches[bid] = bib` over the records
      satisfying `p`: every such record is stored under its id; a repeated
      id keeps the position where it first appeared and holds the later
      record. */
  function IndexWhere(records: seq<Bib>, p: Bib -> bool): (d: seq<(string, Bib)>)
    ensures DistinctKeys(d)
    ensures forall e :: e in d ==> e.1 in records && p(e.1) && e.0 == e.1.id
    ensures forall i :: 0 <= i < |records| && p(records[i]) ==> HasKey(d, records[i].id)
  {
    if records == [] then []
    else
      var init := records[..|records| - 1];
      assert forall i :: 0 <= i < |init| ==> init[i] == records[i];
      var last := records[|records| - 1];
      var d := IndexWhere(init, p);
      if p(last) then
        var d' := Put(d, last.id, last);
        assert forall e :: e in d' ==> e.1 in records && p(e.1) && e.0 == e.1.id by {
          forall e | e in d' ensures e.1 in records && p(e.1) && e.0 == e.1.id {
            var j :| 0 <= j < |d'| && d'[j] == e;
            if e.0 != last.id {
              assert j < |d| && d[j].0 == e.0;
              assert d'[j] == d[j];
            }
          }
        }
        assert forall i :: 0 <= i < |init| && p(init[i]) ==> HasKey(d', init[i].id) by {
          forall i | 0 <= i < |init| && p(init[i]) ensures HasKey(d', init[i].id) {
            var j :| 0 <= j < |d| && d[j].0 == init[i].id;
            if init[i].id != last.id {
              assert d'[j] == d[j];
            }
          }
        }
        d'
      else d
  }

  /** Appending a record appends its id when it passes. */
  lemma IdsWhereSnoc(records: seq<Bib>, p: Bib -> bool)
    requires records != []
    ensures IdsWhere(records, p) ==
      IdsWhere(records[..|records| - 1], p) + (if p(records[|records| - 1]) then [records[|records| - 1].id] else [])
  {
    var init := records[..|records| - 1];
    var last := records[|records| - 1];
    assert Where(records, p) == Where(init, p) + (if p(last) then [last] else []);
  }

  /** The dict has a key exactly for the ids of the passing records. */
  lemma IndexWhereHasKey(records: seq<Bib>, p: Bib -> bool, id: string)
    ensures HasKey(IndexWhere(records, p), id) <==> id in IdsWhere(records, p)
  {
    var d := IndexWhere(records, p);
    if HasKey(d, id) {
      var j :| 0 <= j < |d| && d[j].0 == id;
      assert d[j] in d;
      var i :| 0 <= i < |records| && records[i] == d[j].1;
    }
  }

  /** The dict's key order is the order in which each id first passes:
      `branch_matches[bid] = bib` appends a new key and leaves a present
      one where it is. `highest_score` breaks ties by this order. */
  lemma {:induction false} IndexWhereKeys(records: seq<Bib>, p: Bib -> bool)
    ensures Keys(IndexWhere(records, p)) == FirstOccurrences(IdsWhere(records, p))
    decreases |records|
  {
    if records != [] {
      var init := records[..|records| - 1];
      var last := records[|records| - 1];
      assert forall i :: 0 <= i < |init| ==> init[i] == records[i];
      IndexWhereKeys(init, p);
      IdsWhereSnoc(records, p);
      var d := IndexWhere(init, p);
      var ids := IdsWhere(init, p);
      if p(last) {
        IndexWhereHasKey(init, p, last.id);
        if HasKey(d, last.id) {
          FirstOccurrencesSnocOld(ids, last.id);
        } else {
          FirstOccurrencesSnocNew(ids, last.id);
          KeysSnoc(d, last.id, last);
        }
      } else {
        assert ids + [] == ids;
      }
    }
  }

  /** The last record that passes `p` with id `id`, found walking from
      the front. */
  function LastWithId(records: seq<Bib>, p: Bib -> bool, id: string): Option<Bib> {
    if records == [] then None
    else
      match LastWithId(records[1..], p, id)
      case Some(b) => Some(b)
      case None => if p(records[0]) && records[0].id == id then Some(records[0]) else None
  }

  lemma {:induction false} LastWithIdSnoc(records: seq<Bib>, x: Bib, p: Bib -> bool, id: string)
    ensures LastWithId(records + [x], p, id) == if p(x) && x.id == id then Some(x) else LastWithId(records, p, id)
    decreases |records|
  {
    if records == [] {
      assert ([] + [x])[1..] == [];
    } else {
      assert (records + [x])[0] == records[0];
      assert (records + [x])[1..] == records[1..] + [x];
      LastWithIdSnoc(records[1..], x, p, id);
    }
  }

  /** A repeated id keeps the last record stored under it: each entry holds
      the last passing record with its key. */
  lemma {:induction false} IndexWhereLastWins(records: seq<Bib>, p: Bib -> bool)
    ensures forall i :: 0 <= i < |IndexWhere(records, p)| ==>
      LastWithId(records, p, IndexWhere(records, p)[i].0) == Some(IndexWhere(records, p)[i].1)
    decreases |records|
  {
    if records != [] {
      var init := records[..|records| - 1];
      var last := records[|records| - 1];
      assert init + [last] == records;
      assert forall i :: 0 <= i < |init| ==> init[i] == records[i];
      IndexWhereLastWins(init, p);
      var d := IndexWhere(init, p);
      var r := IndexWhere(records, p);
      forall i | 0 <= i < |r| ensures LastWithId(records, p, r[i].0) == Some(r[i].1) {
        LastWithIdSnoc(init, last, p, r[i].0);
        if !(p(last) && r[i].0 == last.id) {
          assert i < |d| && r[i] == d[i];
        }
      }
    }
  }

  datatype ParseOutcome = ParseOutcome(ebookRows: seq<seq<string>>, matchedBids: seq<string>, report: Option<DupReport>)

  /** `parse_results`: route ebooks to their report, keep admitted branch
      records, and build the duplicate report only when more than one
      record was admitted. A record whose leader cannot be read stops the
      whole batch. */
  function ParseResults(records: seq<Bib>, resCodes: set<string>): (r: Result<ParseOutcome>)
    ensures r.Ok? ==> r.value.matchedBids == AdmittedIds(records, resCodes)
    ensures r.Ok? ==> (r.value.report.Some? <==> |AdmittedIds(records, resCodes)| > 1)
    ensures r.Ok? ==> (r.value.report.Some? <==> |Where(records, b => Admitted(b, resCodes))| > 1)
    ensures r.Ok? ==> |r.value.ebookRows| == |Where(records, b => Screen(b, resCodes) == Ok(EbookVerdict))|
    ensures r.Ok? ==> forall i :: 0 <= i < |r.value.ebookRows| ==>
      r.value.ebookRows[i] == EbookRow(Where(records, b => Screen(b, resCodes) == Ok(EbookVerdict))[i])
    ensures r.Ok? && r.value.report.Some? ==>
      Ok(r.value.report.value) == CreateDupReport(IndexWhere(records, b => Admitted(b, resCodes)))
  {
    var verdicts :- MapResults(records, b => Screen(b, resCodes));
    var ebooks := Where(records, b => Screen(b, resCodes) == Ok(EbookVerdict));
    var ebookRows := seq(|ebooks|, i requires 0 <= i < |ebooks| => EbookRow(ebooks[i]));
    var matchedBids := AdmittedIds(records, resCodes);
    if |matchedBids| > 1 then
      var report :- CreateDupReport(IndexWhere(records, b => Admitted(b, resCodes)));
      Ok(ParseOutcome(ebookRows, matchedBids, Some(report)))
    else
      Ok(ParseOutcome(ebookRows, matchedBids, None))
  }

  /** A record whose leader is missing or too short to hold position 07
      makes the whole lookup fail, whatever the other records hold. */
  lemma UnreadableLeaderStopsBatch(records: seq<Bib>, resCodes: set<string>, i: nat)
    requires i < |records| && GetBlvl(records[i]).Err?
    ensures ParseResults(records, resCodes).Err?
  {
    var screen := (b: Bib) => Screen(b, resCodes);
    assert screen(records[i]).Err?;
    assert MapResults(records, screen).Err?;
  }
}

=== FILE: crosswalks.dfy ===
/** `platform2pymarc_obj` of scripts/crosswalks.py: a catalog JSON bib's
  varFields become a MARC record. The varField with fieldTag "_" supplies
  the leader; every other varField becomes a MARC field. Whether that is
  a control field or a data field is decided by the MARC library from the
  tag alone (a numeric tag below 010), not by whether the varField has
  subfields. */
module Crosswalks {
  import opened Results
  import opened Marc
  import opened PlatformBib
  import opened Strings

  /** The leader a fresh record starts with: ten blanks, "22", eight
      blanks, "4500". */
  const DefaultLeader := "          22        4500"

  /** A JSON `null` content reaches the record as empty text. */
  function ContentText(content: Option<string>): string {
    content.GetOr("")
  }

  // ---------------------------------------------------------------------
  // Subfields

  /** The flat list the loop builds: code, content, code, content, ... */
  function Flatten(subs: seq<PSubfield>): (r: seq<string>)
    ensures |r| == 2 * |subs|
  {
    if subs == [] then [] else [subs[0].tag, subs[0].content] + Flatten(subs[1..])
  }

  /** Each subfield's code and content sit side by side in the flat list. */
  lemma {:induction false} FlattenAt(subs: seq<PSubfield>)
    ensures forall i :: 0 <= i < |subs| ==>
      Flatten(subs)[2 * i] == subs[i].tag && Flatten(subs)[2 * i + 1] == subs[i].content
  {
    if subs != [] {
      FlattenAt(subs[1..]);
      var rest := Flatten(subs[1..]);
      forall i | 1 <= i < |subs|
        ensures Flatten(subs)[2 * i] == subs[i].tag && Flatten(subs)[2 * i + 1] == subs[i].content
      {
        assert Flatten(subs)[2 * i] == rest[2 * (i - 1)];
        assert Flatten(subs)[2 * i + 1] == rest[2 * (i - 1) + 1];
        assert subs[i] == subs[1..][i - 1];
      }
    }
  }

  /** How the MARC library reads a flat list: consecutive pairs of code and
      value. */
  function Pairs(flat: seq<string>): (r: seq<Subfield>)
    requires |flat| % 2 == 0
    ensures |r| == |flat| / 2
    decreases |flat|
  {
    if flat == [] then [] else [Subfield(flat[0], flat[1])] + Pairs(flat[2..])
  }

  /** Reading the flattened list back gives the varField's subfields, code
      for code and content for content, in order. */
  lemma {:induction false} PairsOfFlatten(subs: seq<PSubfield>)
    ensures |Pairs(Flatten(subs))| == |subs|
    ensures forall i :: 0 <= i < |subs| ==> Pairs(Flatten(subs))[i] == Subfield(subs[i].tag, subs[i].content)
  {
    if subs != [] {
      PairsOfFlatten(subs[1..]);
      var flat := Flatten(subs);
      assert flat[2..] == Flatten(subs[1..]);
      var r := Pairs(flat);
      forall i | 1 <= i < |subs| ensures r[i] == Subfield(subs[i].tag, subs[i].content) {
        assert r[i] == Pairs(Flatten(subs[1..]))[i - 1];
        assert subs[i] == subs[1..][i - 1];
      }
    }
  }

  // ---------------------------------------------------------------------
  // Fields

  /** One non-leader varField as a MARC field. The script passes the
      content as `data` when the varField has no subfields and the flat
      subfield list otherwise; the library keeps whichever the stored tag
      calls for, so a control tag with subfields gets empty data and a
      data tag without subfields gets no subfields. */
  function ToField(f: VarField): (r: Field)
    ensures r.tag == NormalTag(f.marcTag)
    ensures r.ControlField? <==> IsDigits(f.marcTag) && DigitsValue(f.marcTag) < 10
    ensures r.ControlField? ==> r.data == if f.subfields.None? then ContentText(f.content) else ""
    ensures r.DataField? ==> r.ind1 == f.ind1 && r.ind2 == f.ind2
    ensures r.DataField? && f.subfields.None? ==> r.subfields == []
    ensures r.DataField? && f.subfields.Some? ==> |r.subfields| == |f.subfields.value|
    ensures r.DataField? && f.subfields.Some? ==> forall i :: 0 <= i < |r.subfields| ==>
      r.subfields[i] == Subfield(f.subfields.value[i].tag, f.subfields.value[i].content)
  {
    var tag := NormalTag(f.marcTag);
    if IsControlTag(tag) then
      ControlField(tag, if f.subfields.None? then ContentText(f.content) else "")
    else
      match f.subfields
      case None => DataField(tag, f.ind1, f.ind2, [])
      case Some(subs) =>
        PairsOfFlatten(subs);
        DataField(tag, f.ind1, f.ind2, Pairs(Flatten(subs)))
  }

  /** For the three-digit tags the catalog sends, the tag is kept, and the
      field is a control field exactly when the tag starts with "00",
      whatever the varField holds. */
  lemma ThreeDigitTagDecides(f: VarField)
    requires |f.marcTag| == 3 && IsDigits(f.marcTag)
    ensures ToField(f).tag == f.marcTag
    ensures ToField(f).ControlField? <==> f.marcTag[0] == '0' && f.marcTag[1] == '0'
  {
    NormalTagKeepsThreeDigits(f.marcTag);
    ThreeDigitValue(f.marcTag);
  }

  /** A 245 sent without subfields still becomes a data field, with no
      subfields; a 001 sent with subfields becomes a control field with
      empty data. */
  lemma TagOverridesShape(content: string, subs: seq<PSubfield>)
    ensures ToField(VarField("t", "245", "1", "0", Some(content), None)) == DataField("245", "1", "0", [])
    ensures ToField(VarField("o", "001", " ", " ", None, Some(subs))) == ControlField("001", "")
  {
    ThreeDigitTagDecides(VarField("t", "245", "1", "0", Some(content), None));
    ThreeDigitTagDecides(VarField("o", "001", " ", " ", None, Some(subs)));
  }

  /** The fields the loop appends, in input order. */
  function ConvertAll(fs: seq<VarField>): seq<Field> {
    if fs == [] then []
    else if fs[0].fieldTag == LeaderTag then ConvertAll(fs[1..])
    else [ToField(fs[0])] + ConvertAll(fs[1..])
  }

  /** The leader after the loop: the content of the last "_" varField, or
      `current` when there is none. */
  function LastLeader(fs: seq<VarField>, current: string): string {
    if fs == [] then current
    else LastLeader(fs[1..], if fs[0].fieldTag == LeaderTag then ContentText(fs[0].content) else current)
  }

  /** Number of varFields that are not the leader. */
  function CountFields(fs: seq<VarField>): nat {
    if fs == [] then 0
    else (if fs[0].fieldTag == LeaderTag then 0 else 1) + CountFields(fs[1..])
  }

  /** `platform2pymarc_obj`: the loop over the varFields. */
  method PlatformToMarc(varFields: seq<VarField>) returns (rec: Record)
    ensures rec.leader == LastLeader(varFields, DefaultLeader)
    ensures rec.fields == ConvertAll(varFields)
  {
    var leader := DefaultLeader;
    var fields: seq<Field> := [];
    var i := 0;
    while i < |varFields|
      invariant 0 <= i <= |varFields|
      invariant LastLeader(varFields[i..], leader) == LastLeader(varFields, DefaultLeader)
      invariant fields + ConvertAll(varFields[i..]) == ConvertAll(varFields)
    {
      var f := varFields[i];
      assert varFields[i..][1..] == varFields[i + 1..];
      if f.fieldTag == LeaderTag {
        leader := ContentText(f.content);
      } else {
        fields := fields + [ToField(f)];
      }
      i := i + 1;
    }
    rec := Record(leader, fields);
  }

  /** One field per non-leader varField. */
  lemma {:induction false} ConvertAllCount(fs: seq<VarField>)
    ensures |ConvertAll(fs)| == CountFields(fs)
  {
    if fs != [] {
      ConvertAllCount(fs[1..]);
    }
  }

  /** The conversion works varField by varField. */
  lemma {:induction false} ConvertAllConcat(a: seq<VarField>, b: seq<VarField>)
    ensures ConvertAll(a + b) == ConvertAll(a) + ConvertAll(b)
    decreases |a|
  {
    if a == [] {
      assert a + b == b;
    } else {
      assert (a + b)[0] == a[0];
      assert (a + b)[1..] == a[1..] + b;
      ConvertAllConcat(a[1..], b);
    }
  }

  /** A non-leader varField at position `k` lands after the fields of the
      varFields before it: input order is kept. */
  lemma ConvertAllAt(fs: seq<VarField>, k: nat)
    requires k < |fs| && fs[k].fieldTag != LeaderTag
    ensures CountFields(fs[..k]) < |ConvertAll(fs)|
    ensures ConvertAll(fs)[CountFields(fs[..k])] == ToField(fs[k])
  {
    assert fs == fs[..k] + fs[k..];
    ConvertAllConcat(fs[..k], fs[k..]);
    ConvertAllCount(fs[..k]);
  }

  /** A leader varField adds no field. */
  lemma LeaderAddsNoField(pre: seq<VarField>, f: VarField, post: seq<VarField>)
    requires f.fieldTag == LeaderTag
    ensures ConvertAll(pre + [f] + post) == ConvertAll(pre + post)
  {
    ConvertAllConcat(pre + [f], post);
    ConvertAllConcat(pre, [f]);
    ConvertAllConcat(pre, post);
  }

  /** A later leader varField overrides every earlier one. */
  lemma {:induction false} LastLeaderWins(pre: seq<VarField>, f: VarField, post: seq<VarField>, current: string)
    requires f.fieldTag == LeaderTag
    requires forall i :: 0 <= i < |post| ==> post[i].fieldTag != LeaderTag
    ensures LastLeader(pre + [f] + post, current) == ContentText(f.content)
    decreases |pre|
  {
    if pre == [] {
      assert pre + [f] + post == [f] + post;
      KeepsLeader(post, ContentText(f.content));
    } else {
      var next := if pre[0].fieldTag == LeaderTag then ContentText(pre[0].content) else current;
      assert (pre + [f] + post)[1..] == pre[1..] + [f] + post;
      LastLeaderWins(pre[1..], f, post, next);
    }
  }

  /** Without a leader varField the leader stays what it was. */
  lemma {:induction false} KeepsLeader(fs: seq<VarField>, current: string)
    requires forall i :: 0 <= i < |fs| ==> fs[i].fieldTag != LeaderTag
    ensures LastLeader(fs, current) == current
  {
    if fs != [] {
      assert fs[0].fieldTag != LeaderTag;
      assert forall i :: 0 <= i < |fs[1..]| ==> fs[1..][i] == fs[i + 1];
      KeepsLeader(fs[1..], current);
    }
  }
}

=== FILE: dict.dfy ===
/** Python's insertion-ordered `dict` with string keys, as a sequence of
  (key, value) pairs whose keys are pairwise distinct. Iterating the dict
  is walking the sequence front to back. */
module Dict {
  import opened Results

  predicate DistinctKeys<V>(d: seq<(string, V)>) {
    forall i, j :: 0 <= i < j < |d| ==> d[i].0 != d[j].0
  }

  predicate HasKey<V>(d: seq<(string, V)>, k: string) {
    exists i :: 0 <= i < |d| && d[i].0 == k
  }

  function Keys<V>(d: seq<(string, V)>): (ks: seq<string>)
    ensures |ks| == |d|
    ensures forall i :: 0 <= i < |d| ==> ks[i] == d[i].0
  {
    seq(|d|, i requires 0 <= i < |d| => d[i].0)
  }

  /** A new entry at the end adds its key at the end. */
  lemma KeysSnoc<V>(d: seq<(string, V)>, k: string, v: V)
    ensures Keys(d + [(k, v)]) == Keys(d) + [k]
  {
    assert forall i :: 0 <= i < |d| ==> (d + [(k, v)])[i] == d[i];
  }

  /** `d.values()`, in iteration order. */
  function Values<V>(d: seq<(string, V)>): (vs: seq<V>)
    ensures |vs| == |d|
    ensures forall i :: 0 <= i < |d| ==> vs[i] == d[i].1
  {
    seq(|d|, i requires 0 <= i < |d| => d[i].1)
  }

  /** Position of key `k`, if present. */
  function Find<V>(d: seq<(string, V)>, k: string): (r: Option<nat>)
    ensures r.None? <==> !HasKey(d, k)
    ensures r.Some? ==> r.value < |d| && d[r.value].0 == k
    ensures r.Some? ==> forall j :: 0 <= j < r.value ==> d[j].0 != k
  {
    if d == [] then None
    else if d[0].0 == k then Some(0)
    else
      match Find(d[1..], k)
      case None => None
      case Some(i) => Some(i + 1)
  }

  /** `d[k] = v`: an existing key keeps its position and gets the new value;
      a new key is appended at the end. */
  function Put<V>(d: seq<(string, V)>, k: string, v: V): (r: seq<(string, V)>)
    requires DistinctKeys(d)
    ensures DistinctKeys(r)
    ensures HasKey(r, k)
    ensures forall i :: 0 <= i < |r| && r[i].0 == k ==> r[i].1 == v
    ensures HasKey(d, k) ==> |r| == |d| && Keys(r) == Keys(d)
    ensures !HasKey(d, k) ==> r == d + [(k, v)]
    ensures forall i :: 0 <= i < |d| && d[i].0 != k ==> i < |r| && r[i] == d[i]
  {
    match Find(d, k)
    case Some(i) =>
      var r := d[i := (k, v)];
      assert r[i].0 == k;
      r
    case None =>
      var r := d + [(k, v)];
      assert r[|d|].0 == k;
      r
  }

  /** `del d[d_keys[i]]`: drop the entry at position `i`, keeping the rest
      in order. */
  function RemoveAt<V>(d: seq<(string, V)>, i: nat): (r: seq<(string, V)>)
    requires i < |d|
    requires DistinctKeys(d)
    ensures DistinctKeys(r)
    ensures |r| == |d| - 1
    ensures !HasKey(r, d[i].0)
    ensures forall j :: 0 <= j < |r| ==> r[j] == if j < i then d[j] else d[j + 1]
  {
    d[..i] + d[i + 1..]
  }
}

=== FILE: laptops_crosswalk.dfy ===
/** scripts/laptops_crosswalk.py: rows of a laptop inventory sheet become
  MARC records for circulating laptops. Today's date (two-digit year,
  month, day) is a parameter; records are returned instead of printed and
  saved. */
module LaptopsCrosswalk {
  import opened Results
  import opened Strings
  import opened Marc
  import opened OrderedFields
  import opened Rows

  /** One inventory row, in column order. */
  datatype LaptopData = LaptopData(
    deviceType: string,
    compName: string,
    serial: string,
    asset: string,
    wlan: string,
    barcode: string)

  const ColumnCount := 6

  /** The one model the script catalogs. */
  const Model := "HP EliteBook 840 G6"

  const LaptopLeader := "00000nrm a2200000Mi 4500"

  /** The fixed part of the 008 after the date entered. */
  const FixedFieldTail := "s2019    xx             00 r|und d"

  const LockerPrefix := "Locker number "

  const NamePrefix := "32_PUBLAP"

  // ---------------------------------------------------------------------
  // Reading the sheet

  /** `MapData._make(cols)`: exactly six columns are needed. */
  function MakeLaptopData(cols: seq<string>): (r: Result<LaptopData>)
    ensures r.Ok? <==> |cols| == ColumnCount
    ensures r.Ok? ==> r.value.deviceType == cols[0] && r.value.compName == cols[1]
  {
    if |cols| != ColumnCount then Err(RowLength(|cols|))
    else Ok(LaptopData(cols[0], cols[1], cols[2], cols[3], cols[4], cols[5]))
  }

  function ParseRows(rows: seq<seq<string>>): (r: Result<seq<LaptopData>>)
    ensures r.Ok? <==> forall i :: 0 <= i < |rows| ==> |rows[i]| == ColumnCount
    ensures r.Ok? ==> |r.value| == |rows| && forall i :: 0 <= i < |rows| ==> MakeLaptopData(rows[i]) == Ok(r.value[i])
  {
    if rows == [] then Ok([])
    else
      var first :- MakeLaptopData(rows[0]);
      assert forall i :: 1 <= i < |rows| ==> rows[i] == rows[1..][i - 1];
      var rest :- ParseRows(rows[1..]);
      Ok([first] + rest)
  }

  predicate IsModel(data: LaptopData) {
    data.deviceType == Model
  }

  /** `source_reader`: the rows of the one model, in order. */
  function SourceReader(rows: seq<seq<string>>): (r: Result<seq<LaptopData>>)
    ensures r.Ok? <==> forall i :: 0 <= i < |rows| ==> |rows[i]| == ColumnCount
    ensures r.Ok? ==> forall i :: 0 <= i < |r.value| ==> r.value[i] in ParseRows(rows).value && r.value[i].deviceType == Model
    ensures r.Ok? ==> forall i :: 0 <= i < |rows| && rows[i][0] == Model ==> ParseRows(rows).value[i] in r.value
  {
    var data :- ParseRows(rows);
    Ok(Filter(data, IsModel))
  }

  /** The reader works row by row: a sheet made of two parts reads as
      the first part's rows followed by the second's. */
  lemma SourceReaderConcat(a: seq<seq<string>>, b: seq<seq<string>>)
    ensures SourceReader(a + b).Ok? <==> SourceReader(a).Ok? && SourceReader(b).Ok?
    ensures SourceReader(a + b).Ok? ==> SourceReader(a + b).value == SourceReader(a).value + SourceReader(b).value
  {
    assert forall i :: 0 <= i < |a| ==> (a + b)[i] == a[i];
    assert forall i :: 0 <= i < |b| ==> (a + b)[|a| + i] == b[i];
    if SourceReader(a + b).Ok? {
      var pa := ParseRows(a).value;
      var pb := ParseRows(b).value;
      assert ParseRows(a + b).value == pa + pb by {
        forall i | 0 <= i < |a| + |b| ensures ParseRows(a + b).value[i] == (pa + pb)[i] {
          if i < |a| {
            assert MakeLaptopData((a + b)[i]) == Ok(pa[i]);
          } else {
            assert (a + b)[i] == b[i - |a|];
            assert MakeLaptopData(b[i - |a|]) == Ok(pb[i - |a|]);
          }
        }
      }
      FilterConcat(pa, pb, IsModel);
    }
  }

  /** One row: a row of the model gives its record, any other nothing. */
  lemma SourceReaderOne(row: seq<string>)
    ensures SourceReader([row]).Ok? <==> |row| == ColumnCount
    ensures SourceReader([row]).Ok? ==>
      SourceReader([row]).value == if row[0] == Model then [MakeLaptopData(row).value] else []
  {
    if |row| == ColumnCount {
      assert ParseRows([row]).value == [MakeLaptopData(row).value];
      assert [MakeLaptopData(row).value][1..] == [];
    }
  }

  /** A sheet of other models gives no record. */
  lemma OtherModelsSkipped(rows: seq<seq<string>>)
    requires forall i :: 0 <= i < |rows| ==> |rows[i]| == ColumnCount && rows[i][0] != Model
    ensures SourceReader(rows) == Ok([])
  {
    FilterDropsAll(ParseRows(rows).value, IsModel);
  }

  // ---------------------------------------------------------------------
  // Names and notes

  /** `determine_lap_num`: characters 7 and 8 of the computer name, fewer
      when the name is shorter. */
  function DetermineLapNum(name: string): (r: string)
    ensures |r| <= 2
    ensures |name| >= 9 ==> r == name[7..9]
    ensures |name| <= 7 ==> r == ""
    ensures |name| == 8 ==> r == name[7..]
  {
    Slice(name, 7, 9)
  }

  /** A name made of a seven-character stem, the two-character laptop
      number and anything after gives back the number. */
  lemma LapNumOf(stem: string, num: string, rest: string)
    requires |stem| == 7 && |num| == 2
    ensures DetermineLapNum(stem + num + rest) == num
  {
    assert (stem + num + rest)[7..9] == num;
  }

  /** `determine_locker_num`: "Locker number " and the last four
      characters of the name (all of it when shorter). */
  function DetermineLockerNum(name: string): (r: string)
    ensures |r| == |LockerPrefix| + (if |name| < 4 then |name| else 4)
    ensures StartsWith(r, LockerPrefix)
    ensures EndsWith(name, r[|LockerPrefix|..])
  {
    var tail := Slice(name, -4, |name|);
    var r := LockerPrefix + tail;
    assert r[|LockerPrefix|..] == tail;
    assert r[..|LockerPrefix|] == LockerPrefix;
    r
  }

  /** Whatever comes before the last four characters is ignored. */
  lemma LockerNumOf(stem: string, locker: string)
    requires |locker| == 4
    ensures DetermineLockerNum(stem + locker) == LockerPrefix + locker
  {
    assert (stem + locker)[|stem|..] == locker;
  }

  /** `construct_item_note`: the locker, the laptop name, the serial, the
      asset number and the WLAN address, in that order, each behind its
      label. */
  function ConstructItemNote(locker: string, laptop: string, data: LaptopData): (r: string)
    ensures |r| == 68 + |locker| + |laptop| + |data.serial| + |data.asset| + |data.wlan|
    ensures StartsWith(r, "Bay #: " + locker)
    ensures EndsWith(r, " - WLAN MAC: " + data.wlan)
    ensures var k := 43 + |locker| + |laptop|; r[k..k + |data.serial|] == data.serial
  {
    var pre := "Bay #: " + locker + " - Name: " + NamePrefix + laptop + " - Serial number: ";
    var post := " - Asset #: " + data.asset + " - WLAN MAC: " + data.wlan;
    var r := pre + data.serial + post;
    assert r[|pre|..|pre| + |data.serial|] == data.serial by {
      Framed(pre, data.serial, post);
    }
    assert StartsWith(r, "Bay #: " + locker) && EndsWith(r, " - WLAN MAC: " + data.wlan) by {
      Framed("Bay #: " + locker, " - Name: " + NamePrefix + laptop + " - Serial number: " + data.serial + " - Asset #: " + data.asset, " - WLAN MAC: " + data.wlan);
    }
    r
  }

  /** The note names the laptop as "32_PUBLAP" and its number, right after
      " - Name: ". */
  lemma ItemNoteNamesLaptop(locker: string, laptop: string, data: LaptopData)
    ensures var r := ConstructItemNote(locker, laptop, data); var k := 16 + |locker|;
      r[k - 9..k] == " - Name: " && r[k..k + 9 + |laptop|] == NamePrefix + laptop
  {
    var x := "Bay #: " + locker;
    var a := x + " - Name: ";
    var named := a + NamePrefix + laptop;
    var pre := named + " - Serial number: ";
    var post := " - Asset #: " + data.asset + " - WLAN MAC: " + data.wlan;
    var r := pre + data.serial + post;
    assert r == ConstructItemNote(locker, laptop, data);
    var k := |a|;
    SliceWithin(pre + data.serial, post, |x|, |named|);
    SliceWithin(pre, data.serial, |x|, |named|);
    SliceWithin(named, " - Serial number: ", |x|, |named|);
    assert r[|x|..|named|] == named[|x|..];
    SliceWithin(a, NamePrefix + laptop, |x|, k);
    assert a + NamePrefix + laptop == a + (NamePrefix + laptop);
    Framed(x, " - Name: ", NamePrefix + laptop);
    assert r[k - 9..k] == named[|x|..][..9];
    assert r[k..k + 9 + |laptop|] == named[|x|..][9..];
  }

  /** A slice that lies within the left part of a concatenation. */
  lemma SliceWithin(p: string, t: string, i: nat, j: nat)
    requires i <= j <= |p|
    ensures (p + t)[i..j] == p[i..j]
  {
  }

  /** The three parts of a concatenation can be read back by position. */
  lemma Framed(a: string, b: string, c: string)
    ensures (a + b + c)[..|a|] == a
    ensures (a + b + c)[|a|..|a| + |b|] == b
    ensures (a + b + c)[|a| + |b|..] == c
  {
  }

  // ---------------------------------------------------------------------
  // The record

  /** The six alternative titles with a single $a. */
  function AltTitles(lapNum: string): (r: seq<string>)
    ensures |r| == 6 && r[5] == NamePrefix + lapNum
  {
    ["Laptop circulation", "Laptops in the branches", "Wireless laptops",
     "Circulating laptops", "Laptop computers", NamePrefix + lapNum]
  }

  /** A 246 with indicators "3" and blank and the given subfields. */
  function AltTitleField(subs: seq<Subfield>): (r: Field)
    ensures r.tag == "246"
  {
    DataField("246", "3", " ", subs)
  }

  /** The eight 246s: the six titles, then the model with the locker and
      the model with the laptop name as $n. */
  function AltTitleFields(data: LaptopData, locker: string, lapNum: string): (r: seq<Field>)
    ensures |r| == 8 && AllTagged(r, "246")
    ensures forall i :: 0 <= i < 8 ==> r[i].DataField? && r[i].ind1 == "3" && r[i].ind2 == " "
    ensures forall i :: 0 <= i < 6 ==> r[i].subfields == [Subfield("a", AltTitles(lapNum)[i])]
    ensures r[6].subfields == [Subfield("a", data.deviceType + "."), Subfield("n", locker)]
    ensures r[7].subfields == [Subfield("a", data.deviceType + "."), Subfield("n", NamePrefix + lapNum)]
  {
    var titles := AltTitles(lapNum);
    seq(6, i requires 0 <= i < 6 => AltTitleField([Subfield("a", titles[i])]))
    + [AltTitleField([Subfield("a", data.deviceType + "."), Subfield("n", locker)]),
       AltTitleField([Subfield("a", data.deviceType + "."), Subfield("n", NamePrefix + lapNum)])]
  }

  /** The 008 for the date entered. */
  function FixedField(dateCreated: string): (r: Field)
    ensures r.ControlField? && r.tag == "008"
    ensures |r.data| == |dateCreated| + 34 && r.data[..|dateCreated|] == dateCreated
  {
    var r := ControlField("008", dateCreated + FixedFieldTail);
    assert r.data[..|dateCreated|] == dateCreated;
    r
  }

  /** 008, 099 and the 245 with the locker text and a full stop. */
  function IdentityFields(data: LaptopData, dateCreated: string): (r: seq<Field>)
    ensures |r| == 3 && r[0].tag == "008" && r[1].tag == "099"
    ensures r[2] == DataField("245", "0", "0", [Subfield("a", DetermineLockerNum(data.compName) + ".")])
  {
    [FixedField(dateCreated),
     DataField("099", " ", " ", [Subfield("a", "LAPTOP")]),
     DataField("245", "0", "0", [Subfield("a", DetermineLockerNum(data.compName) + ".")])]
  }

  /** The 300 and the 500 with the serial number. */
  function DescriptionFields(data: LaptopData): (r: seq<Field>)
    ensures |r| == 2 && r[0].tag == "300" && r[1].tag == "500"
  {
    [DataField("300", " ", " ", [Subfield("a", "1 laptop computer")]),
     DataField("500", " ", " ", [Subfield("a", "Serial number: " + data.serial)])]
  }

  /** The fields up to the 500, in the order `make_bib` collects them. */
  function LeadingFields(data: LaptopData, dateCreated: string): seq<Field> {
    IdentityFields(data, dateCreated)
    + AltTitleFields(data, DetermineLockerNum(data.compName), DetermineLapNum(data.compName))
    + DescriptionFields(data)
  }

  /** The item record command (960). */
  function ItemField(data: LaptopData): (r: Field)
    ensures r.tag == "960"
  {
    var locker := DetermineLockerNum(data.compName);
    var lapNum := DetermineLapNum(data.compName);
    DataField("960", " ", " ", [Subfield("l", "32lap"), Subfield("t", "49"), Subfield("r", "7"),
                                Subfield("q", "7"), Subfield("s", "g"),
                                Subfield("n", ConstructItemNote(locker, lapNum, data))])
  }

  /** The load command (949). */
  function CommandField(): (r: Field)
    ensures r.tag == "949"
  {
    DataField("949", " ", " ", [Subfield("a", "*b2=7;bn=32;")])
  }

  /** The fields `make_bib` collects, in the order it collects them. */
  function CollectedFields(data: LaptopData, dateCreated: string): seq<Field> {
    LeadingFields(data, dateCreated) + [ItemField(data), CommandField()]
  }

  /** `make_bib`: the collected fields added in tag order to a record with
      the fixed leader. The record reads 008, 099, 245, the eight 246s,
      300, 500, and then the 949 ahead of the 960, because ordered
      insertion puts the 949, added last, in front of the 960. The 960
      closes the record and its $n is the item note for the locker and the
      laptop number read from the computer name. */
  function MakeLaptopBib(data: LaptopData, dateCreated: string): (r: Record)
    ensures r.leader == LaptopLeader
    ensures r.fields == LeadingFields(data, dateCreated) + [CommandField(), ItemField(data)]
    ensures Ascending(r.fields, TagValue)
    ensures |r.fields| == 15 && r.fields[14].tag == "960" && |r.fields[14].subfields| == 6
    ensures r.fields[14].subfields[5]
      == Subfield("n", ConstructItemNote(DetermineLockerNum(data.compName), DetermineLapNum(data.compName), data))
  {
    LaptopBibLayout(data, dateCreated);
    Record(LaptopLeader, AddAllOrdered([], CollectedFields(data, dateCreated), TagValue))
  }

  /** The tags of the laptop record read in the order they are added, up
      to the 500; the 949 reads between the 500 and the 960. */
  lemma LaptopTagsRead()
    ensures TagValue("008") <= TagValue("099") <= TagValue("245") <= TagValue("246")
    ensures TagValue("246") <= TagValue("300") <= TagValue("500") <= TagValue("949") < TagValue("960")
  {
    assert TagValue("008") == 8 by { ThreeDigitTag("008"); }
    assert TagValue("099") == 99 by { ThreeDigitTag("099"); }
    assert TagValue("245") == 245 by { ThreeDigitTag("245"); }
    assert TagValue("246") == 246 by { ThreeDigitTag("246"); }
    assert TagValue("300") == 300 by { ThreeDigitTag("300"); }
    assert TagValue("500") == 500 by { ThreeDigitTag("500"); }
    assert TagValue("949") == 949 by { ThreeDigitTag("949"); }
    assert TagValue("960") == 960 by { ThreeDigitTag("960"); }
  }

  /** The fields up to the 500 are in tag order for any reading of tags
      that orders 008, 099, 245, 246, 300, 500 that way. */
  lemma LeadingInOrder(data: LaptopData, dateCreated: string, key: string -> nat)
    requires key("008") <= key("099") <= key("245") <= key("246") <= key("300") <= key("500")
    ensures Ascending(LeadingFields(data, dateCreated), key)
    ensures forall i :: 0 <= i < |LeadingFields(data, dateCreated)| ==> key(LeadingFields(data, dateCreated)[i].tag) <= key("500")
  {
    var id := IdentityFields(data, dateCreated);
    var alt := AltTitleFields(data, DetermineLockerNum(data.compName), DetermineLapNum(data.compName));
    var desc := DescriptionFields(data);
    AppendFour([], "008", id[..1], "008", id[1..2], "099", id[2..], "245", alt, "246", key);
    assert [] + id[..1] + id[1..2] + id[2..] == id;
    RaiseBound(id + alt, "246", "300", key);
    AppendFour(id + alt, "246", desc[..1], "300", desc[1..], "500", [], "500", [], "500", key);
    assert id + alt + desc[..1] + desc[1..] + [] + [] == LeadingFields(data, dateCreated);
  }

  /** Ordered insertion keeps the collected fields up to the 500 where
      they are and swaps the last two, the 960 and the 949. */
  lemma LaptopBibLayout(data: LaptopData, dateCreated: string)
    ensures AddAllOrdered([], CollectedFields(data, dateCreated), TagValue)
      == LeadingFields(data, dateCreated) + [CommandField(), ItemField(data)]
    ensures Ascending(LeadingFields(data, dateCreated) + [CommandField(), ItemField(data)], TagValue)
  {
    var lead := LeadingFields(data, dateCreated);
    LaptopTagsRead();
    LeadingInOrder(data, dateCreated, TagValue);
    RaiseBound(lead, "500", "949", TagValue);
    LastTwoSwapped(lead, ItemField(data), CommandField(), TagValue);
    SwappedInOrder(lead, ItemField(data), CommandField(), TagValue);
  }

  /** Exactly eight 246s, six with a single $a, then the model with the
      locker and the model with the laptop name, all at positions 3 to 10;
      the 245 is the locker text with a full stop. */
  lemma LaptopBibTitles(data: LaptopData, dateCreated: string)
    ensures var fs := MakeLaptopBib(data, dateCreated).fields;
      var locker := DetermineLockerNum(data.compName);
      && fs[2] == DataField("245", "0", "0", [Subfield("a", locker + ".")])
      && fs[3..11] == AltTitleFields(data, locker, DetermineLapNum(data.compName))
      && (forall i :: 0 <= i < |fs| && (i < 3 || i >= 11) ==> fs[i].tag != "246")
  {
    var id := IdentityFields(data, dateCreated);
    var alt := AltTitleFields(data, DetermineLockerNum(data.compName), DetermineLapNum(data.compName));
    var rest := DescriptionFields(data) + [CommandField(), ItemField(data)];
    var fs := MakeLaptopBib(data, dateCreated).fields;
    assert fs == id + alt + rest;
    assert fs[3..11] == alt;
    forall i | 0 <= i < |fs| && (i < 3 || i >= 11) ensures fs[i].tag != "246" {
      if i < 3 {
        assert fs[i] == id[i];
      } else {
        assert fs[i] == rest[i - 11];
      }
    }
  }

  /** The record opens with the 008: the date entered, then the fixed
      part. */
  lemma LaptopBibDate(data: LaptopData, dateCreated: string)
    ensures MakeLaptopBib(data, dateCreated).fields[0] == ControlField("008", dateCreated + FixedFieldTail)
  {
    assert MakeLaptopBib(data, dateCreated).fields[0] == IdentityFields(data, dateCreated)[0];
  }

  /** The item note of the 960 names the laptop once: for the computer
      "ABCDEFG07-1234" it reads "32_PUBLAP07", and the locker is "1234". */
  lemma LaptopNoteExample()
    ensures var data := LaptopData(Model, "ABCDEFG07-1234", "S1", "A1", "W1", "33333");
      ConstructItemNote(DetermineLockerNum(data.compName), DetermineLapNum(data.compName), data)
      == "Bay #: " + "Locker number 1234" + " - Name: " + "32_PUBLAP" + "07"
         + " - Serial number: " + "S1" + " - Asset #: " + "A1" + " - WLAN MAC: " + "W1"
  {
    var data := LaptopData(Model, "ABCDEFG07-1234", "S1", "A1", "W1", "33333");
    var lap := DetermineLapNum(data.compName);
    var locker := DetermineLockerNum(data.compName);
    assert lap == "07" by {
      LapNumOf("ABCDEFG", "07", "-1234");
      assert "ABCDEFG" + "07" + "-1234" == data.compName;
    }
    assert locker == "Locker number 1234" by {
      LockerNumOf("ABCDEFG07-", "1234");
      assert "ABCDEFG07-" + "1234" == data.compName;
    }
    ItemNoteText("Locker number 1234", "07", data);
  }

  /** The note spelled out piece by piece. */
  lemma ItemNoteText(locker: string, laptop: string, data: LaptopData)
    ensures ConstructItemNote(locker, laptop, data)
      == "Bay #: " + locker + " - Name: " + NamePrefix + laptop + " - Serial number: " + data.serial
         + " - Asset #: " + data.asset + " - WLAN MAC: " + data.wlan
  {
  }

  /** `create_bibs`: one record per row of the model, in order. */
  function CreateBibs(rows: seq<seq<string>>, dateCreated: string): (r: Result<seq<Record>>)
    ensures r.Ok? <==> SourceReader(rows).Ok?
    ensures r.Ok? ==> |r.value| == |SourceReader(rows).value|
    ensures r.Ok? ==> forall i :: 0 <= i < |r.value| ==> r.value[i] == MakeLaptopBib(SourceReader(rows).value[i], dateCreated)
  {
    var data :- SourceReader(rows);
    Ok(seq(|data|, i requires 0 <= i < |data| => MakeLaptopBib(data[i], dateCreated)))
  }
}

=== FILE: maps_crosswalk.dfy ===
/** scripts/maps_crosswalk.py: rows of a folded-maps spreadsheet become
  cartographic MARC records. The clock reading for field 005 is a
  parameter; the record is returned instead of printed. */
module MapsCrosswalk {
  import opened Results
  import opened Strings
  import opened Marc
  import opened OrderedFields
  import opened Rows

  /** One spreadsheet row, in column order. */
  datatype MapData = MapData(
    barcode: string,
    author: string,
    title: string,
    altTitle: string,
    scale: string,
    pubYear: string,
    series: string,
    note: string,
    content: string,
    subjects: string,
    genre: string,
    callNumber: string)

  const ColumnCount := 12

  /** The header row is recognised by this barcode cell. */
  const HeaderBarcode := "Barcode"

  const MapLeader := "00000cem a2200000Ma 4500"

  const PubDateUnknown := "date of publication not identified"

  // ---------------------------------------------------------------------
  // Reading the spreadsheet

  /** `MapData._make(cols)`: exactly twelve columns are needed. */
  function MakeMapData(cols: seq<string>): (r: Result<MapData>)
    ensures r.Ok? <==> |cols| == ColumnCount
    ensures r.Ok? ==> r.value.barcode == cols[0] && r.value.subjects == cols[9]
  {
    if |cols| != ColumnCount then Err(RowLength(|cols|))
    else Ok(MapData(cols[0], cols[1], cols[2], cols[3], cols[4], cols[5],
                    cols[6], cols[7], cols[8], cols[9], cols[10], cols[11]))
  }

  /** Every row read as a `MapData`, or the error of the first one that
      does not fit. */
  function ParseRows(rows: seq<seq<string>>): (r: Result<seq<MapData>>)
    ensures r.Ok? <==> forall i :: 0 <= i < |rows| ==> |rows[i]| == ColumnCount
    ensures r.Ok? ==> |r.value| == |rows| && forall i :: 0 <= i < |rows| ==> MakeMapData(rows[i]) == Ok(r.value[i])
  {
    if rows == [] then Ok([])
    else
      var first :- MakeMapData(rows[0]);
      assert forall i :: 1 <= i < |rows| ==> rows[i] == rows[1..][i - 1];
      var rest :- ParseRows(rows[1..]);
      Ok([first] + rest)
  }

  /** Not the header row. */
  predicate IsDataRow(row: MapData) {
    row.barcode != HeaderBarcode
  }

  /** `source_reader`: read the rows, skip header rows, keep the others in
      order. */
  function SourceReader(rows: seq<seq<string>>): (r: Result<seq<MapData>>)
    ensures r.Ok? <==> forall i :: 0 <= i < |rows| ==> |rows[i]| == ColumnCount
    ensures r.Ok? ==> forall i :: 0 <= i < |r.value| ==> r.value[i] in ParseRows(rows).value && r.value[i].barcode != HeaderBarcode
    ensures r.Ok? ==> forall i :: 0 <= i < |rows| && rows[i][0] != HeaderBarcode ==> ParseRows(rows).value[i] in r.value
  {
    var data :- ParseRows(rows);
    Ok(Filter(data, IsDataRow))
  }

  /** The reader works row by row: a sheet made of two parts reads as
      the first part's rows followed by the second's. */
  lemma SourceReaderConcat(a: seq<seq<string>>, b: seq<seq<string>>)
    ensures SourceReader(a + b).Ok? <==> SourceReader(a).Ok? && SourceReader(b).Ok?
    ensures SourceReader(a + b).Ok? ==> SourceReader(a + b).value == SourceReader(a).value + SourceReader(b).value
  {
    assert forall i :: 0 <= i < |a| ==> (a + b)[i] == a[i];
    assert forall i :: 0 <= i < |b| ==> (a + b)[|a| + i] == b[i];
    if SourceReader(a + b).Ok? {
      var pa := ParseRows(a).value;
      var pb := ParseRows(b).value;
      assert ParseRows(a + b).value == pa + pb by {
        forall i | 0 <= i < |a| + |b| ensures ParseRows(a + b).value[i] == (pa + pb)[i] {
          if i < |a| {
            assert MakeMapData((a + b)[i]) == Ok(pa[i]);
          } else {
            assert (a + b)[i] == b[i - |a|];
            assert MakeMapData(b[i - |a|]) == Ok(pb[i - |a|]);
          }
        }
      }
      FilterConcat(pa, pb, IsDataRow);
    }
  }

  /** One row: a header row gives nothing, any other row its record. */
  lemma SourceReaderOne(row: seq<string>)
    ensures SourceReader([row]).Ok? <==> |row| == ColumnCount
    ensures SourceReader([row]).Ok? ==>
      SourceReader([row]).value == if row[0] != HeaderBarcode then [MakeMapData(row).value] else []
  {
    if |row| == ColumnCount {
      assert ParseRows([row]).value == [MakeMapData(row).value];
      assert [MakeMapData(row).value][1..] == [];
    }
  }

  /** A sheet without header rows comes through whole, in order. */
  lemma SourceReaderWithoutHeader(rows: seq<seq<string>>)
    requires forall i :: 0 <= i < |rows| ==> |rows[i]| == ColumnCount && rows[i][0] != HeaderBarcode
    ensures SourceReader(rows) == ParseRows(rows)
  {
    FilterKeepsAll(ParseRows(rows).value, IsDataRow);
  }

  // ---------------------------------------------------------------------
  // Sequence numbers

  /** `determine_sequence`: `str(n).zfill(8)`. */
  function DetermineSequence(n: int): (r: string)
    ensures |r| >= 8
    ensures n >= 0 ==> IsDigits(r) && DigitsValue(r) == n
    ensures n >= 0 && |NatToString(n)| >= 8 ==> r == NatToString(n)
  {
    var s := IntToString(n);
    if n >= 0 && |s| < 8 then
      LeadingZerosValue(8 - |s|, s);
      ZFill(s, 8)
    else ZFill(s, 8)
  }

  /** Different non-negative numbers get different sequence strings. */
  lemma SequenceInjective(m: nat, n: nat)
    requires m != n
    ensures DetermineSequence(m) != DetermineSequence(n)
  {
    assert DigitsValue(DetermineSequence(m)) != DigitsValue(DetermineSequence(n));
  }

  // ---------------------------------------------------------------------
  // Scale and date

  /** `encode_scale`: what follows the first ":", commas removed; None
      without a ":". */
  function EncodeScale(scale: string): (r: Option<string>)
    ensures r.None? <==> ':' !in scale
    ensures r.Some? ==> ',' !in r.value
  {
    match IndexOf(scale, ':')
    case None => None
    case Some(k) => Some(RemoveChar(scale[k + 1..], ','))
  }

  /** The text before the first ":" is ignored, the text after it loses
      only its commas. */
  lemma EncodeScaleOf(before: string, after: string)
    requires ':' !in before
    ensures EncodeScale(before + ":" + after) == Some(RemoveChar(after, ','))
    ensures ',' !in after ==> EncodeScale(before + ":" + after) == Some(after)
  {
    var s := before + ":" + after;
    assert s[|before|] == ':';
    var k := IndexOf(s, ':').value;
    assert s[..k] == before[..k];
    assert k == |before|;
    assert s[k + 1..] == after;
  }

  /** `norm_scale`: the scale statement for field 255. */
  function NormScale(scale: string): (r: string)
    ensures ':' in scale ==> r == "Scale " + scale
    ensures ':' !in scale ==> r == "Scale not given"
  {
    if ':' in scale then "Scale " + scale else "Scale not given"
  }

  /** Field 255 says "not given" exactly when field 034 is left out. */
  lemma ScaleStatementsAgree(scale: string)
    ensures NormScale(scale) == "Scale not given" <==> EncodeScale(scale).None?
  {
    if ':' in scale {
      var r := NormScale(scale);
      var k :| 0 <= k < |scale| && scale[k] == ':';
      assert r[6 + k] == ':';
      assert ':' !in "Scale not given";
    }
  }

  /** What `norm_pub_date` hands to the MARC field: text, or a Python
      list of texts. */
  datatype PyValue = Text(s: string) | TextList(items: seq<string>)

  /** `norm_pub_date` as written: an empty date becomes a one-element
      list, which then lands as the value of 264 $c. */
  function NormPubDateAsWritten(pubDate: string): (r: PyValue)
    ensures pubDate == "" ==> r == TextList([PubDateUnknown])
    ensures pubDate != "" ==> r == Text(pubDate)
  {
    if pubDate == "" then TextList([PubDateUnknown]) else Text(pubDate)
  }

  /** A subfield value must be text; an empty date gives a list instead. */
  lemma PubDateAsWrittenNotText()
    ensures !NormPubDateAsWritten("").Text?
  {
  }

  /** `norm_pub_date` as evidently intended: the phrase itself. */
  function NormPubDate(pubDate: string): (r: string)
    ensures r != ""
    ensures pubDate != "" ==> r == pubDate
  {
    if pubDate == "" then PubDateUnknown else pubDate
  }

  /** The corrected date is always text, and it is the text the written
      version carries, whether bare or wrapped in a list. */
  lemma NormPubDateCorrects(pubDate: string)
    ensures NormPubDateAsWritten(pubDate).Text? ==> NormPubDate(pubDate) == NormPubDateAsWritten(pubDate).s
    ensures NormPubDateAsWritten(pubDate).TextList? ==> [NormPubDate(pubDate)] == NormPubDateAsWritten(pubDate).items
  {
  }

  // ---------------------------------------------------------------------
  // Subjects

  /** $z for each middle element, stripped, in order. */
  function ZSubfields(parts: seq<string>): (r: seq<Subfield>)
    ensures |r| == |parts|
    ensures forall i :: 0 <= i < |parts| ==> r[i] == Subfield("z", Strip(parts[i]))
  {
    seq(|parts|, i requires 0 <= i < |parts| => Subfield("z", Strip(parts[i])))
  }

  /** `x`, then `mid`, then `y`. */
  function Between(x: Subfield, mid: seq<Subfield>, y: Subfield): (r: seq<Subfield>)
    ensures |r| == |mid| + 2 && r[0] == x && r[|r| - 1] == y
    ensures forall i :: 1 <= i < |r| - 1 ==> r[i] == mid[i - 1]
  {
    [x] + mid + [y]
  }

  /** The subfields built from the elements of a heading: $a from the
      first, $z from each middle one, $v from the last, each stripped. */
  function ElementSubfields(elems: seq<string>): (r: seq<Subfield>)
    requires |elems| >= 1
    ensures |r| == 2 + (if |elems| > 2 then |elems| - 2 else 0)
    ensures r[0] == Subfield("a", Strip(elems[0]))
    ensures r[|r| - 1] == Subfield("v", Strip(elems[|elems| - 1]))
    ensures forall i :: 1 <= i < |r| - 1 ==> r[i] == Subfield("z", Strip(elems[i]))
  {
    var n := |elems|;
    var mid := if n > 2 then elems[1..n - 1] else [];
    assert forall i :: 0 <= i < |mid| ==> mid[i] == elems[i + 1];
    Between(Subfield("a", Strip(elems[0])), ZSubfields(mid), Subfield("v", Strip(elems[n - 1])))
  }

  /** `construct_subject_subfields`: the heading split on " - ". With a
      single element, $a and $v carry the same text. */
  function SubjectSubfields(s: string): (r: seq<Subfield>)
    ensures var elems := Split(s, " - ");
      && |r| == 2 + (if |elems| > 2 then |elems| - 2 else 0)
      && r[0] == Subfield("a", Strip(elems[0]))
      && r[|r| - 1] == Subfield("v", Strip(elems[|elems| - 1]))
      && forall i :: 1 <= i < |r| - 1 ==> r[i] == Subfield("z", Strip(elems[i]))
  {
    ElementSubfields(Split(s, " - "))
  }

  /** The subfield codes always read a, z..., v, and there is one $z per
      element between the first and the last. */
  lemma SubjectCodes(s: string)
    ensures var r := SubjectSubfields(s);
      && r[0].code == "a" && r[|r| - 1].code == "v"
      && (forall i :: 1 <= i < |r| - 1 ==> r[i].code == "z")
      && |r| == (if |Split(s, " - ")| > 1 then |Split(s, " - ")| else 2)
  {
    var r := SubjectSubfields(s);
    assert forall i :: 1 <= i < |r| - 1 ==> r[i].code == "z";
  }

  /** A heading without " - " gives its stripped text as both $a and $v. */
  lemma SubjectWithoutDash(s: string)
    requires !Contains(s, " - ")
    ensures SubjectSubfields(s) == [Subfield("a", Strip(s)), Subfield("v", Strip(s))]
  {
    SingleElement([s]);
  }

  /** A single element gives $a and $v with the same text. */
  lemma SingleElement(elems: seq<string>)
    requires |elems| == 1
    ensures ElementSubfields(elems) == [Subfield("a", Strip(elems[0])), Subfield("v", Strip(elems[0]))]
  {
  }

  /** One subject 650. */
  function SubjectField(s: string): Field {
    DataField("650", " ", "0", SubjectSubfields(s))
  }

  /** `encode_subjects`: one 650 with indicators blank and "0" per
      "--"-separated heading, in order. */
  function EncodeSubjects(subStr: string): (r: seq<Field>)
    ensures |r| == |Split(subStr, "--")|
    ensures forall i :: 0 <= i < |r| ==> r[i] == SubjectField(Split(subStr, "--")[i])
  {
    var parts := Split(subStr, "--");
    seq(|parts|, i requires 0 <= i < |parts| => SubjectField(parts[i]))
  }

  /** A single heading gives a single 650. */
  lemma OneHeadingOneField(subStr: string)
    requires !Contains(subStr, "--")
    ensures EncodeSubjects(subStr) == [SubjectField(subStr)]
  {
  }

  // ---------------------------------------------------------------------
  // The record

  /** The MARC library's data-field constructor unpacks the indicator list
      into exactly two indicators. */
  function MakeField(tag: string, indicators: seq<string>, subs: seq<Subfield>): (r: Result<Field>)
    ensures r.Ok? <==> |indicators| == 2
    ensures r.Ok? ==> r.value == DataField(tag, indicators[0], indicators[1], subs)
  {
    if |indicators| != 2 then Err(BadIndicators(|indicators|))
    else Ok(DataField(tag, indicators[0], indicators[1], subs))
  }

  /** A field present only when its column has text. */
  function Optional(present: bool, f: Field): (r: seq<Field>)
    ensures present ==> r == [f]
    ensures !present ==> r == []
  {
    if present then [f] else []
  }

  /** 245: the title with a closing full stop. */
  function TitleFields(row: MapData): (r: seq<Field>)
    ensures AllTagged(r, "245") && |r| == 1
  {
    [DataField("245", "1", "0", [Subfield("a", row.title + ".")])]
  }

  /** 246 when there is an alternative title. */
  function AltTitleFields(row: MapData): (r: seq<Field>)
    ensures AllTagged(r, "246") && (|r| == 1 <==> row.altTitle != "") && |r| <= 1
  {
    Optional(row.altTitle != "", DataField("246", "3", " ", [Subfield("a", row.altTitle)]))
  }

  /** 255: the scale statement. */
  function ScaleFields(row: MapData): (r: seq<Field>)
    ensures AllTagged(r, "255") && |r| == 1
  {
    [DataField("255", " ", " ", [Subfield("a", NormScale(row.scale))])]
  }

  /** 264: unknown place, the author as publisher, the date. */
  function PublicationFields(row: MapData): (r: seq<Field>)
    ensures AllTagged(r, "264") && |r| == 1
  {
    [DataField("264", " ", "1", [Subfield("a", "[Place of publication not identified] :"),
                                 Subfield("b", row.author + ","),
                                 Subfield("c", NormPubDate(row.pubYear))])]
  }

  /** 490 when there is a series. */
  function SeriesFields(row: MapData): (r: seq<Field>)
    ensures AllTagged(r, "490") && (|r| == 1 <==> row.series != "") && |r| <= 1
  {
    Optional(row.series != "", DataField("490", "0", " ", [Subfield("a", row.series)]))
  }

  /** 500 when there is a note. */
  function NoteFields(row: MapData): (r: seq<Field>)
    ensures AllTagged(r, "500") && (|r| == 1 <==> row.note != "") && |r| <= 1
  {
    Optional(row.note != "", DataField("500", " ", " ", [Subfield("a", row.note + ".")]))
  }

  /** 505 when there is a contents note. */
  function ContentsFields(row: MapData): (r: seq<Field>)
    ensures AllTagged(r, "505") && (|r| == 1 <==> row.content != "") && |r| <= 1
  {
    Optional(row.content != "", DataField("505", "0", " ", [Subfield("a", row.content + ".")]))
  }

  /** 650s when there are subjects. */
  function SubjectFields(row: MapData): (r: seq<Field>)
    ensures AllTagged(r, "650")
    ensures row.subjects == "" ==> r == []
    ensures row.subjects != "" ==> |r| == |Split(row.subjects, "--")|
  {
    if row.subjects != "" then EncodeSubjects(row.subjects) else []
  }

  /** The fields of `make_bib` after its 110, in the order it adds them. */
  function TailFields(row: MapData): seq<Field> {
    TitleBlock(row) + NoteBlock(row)
  }

  /** 245, 246, 255 and 264. */
  function TitleBlock(row: MapData): seq<Field> {
    TitleFields(row) + AltTitleFields(row) + ScaleFields(row) + PublicationFields(row)
  }

  /** 490, 500, 505 and the 650s. */
  function NoteBlock(row: MapData): seq<Field> {
    SeriesFields(row) + NoteFields(row) + ContentsFields(row) + SubjectFields(row)
  }

  /** 034 when the scale has a ":". */
  function CoordinateFields(row: MapData): (r: seq<Field>)
    ensures AllTagged(r, "034") && (|r| == 1 <==> EncodeScale(row.scale).Some?) && |r| <= 1
  {
    match EncodeScale(row.scale)
    case None => []
    case Some(esc) => [DataField("034", "1", " ", [Subfield("a", "a"), Subfield("b", esc)])]
  }

  /** The control fields and the optional 034 ahead of the 110. */
  function HeadFields(row: MapData, sequence: string, timestamp: string): seq<Field> {
    ControlFields(sequence, timestamp) + CoordinateFields(row)
  }

  /** 001, 003, 005 and 007. */
  function ControlFields(sequence: string, timestamp: string): seq<Field> {
    [ControlField("001", "fldmap-" + sequence)]
    + [ControlField("003", "BookOps")]
    + [ControlField("005", timestamp)]
    + [ControlField("007", "aj canzn")]
  }

  /** The 110 with the given indicator list. */
  function Field110(row: MapData, ind110: seq<string>): (r: Result<Field>)
    ensures r.Ok? <==> |ind110| == 2
    ensures r.Ok? ==> r.value == DataField("110", ind110[0], ind110[1], Author110(row))
  {
    MakeField("110", ind110, Author110(row))
  }

  /** The author as the cartographer, in the 110's subfields. */
  function Author110(row: MapData): seq<Subfield> {
    [Subfield("a", row.author + ","), Subfield("e", "cartographer.")]
  }

  /** The fields `make_bib` collects, in the order it collects them. */
  function BuiltFields(row: MapData, sequence: string, timestamp: string, f110: Field): seq<Field> {
    HeadFields(row, sequence, timestamp) + [f110] + TailFields(row)
  }

  /** `make_bib` with the 110 built from the indicator list `ind110`: the
      collected fields are added to an empty record one by one in tag
      order. */
  function BuildMapBib(row: MapData, sequence: string, timestamp: string, ind110: seq<string>): (r: Result<Record>)
    ensures r.Ok? <==> |ind110| == 2
    ensures r.Ok? ==> r.value.leader == MapLeader
    ensures r.Ok? ==> r.value.fields == AddAllOrdered([], BuiltFields(row, sequence, timestamp, Field110(row, ind110).value), TagValue)
  {
    var f110 :- Field110(row, ind110);
    Ok(Record(MapLeader, AddAllOrdered([], BuiltFields(row, sequence, timestamp, f110), TagValue)))
  }

  /** `make_bib` as written: the 110 gets the single indicator "1 ", since
      `["1" " "]` is one string, and the constructor cannot unpack it. */
  function MakeMapBibAsWritten(row: MapData, sequence: string, timestamp: string): (r: Result<Record>)
    ensures r == Err(BadIndicators(1))
  {
    BuildMapBib(row, sequence, timestamp, ["1" + " "])
  }

  /** `make_bib` as evidently intended: first indicator "1", second blank.
      The record holds the collected fields in the order `make_bib`
      collects them, which is already ascending by tag: 001, 003, 005,
      007, 034 when the scale has a ":", 110, 245, 246 when there is an
      alternative title, 255, 264, 490, 500 and 505 when their columns
      have text, then one 650 per subject heading. */
  function MakeMapBib(row: MapData, sequence: string, timestamp: string): (r: Record)
    ensures r.leader == MapLeader
    ensures r.fields == BuiltFields(row, sequence, timestamp, DataField("110", "1", " ", Author110(row)))
    ensures Ascending(r.fields, TagValue)
    ensures |r.fields| > 0 && r.fields[0] == ControlField("001", "fldmap-" + sequence)
  {
    var f110 := DataField("110", "1", " ", Author110(row));
    MapBibLayout(row, sequence, timestamp, f110);
    BuildMapBib(row, sequence, timestamp, ["1", " "]).value
  }

  // ---------------------------------------------------------------------
  // The record's layout

  /** The tags `make_bib` uses read in the order it adds them. */
  lemma MapTagsRead()
    ensures TagValue("001") <= TagValue("003") <= TagValue("005") <= TagValue("007") <= TagValue("034")
    ensures TagValue("034") <= TagValue("110") <= TagValue("245") <= TagValue("246") <= TagValue("255")
    ensures TagValue("255") <= TagValue("264") <= TagValue("490") <= TagValue("500") <= TagValue("505")
    ensures TagValue("505") <= TagValue("650")
  {
    assert TagValue("001") == 1 by { ThreeDigitTag("001"); }
    assert TagValue("003") == 3 by { ThreeDigitTag("003"); }
    assert TagValue("005") == 5 by { ThreeDigitTag("005"); }
    assert TagValue("007") == 7 by { ThreeDigitTag("007"); }
    assert TagValue("034") == 34 by { ThreeDigitTag("034"); }
    assert TagValue("110") == 110 by { ThreeDigitTag("110"); }
    assert TagValue("245") == 245 by { ThreeDigitTag("245"); }
    assert TagValue("246") == 246 by { ThreeDigitTag("246"); }
    assert TagValue("255") == 255 by { ThreeDigitTag("255"); }
    assert TagValue("264") == 264 by { ThreeDigitTag("264"); }
    assert TagValue("490") == 490 by { ThreeDigitTag("490"); }
    assert TagValue("500") == 500 by { ThreeDigitTag("500"); }
    assert TagValue("505") == 505 by { ThreeDigitTag("505"); }
    assert TagValue("650") == 650 by { ThreeDigitTag("650"); }
  }

  /** The fields up to the 110 are in order for any reading of tags that
      orders the tags the way `make_bib` adds them. */
  lemma HeadInOrder(row: MapData, sequence: string, timestamp: string, f110: Field, key: string -> nat)
    requires f110.tag == "110"
    requires key("001") <= key("003") <= key("005") <= key("007") <= key("034") <= key("110")
    ensures Ascending(HeadFields(row, sequence, timestamp) + [f110], key)
    ensures forall i :: 0 <= i < |HeadFields(row, sequence, timestamp) + [f110]| ==>
      key((HeadFields(row, sequence, timestamp) + [f110])[i].tag) <= key("110")
  {
    var control := ControlFields(sequence, timestamp);
    ControlInOrder(sequence, timestamp, key);
    RaiseBound(control, "007", "034", key);
    AppendTagged(control, CoordinateFields(row), "034", key);
    RaiseBound(HeadFields(row, sequence, timestamp), "034", "110", key);
    AppendTagged(HeadFields(row, sequence, timestamp), [f110], "110", key);
  }

  lemma ControlInOrder(sequence: string, timestamp: string, key: string -> nat)
    requires key("001") <= key("003") <= key("005") <= key("007")
    ensures Ascending(ControlFields(sequence, timestamp), key)
    ensures forall i :: 0 <= i < |ControlFields(sequence, timestamp)| ==>
      key(ControlFields(sequence, timestamp)[i].tag) <= key("007")
  {
    var c1 := [ControlField("001", "fldmap-" + sequence)];
    var c3 := [ControlField("003", "BookOps")];
    var c5 := [ControlField("005", timestamp)];
    var c7 := [ControlField("007", "aj canzn")];
    AppendFour([], "001", c1, "001", c3, "003", c5, "005", c7, "007", key);
    assert [] + c1 + c3 + c5 + c7 == ControlFields(sequence, timestamp);
  }

  /** The fields after the 110 keep the order of their tags. */
  lemma TailInOrder(row: MapData, acc: seq<Field>, key: string -> nat)
    requires Ascending(acc, key) && forall i :: 0 <= i < |acc| ==> key(acc[i].tag) <= key("110")
    requires key("110") <= key("245") <= key("246") <= key("255") <= key("264")
    requires key("264") <= key("490") <= key("500") <= key("505") <= key("650")
    ensures Ascending(acc + TailFields(row), key)
  {
    TitleBlockInOrder(row, acc, key);
    NoteBlockInOrder(row, acc + TitleBlock(row), key);
    AscendingRegroup(acc, TitleBlock(row), NoteBlock(row), key);
  }

  lemma TitleBlockInOrder(row: MapData, acc: seq<Field>, key: string -> nat)
    requires Ascending(acc, key) && forall i :: 0 <= i < |acc| ==> key(acc[i].tag) <= key("110")
    requires key("110") <= key("245") <= key("246") <= key("255") <= key("264")
    ensures Ascending(acc + TitleBlock(row), key)
    ensures forall i :: 0 <= i < |acc + TitleBlock(row)| ==> key((acc + TitleBlock(row))[i].tag) <= key("264")
  {
    var t1, t2, t3, t4 := TitleFields(row), AltTitleFields(row), ScaleFields(row), PublicationFields(row);
    AppendFour(acc, "110", t1, "245", t2, "246", t3, "255", t4, "264", key);
  }

  lemma NoteBlockInOrder(row: MapData, acc: seq<Field>, key: string -> nat)
    requires Ascending(acc, key) && forall i :: 0 <= i < |acc| ==> key(acc[i].tag) <= key("264")
    requires key("264") <= key("490") <= key("500") <= key("505") <= key("650")
    ensures Ascending(acc + NoteBlock(row), key)
  {
    var n1, n2, n3, n4 := SeriesFields(row), NoteFields(row), ContentsFields(row), SubjectFields(row);
    AppendFour(acc, "264", n1, "490", n2, "500", n3, "505", n4, "650", key);
  }

  /** Ordered insertion into an empty record keeps the collected fields
      where `make_bib` puts them, because their tags already ascend. */
  lemma MapBibLayout(row: MapData, sequence: string, timestamp: string, f110: Field)
    requires f110.tag == "110"
    ensures AddAllOrdered([], BuiltFields(row, sequence, timestamp, f110), TagValue)
      == BuiltFields(row, sequence, timestamp, f110)
    ensures Ascending(BuiltFields(row, sequence, timestamp, f110), TagValue)
  {
    var built := BuiltFields(row, sequence, timestamp, f110);
    MapTagsRead();
    HeadInOrder(row, sequence, timestamp, f110, TagValue);
    TailInOrder(row, HeadFields(row, sequence, timestamp) + [f110], TagValue);
    assert [] + built == built;
    AddAllOrderedAppends([], built, TagValue);
  }

  // ---------------------------------------------------------------------
  // The batch

  /** One record per row, numbered from `start`. */
  function Numbered(rows: seq<MapData>, start: int, clock: nat -> string,
                    make: (MapData, string, string) -> Record): (r: seq<Record>)
    ensures |r| == |rows|
    ensures forall i :: 0 <= i < |rows| ==> r[i] == make(rows[i], DetermineSequence(start + i), clock(i))
  {
    seq(|rows|, i requires 0 <= i < |rows| => make(rows[i], DetermineSequence(start + i), clock(i)))
  }

  /** The `create_bibs` loop over a `make` that can raise: the records of
      the rows in order, numbered from `start`, or the first row's error. */
  function MakeAll(rows: seq<MapData>, start: int, clock: nat -> string,
                   make: (MapData, string, string) -> Result<Record>): Result<seq<Record>>
    decreases |rows|
  {
    if rows == [] then Ok([])
    else
      var first :- make(rows[0], DetermineSequence(start), clock(0));
      var rest :- MakeAll(rows[1..], start + 1, (i: nat) => clock(i + 1), make);
      Ok([first] + rest)
  }

  /** `create_bibs` as written: the first row's `make_bib` raises on the
      110's indicators, so a sheet with any row gives no record. */
  function CreateBibsAsWritten(rows: seq<MapData>, start: int, clock: nat -> string): (r: Result<seq<Record>>)
    ensures rows == [] ==> r == Ok([])
    ensures rows != [] ==> r == Err(BadIndicators(1))
  {
    MakeAll(rows, start, clock, MakeMapBibAsWritten)
  }

  /** `create_bibs` with the corrected 110: one record per row, numbered
      from `start`; `clock(i)` is the time stamp read for the i-th row. */
  function CreateBibs(rows: seq<MapData>, start: int, clock: nat -> string): (r: seq<Record>)
    ensures |r| == |rows|
    ensures forall i :: 0 <= i < |rows| ==> r[i] == MakeMapBib(rows[i], DetermineSequence(start + i), clock(i))
  {
    Numbered(rows, start, clock, MakeMapBib)
  }

  /** Numbering from a non-negative start gives every record its own 001. */
  lemma CreateBibsDistinct(rows: seq<MapData>, start: nat, clock: nat -> string, i: nat, j: nat)
    requires i < j < |rows|
    ensures CreateBibs(rows, start, clock)[i].fields[0] != CreateBibs(rows, start, clock)[j].fields[0]
  {
    var si := DetermineSequence(start + i);
    var sj := DetermineSequence(start + j);
    SequenceInjective(start + i, start + j);
    assert ("fldmap-" + si)[7..] == si && ("fldmap-" + sj)[7..] == sj;
  }
}

=== FILE: marc.dfy ===
/** A MARC 21 record as the scripts see it through the MARC library: a
  leader plus an ordered list of fields. Tags below 010 are control fields
  carrying plain data; the others carry two indicators and an ordered list
  of coded subfields. */
module Marc {
  import opened Results
  import opened Strings

  datatype Subfield = Subfield(code: string, value: string)

  datatype Field =
    | ControlField(tag: string, data: string)
    | DataField(tag: string, ind1: string, ind2: string, subfields: seq<Subfield>)

  datatype Record = Record(leader: string, fields: seq<Field>)

  // ---------------------------------------------------------------------
  // Tags

  /** The tag `Field(tag=...)` stores: a tag of digits is read as a number
      and written back with at least three digits (`"%03i" % int(tag)`);
      any other tag is left-padded with blanks to three characters. */
  function NormalTag(tag: string): (t: string)
    ensures |t| >= 3
    ensures IsDigits(tag) ==> IsDigits(t) && DigitsValue(t) == DigitsValue(tag)
    ensures !IsDigits(tag) ==> !IsDigits(t)
  {
    if IsDigits(tag) then
      var s := NatToString(DigitsValue(tag));
      var t := ZFill(s, 3);
      assert IsDigits(t) && DigitsValue(t) == DigitsValue(tag) by {
        if |s| < 3 {
          assert s[0] != '+' && s[0] != '-';
          LeadingZerosValue(3 - |s|, s);
        }
      }
      t
    else if |tag| < 3 then
      var t := seq(3 - |tag|, _ => ' ') + tag;
      assert !IsDigit(t[0]);
      t
    else tag
  }

  /** The library's control-field test on a stored tag: digits only, and
      below 010. */
  predicate IsControlTag(t: string) {
    IsDigits(t) && DigitsValue(t) < 10
  }

  /** A three-digit tag is its hundreds, tens and units. */
  lemma ThreeDigitValue(t: string)
    requires |t| == 3 && IsDigits(t)
    ensures DigitsValue(t) == 100 * DigitValue(t[0]) + 10 * DigitValue(t[1]) + DigitValue(t[2])
  {
    var a, b, c := DigitValue(t[0]), DigitValue(t[1]), DigitValue(t[2]);
    assert t[..2][..1] == [t[0]] && [t[0]][..0] == [];
    assert DigitsValue([t[0]]) == a;
    assert DigitsValue(t[..2]) == a * 10 + b;
    assert DigitsValue(t) == (a * 10 + b) * 10 + c;
  }

  /** A three-digit tag is stored as it is. */
  lemma NormalTagKeepsThreeDigits(t: string)
    requires |t| == 3 && IsDigits(t)
    ensures NormalTag(t) == t
  {
    if t[0] != '0' {
      NatToStringOfCanonical(t);
    } else if t[1] != '0' {
      var s := t[1..];
      assert t == Zeros(1) + s;
      LeadingZerosValue(1, s);
      NatToStringOfCanonical(s);
    } else {
      var s := t[2..];
      assert t == Zeros(2) + s;
      LeadingZerosValue(2, s);
      NatToStringOfCanonical(s);
    }
  }

  // ---------------------------------------------------------------------
  // Fields of a record

  /** `tag in record`. */
  predicate HasTag(fs: seq<Field>, tag: string) {
    exists i :: 0 <= i < |fs| && fs[i].tag == tag
  }

  /** `record.get_fields(tag)`: the fields with that tag, in record order. */
  function FieldsWithTag(fs: seq<Field>, tag: string): (r: seq<Field>)
    ensures |r| <= |fs|
    ensures forall f :: f in r ==> f in fs && f.tag == tag
    ensures forall i :: 0 <= i < |fs| && fs[i].tag == tag ==> fs[i] in r
    ensures r == [] <==> !HasTag(fs, tag)
  {
    if fs == [] then []
    else if fs[0].tag == tag then [fs[0]] + FieldsWithTag(fs[1..], tag)
    else
      assert HasTag(fs, tag) ==> HasTag(fs[1..], tag) by {
        if HasTag(fs, tag) {
          var i :| 0 <= i < |fs| && fs[i].tag == tag;
          assert fs[1..][i - 1] == fs[i];
        }
      }
      FieldsWithTag(fs[1..], tag)
  }

  lemma {:induction false} FieldsWithTagConcat(a: seq<Field>, b: seq<Field>, tag: string)
    ensures FieldsWithTag(a + b, tag) == FieldsWithTag(a, tag) + FieldsWithTag(b, tag)
    decreases |a|
  {
    if a == [] {
      assert a + b == b;
    } else {
      var ab := a + b;
      assert ab[0] == a[0];
      assert ab[1..] == a[1..] + b;
      FieldsWithTagConcat(a[1..], b, tag);
      if a[0].tag == tag {
        calc {
          FieldsWithTag(ab, tag);
          [a[0]] + FieldsWithTag(a[1..] + b, tag);
          [a[0]] + (FieldsWithTag(a[1..], tag) + FieldsWithTag(b, tag));
        }
      } else {
        calc {
          FieldsWithTag(ab, tag);
          FieldsWithTag(a[1..] + b, tag);
        }
      }
    }
  }

  /** Number of fields carrying `tag`. */
  function CountTag(fs: seq<Field>, tag: string): nat {
    |FieldsWithTag(fs, tag)|
  }

  /** Position of the first field with `tag` (`record[tag]`). */
  function FirstWithTag(fs: seq<Field>, tag: string): (r: Option<nat>)
    ensures r.None? <==> !HasTag(fs, tag)
    ensures r.Some? ==> r.value < |fs| && fs[r.value].tag == tag
    ensures r.Some? ==> forall j :: 0 <= j < r.value ==> fs[j].tag != tag
  {
    if fs == [] then None
    else if fs[0].tag == tag then Some(0)
    else
      match FirstWithTag(fs[1..], tag)
      case None =>
        assert forall i :: 0 < i < |fs| ==> fs[i] == fs[1..][i - 1];
        None
      case Some(k) => Some(k + 1)
  }

  /** `record.remove_fields(tag)`: every field with that tag goes, the rest
      stay in order. */
  function RemoveTag(fs: seq<Field>, tag: string): (r: seq<Field>)
    ensures !HasTag(r, tag)
    ensures forall f :: f in r <==> f in fs && f.tag != tag
    ensures forall t :: t != tag ==> FieldsWithTag(r, t) == FieldsWithTag(fs, t)
  {
    if fs == [] then []
    else if fs[0].tag == tag then RemoveTag(fs[1..], tag)
    else [fs[0]] + RemoveTag(fs[1..], tag)
  }

  /** Values of the subfields coded `code`, in order. */
  function CodeValues(subs: seq<Subfield>, code: string): (r: seq<string>)
    ensures |r| <= |subs|
    ensures forall v :: v in r <==> exists i :: 0 <= i < |subs| && subs[i].code == code && subs[i].value == v
  {
    if subs == [] then []
    else
      var rest := CodeValues(subs[1..], code);
      assert forall i :: 0 < i < |subs| ==> subs[i] == subs[1..][i - 1];
      if subs[0].code == code then [subs[0].value] + rest else rest
  }

  lemma {:induction false} NoCodeValues(subs: seq<Subfield>, code: string)
    requires forall j :: 0 <= j < |subs| ==> subs[j].code != code
    ensures CodeValues(subs, code) == []
  {
    if subs != [] {
      NoCodeValues(subs[1..], code);
    }
  }

  /** When position `k` holds the only subfield coded `code`, the values
      coded `code` are just its value. */
  lemma {:induction false} SingleCode(subs: seq<Subfield>, code: string, k: nat)
    requires k < |subs| && subs[k].code == code
    requires forall j :: 0 <= j < |subs| && j != k ==> subs[j].code != code
    ensures CodeValues(subs, code) == [subs[k].value]
    decreases |subs|
  {
    if k == 0 {
      forall j | 0 <= j < |subs[1..]| ensures subs[1..][j].code != code {
        assert subs[1..][j] == subs[j + 1];
      }
      NoCodeValues(subs[1..], code);
    } else {
      forall j | 0 <= j < |subs[1..]| && j != k - 1 ensures subs[1..][j].code != code {
        assert subs[1..][j] == subs[j + 1];
      }
      SingleCode(subs[1..], code, k - 1);
    }
  }

  /** `field.get_subfields(code)`; a control field has no subfields. */
  function SubfieldValues(f: Field, code: string): seq<string> {
    if f.DataField? then CodeValues(f.subfields, code) else []
  }

  function AllValues(subs: seq<Subfield>): (r: seq<string>)
    ensures |r| == |subs|
    ensures forall i :: 0 <= i < |subs| ==> r[i] == subs[i].value
  {
    seq(|subs|, i requires 0 <= i < |subs| => subs[i].value)
  }

  /** `field.value()`: the data of a control field, or the subfield values
      joined by single spaces. */
  function Value(f: Field): string {
    match f
    case ControlField(_, data) => data
    case DataField(_, _, _, subs) => Join(AllValues(subs), " ")
  }

  /** Position of the first subfield coded `code`. */
  function CodeIndex(subs: seq<Subfield>, code: string): (r: Option<nat>)
    ensures r.None? <==> forall i :: 0 <= i < |subs| ==> subs[i].code != code
    ensures r.Some? ==> r.value < |subs| && subs[r.value].code == code
    ensures r.Some? ==> forall j :: 0 <= j < r.value ==> subs[j].code != code
  {
    if subs == [] then None
    else if subs[0].code == code then Some(0)
    else
      match CodeIndex(subs[1..], code)
      case None =>
        assert forall i :: 0 < i < |subs| ==> subs[i] == subs[1..][i - 1];
        None
      case Some(k) => Some(k + 1)
  }

  /** `field[code]`: the first value coded `code`, if any. */
  function FirstValue(f: Field, code: string): (r: Option<string>)
    ensures r.Some? <==> f.DataField? && exists i :: 0 <= i < |f.subfields| && f.subfields[i].code == code
    ensures r.Some? ==> SubfieldValues(f, code) != [] && r.value == SubfieldValues(f, code)[0]
  {
    if f.ControlField? then None
    else
      match CodeIndex(f.subfields, code)
      case None => None
      case Some(k) =>
        FirstValueIsHead(f.subfields, code, k);
        Some(f.subfields[k].value)
  }

  lemma {:induction false} FirstValueIsHead(subs: seq<Subfield>, code: string, k: nat)
    requires k < |subs| && subs[k].code == code
    requires forall j :: 0 <= j < k ==> subs[j].code != code
    ensures CodeValues(subs, code) != [] && CodeValues(subs, code)[0] == subs[k].value
    decreases k
  {
    if k > 0 {
      FirstValueIsHead(subs[1..], code, k - 1);
    }
  }
}

=== FILE: marc_parser.dfy ===
/** scripts/marc_parser.py: the per-record filter of `marc2list`, which
  keeps printed monographs without a research call number and reports
  their Sierra bib number and ISBNs. The CSV write is returned as a row. */
module MarcParser {
  import opened Results
  import opened Strings
  import opened Marc
  import opened BranchDups

  /** `has_research_callnum`: an 852 is present. */
  predicate HasResearchCallnum(rec: Record) {
    HasTag(rec.fields, "852")
  }

  // ---------------------------------------------------------------------
  // ISBNs

  /** The first blank-separated token of an 020 value, stripped. */
  function IsbnToken(d: string): (r: string)
    ensures Stripped(r)
    ensures ' ' !in r
  {
    SplitFirstPart(d, ' ');
    StripSubsequence(Split(d, " ")[0], ' ');
    Strip(Split(d, " ")[0])
  }

  /** `extract_isbns`: the tokens of the entries, in order, joined by
      commas. */
  function ExtractIsbns(data: seq<string>): (r: string)
    ensures data == [] ==> r == ""
  {
    Join(IsbnTokens(data), ",")
  }

  function IsbnTokens(data: seq<string>): (r: seq<string>)
    ensures |r| == |data|
    ensures forall i :: 0 <= i < |data| ==> r[i] == IsbnToken(data[i])
  {
    seq(|data|, i requires 0 <= i < |data| => IsbnToken(data[i]))
  }

  /** Splitting the joined ISBNs on commas gives back one token per entry,
      in order, provided no token holds a comma. */
  lemma ExtractIsbnsSplits(data: seq<string>)
    requires data != []
    requires forall i :: 0 <= i < |data| ==> ',' !in IsbnToken(data[i])
    ensures |Split(ExtractIsbns(data), ",")| == |data|
    ensures forall i :: 0 <= i < |data| ==> Split(ExtractIsbns(data), ",")[i] == IsbnToken(data[i])
  {
    SplitJoin(IsbnTokens(data), ',');
  }

  /** The first part of a split on one character holds no such character
      and starts the text. */
  lemma {:induction false} SplitFirstPart(s: string, c: char)
    ensures c !in Split(s, [c])[0]
    ensures |Split(s, [c])[0]| <= |s| && Split(s, [c])[0] == s[..|Split(s, [c])[0]|]
    decreases |s|
  {
    if |s| >= 1 && s[..1] != [c] {
      SplitFirstPart(s[1..], c);
      var rest := Split(s[1..], [c]);
      assert Split(s, [c])[0] == [s[0]] + rest[0];
    }
  }

  /** Stripping keeps a contiguous part of the text. */
  lemma StripSubsequence(s: string, c: char)
    requires c !in s
    ensures c !in Strip(s)
  {
    StripIsPadded(s);
  }

  // ---------------------------------------------------------------------
  // Sierra bib number

  /** `parse_bibNo`: the ten characters after the first, when there are
      ten of them and they start with "b". */
  function ParseBibNo(field: string): (r: Option<string>)
    ensures r.Some? <==> |field| >= 11 && field[1] == 'b'
    ensures r.Some? ==> |r.value| == 10 && r.value[0] == 'b' && r.value == field[1..11]
  {
    var bibNo := Slice(field, 1, 11);
    if |bibNo| != 10 then None
    else if bibNo[0] != 'b' then None
    else Some(bibNo)
  }

  /** A 907 value is the bib number behind one leading character, with
      anything after it; the bib number comes back. */
  lemma ParseBibNoRoundTrip(lead: char, bibNo: string, rest: string)
    requires |bibNo| == 10 && bibNo[0] == 'b'
    ensures ParseBibNo([lead] + bibNo + rest) == Some(bibNo)
  {
    var s := [lead] + bibNo + rest;
    assert s[1..11] == bibNo;
  }

  // ---------------------------------------------------------------------
  // The record filter

  /** `bib["008"].data[23]`: the form of item of the first 008. */
  function ItemForm(rec: Record): (r: Result<char>)
    ensures !HasTag(rec.fields, "008") ==> r == Err(No008)
    ensures r.Ok? ==> exists i :: 0 <= i < |rec.fields| && rec.fields[i].tag == "008"
                       && rec.fields[i].ControlField? && |rec.fields[i].data| > 23
                       && rec.fields[i].data[23] == r.value
  {
    match FirstWithTag(rec.fields, "008")
    case None => Err(No008)
    case Some(k) =>
      var f := rec.fields[k];
      if !f.ControlField? then Err(No008)
      else if |f.data| <= 23 then Err(Short008)
      else Ok(f.data[23])
  }

  /** What `marc2list` writes for one record: the bib number and ISBNs. */
  datatype Row = Row(bibNo: Option<string>, isbns: string)

  /** The record's gate: leader positions 06 and 07 and the 008 form of
      item make a printed monograph. Fails where the indexing fails. */
  function Eligible(rec: Record): (r: Result<bool>)
    ensures |rec.leader| <= 6 ==> r == Err(ShortLeader(6))
    ensures |rec.leader| == 7 ==> r == Err(ShortLeader(7))
    ensures |rec.leader| >= 8 ==> (r.Err? <==> ItemForm(rec).Err?)
    ensures r.Ok? ==> r.value == IsValidBibType(rec.leader[6], rec.leader[7], Some(ItemForm(rec).value))
  {
    if |rec.leader| <= 6 then Err(ShortLeader(6))
    else if |rec.leader| <= 7 then Err(ShortLeader(7))
    else
      var itemForm :- ItemForm(rec);
      Ok(IsValidBibType(rec.leader[6], rec.leader[7], Some(itemForm)))
  }

  /** The body of the `marc2list` loop for one record: a row for an
      eligible record without an 852, nothing otherwise; an eligible
      record without a 907 is an error. */
  function Marc2ListRow(rec: Record): (r: Result<Option<Row>>)
    ensures r.Err? <==> Eligible(rec).Err? || (Eligible(rec).value && !HasResearchCallnum(rec) && !HasTag(rec.fields, "907"))
    ensures r.Ok? ==> (r.value.Some? <==> Eligible(rec).value && !HasResearchCallnum(rec))
    ensures r.Ok? && r.value.Some? ==> r.value.value.isbns == ExtractIsbns(Values(FieldsWithTag(rec.fields, "020")))
    ensures r.Ok? && r.value.Some? && r.value.value.bibNo.Some? ==>
      |r.value.value.bibNo.value| == 10 && r.value.value.bibNo.value[0] == 'b'
    ensures r.Ok? && r.value.Some? ==>
      FirstWithTag(rec.fields, "907").Some? &&
      r.value.value.bibNo == ParseBibNo(Value(rec.fields[FirstWithTag(rec.fields, "907").value]))
  {
    var valid :- Eligible(rec);
    if valid && !HasResearchCallnum(rec) then
      match FirstWithTag(rec.fields, "907")
      case None => Err(NoBibNumber)
      case Some(k) =>
        var bibNo := ParseBibNo(Value(rec.fields[k]));
        Ok(Some(Row(bibNo, ExtractIsbns(Values(FieldsWithTag(rec.fields, "020"))))))
    else Ok(None)
  }

  /** A record that passes the gate, has no 852, and whose first 907 reads
      one character, the bib number, then anything, gets a row carrying that
      bib number. */
  lemma Marc2ListRowBibNo(rec: Record, lead: char, bibNo: string, rest: string)
    requires Eligible(rec) == Ok(true) && !HasResearchCallnum(rec)
    requires |bibNo| == 10 && bibNo[0] == 'b'
    requires FirstWithTag(rec.fields, "907").Some?
    requires Value(rec.fields[FirstWithTag(rec.fields, "907").value]) == [lead] + bibNo + rest
    ensures Marc2ListRow(rec).Ok? && Marc2ListRow(rec).value.Some?
    ensures Marc2ListRow(rec).value.value.bibNo == Some(bibNo)
  {
    ParseBibNoRoundTrip(lead, bibNo, rest);
  }

  /** `field.value()` of each field, in order. */
  function Values(fs: seq<Field>): (r: seq<string>)
    ensures |r| == |fs|
    ensures forall i :: 0 <= i < |fs| ==> r[i] == Value(fs[i])
  {
    seq(|fs|, i requires 0 <= i < |fs| => Value(fs[i]))
  }

  /** The whole file: the rows of the records in order, or the first
      record's error. */
  function Marc2List(recs: seq<Record>): (r: Result<seq<Row>>)
    ensures r.Ok? ==> |r.value| <= |recs|
  {
    if recs == [] then Ok([])
    else
      var row :- Marc2ListRow(recs[0]);
      var rest :- Marc2List(recs[1..]);
      Ok((if row.Some? then [row.value] else []) + rest)
  }

  /** One row per record that passes the gate and has no 852. */
  function CountKept(recs: seq<Record>): nat
    requires forall i :: 0 <= i < |recs| ==> Marc2ListRow(recs[i]).Ok?
  {
    if recs == [] then 0
    else (if Marc2ListRow(recs[0]).value.Some? then 1 else 0) + CountKept(recs[1..])
  }

  lemma {:induction false} Marc2ListCount(recs: seq<Record>)
    requires Marc2List(recs).Ok?
    ensures forall i :: 0 <= i < |recs| ==> Marc2ListRow(recs[i]).Ok?
    ensures |Marc2List(recs).value| == CountKept(recs)
  {
    if recs != [] {
      Marc2ListCount(recs[1..]);
      assert forall i :: 1 <= i < |recs| ==> recs[i] == recs[1..][i - 1];
    }
  }

  /** The file fails exactly when some record fails. */
  lemma {:induction false} Marc2ListFails(recs: seq<Record>)
    ensures Marc2List(recs).Err? <==> exists i :: 0 <= i < |recs| && Marc2ListRow(recs[i]).Err?
  {
    if recs != [] {
      Marc2ListFails(recs[1..]);
      if Marc2ListRow(recs[0]).Ok? {
        assert forall i :: 1 <= i < |recs| ==> recs[i] == recs[1..][i - 1];
      }
    }
  }
}

=== FILE: ordered_fields.dfy ===
/** The MARC library's `add_ordered_field`, which the crosswalks use to
  put the fields they collect into a record: each field goes in front of
  the first field whose tag reads as a greater number. The tag reading is
  a parameter `key` so that the ordering facts hold for any reading;
  `TagValue` is the library's `int(tag)`. */
module OrderedFields {
  import opened Strings
  import opened Marc

  // ---------------------------------------------------------------------
  // Ordered insertion

  /** `int(tag)`, the number the ordered insertion compares (tags that are
      not digits read as 0). */
  function TagValue(tag: string): nat {
    if IsDigits(tag) then DigitsValue(tag) else 0
  }

  /** `add_ordered_field`: the field goes in front of the first field whose
      tag reads greater, or at the end. The reading of tags is `key`. */
  function AddOrdered(fs: seq<Field>, f: Field, key: string -> nat): (r: seq<Field>)
    ensures |r| == |fs| + 1
  {
    if fs == [] then [f]
    else if key(fs[0].tag) > key(f.tag) then [f] + fs
    else [fs[0]] + AddOrdered(fs[1..], f, key)
  }

  /** Where `add_ordered_field` puts the field: after every field whose tag
      reads at most the new one's, up to the first that reads greater. */
  function InsertionPoint(fs: seq<Field>, f: Field, key: string -> nat): (k: nat)
    ensures k <= |fs|
    ensures forall j :: 0 <= j < k ==> key(fs[j].tag) <= key(f.tag)
    ensures k < |fs| ==> key(fs[k].tag) > key(f.tag)
  {
    if fs == [] then 0
    else if key(fs[0].tag) > key(f.tag) then 0
    else
      var k := InsertionPoint(fs[1..], f, key);
      assert forall j :: 1 <= j < k + 1 ==> fs[j] == fs[1..][j - 1];
      k + 1
  }

  /** `add_ordered_field` splices the field in at the insertion point: the
      fields before it, the new field, the fields from it on. */
  lemma {:induction false} AddOrderedSplices(fs: seq<Field>, f: Field, key: string -> nat)
    ensures var k := InsertionPoint(fs, f, key);
      AddOrdered(fs, f, key) == fs[..k] + [f] + fs[k..]
  {
    if fs != [] && key(fs[0].tag) <= key(f.tag) {
      AddOrderedSplices(fs[1..], f, key);
      var k := InsertionPoint(fs[1..], f, key);
      assert InsertionPoint(fs, f, key) == k + 1;
      assert AddOrdered(fs, f, key) == [fs[0]] + AddOrdered(fs[1..], f, key);
      ConsSplice(fs, k, f);
    }
  }

  /** Putting the head back in front of a splice of the tail is the splice
      one position further on. */
  lemma ConsSplice<T>(xs: seq<T>, k: nat, y: T)
    requires 0 < |xs| && k < |xs|
    ensures [xs[0]] + (xs[1..][..k] + [y] + xs[1..][k..]) == xs[..k + 1] + [y] + xs[k + 1..]
  {
    assert xs[..k + 1] == [xs[0]] + xs[1..][..k];
    assert xs[k + 1..] == xs[1..][k..];
  }

  /** Insertion leaves the fields of every other tag as they were. */
  lemma {:induction false} AddOrderedOtherTags(fs: seq<Field>, f: Field, key: string -> nat, t: string)
    requires t != f.tag
    ensures FieldsWithTag(AddOrdered(fs, f, key), t) == FieldsWithTag(fs, t)
  {
    if fs == [] {
      assert FieldsWithTag([f], t) == FieldsWithTag([f][1..], t);
    } else if key(fs[0].tag) > key(f.tag) {
      var r := [f] + fs;
      assert r[0] == f && r[1..] == fs;
    } else {
      AddOrderedOtherTags(fs[1..], f, key, t);
      var r := [fs[0]] + AddOrdered(fs[1..], f, key);
      assert r[0] == fs[0] && r[1..] == AddOrdered(fs[1..], f, key);
    }
  }

  /** Into fields without its tag, the inserted field is the only one of
      its tag. */
  lemma {:induction false} AddOrderedNewTag(fs: seq<Field>, f: Field, key: string -> nat)
    requires !HasTag(fs, f.tag)
    ensures FieldsWithTag(AddOrdered(fs, f, key), f.tag) == [f]
  {
    if fs == [] {
      assert FieldsWithTag([f], f.tag) == [f] + FieldsWithTag([f][1..], f.tag);
    } else if key(fs[0].tag) > key(f.tag) {
      var r := [f] + fs;
      assert r[0] == f && r[1..] == fs;
      assert FieldsWithTag(fs, f.tag) == [];
    } else {
      assert fs[0].tag != f.tag;
      assert forall i :: 0 <= i < |fs[1..]| ==> fs[1..][i] == fs[i + 1];
      AddOrderedNewTag(fs[1..], f, key);
      var r := [fs[0]] + AddOrdered(fs[1..], f, key);
      assert r[0] == fs[0] && r[1..] == AddOrdered(fs[1..], f, key);
    }
  }

  /** The fields added one by one, in order. */
  function AddAllOrdered(fs: seq<Field>, added: seq<Field>, key: string -> nat): (r: seq<Field>)
    ensures |r| == |fs| + |added|
    decreases |added|
  {
    if added == [] then fs
    else AddAllOrdered(AddOrdered(fs, added[0], key), added[1..], key)
  }

  /** Insertion adds the field and loses none. */
  lemma {:induction false} AddOrderedPermutes(fs: seq<Field>, f: Field, key: string -> nat)
    ensures multiset(AddOrdered(fs, f, key)) == multiset(fs) + multiset{f}
  {
    if fs != [] && key(fs[0].tag) <= key(f.tag) {
      AddOrderedPermutes(fs[1..], f, key);
      assert fs == [fs[0]] + fs[1..];
    }
  }

  /** The record ends up with exactly the fields added. */
  lemma {:induction false} AddAllOrderedPermutes(fs: seq<Field>, added: seq<Field>, key: string -> nat)
    ensures multiset(AddAllOrdered(fs, added, key)) == multiset(fs) + multiset(added)
    decreases |added|
  {
    if added != [] {
      AddOrderedPermutes(fs, added[0], key);
      AddAllOrderedPermutes(AddOrdered(fs, added[0], key), added[1..], key);
      assert added == [added[0]] + added[1..];
    }
  }

  predicate Ascending(fs: seq<Field>, key: string -> nat) {
    forall i, j :: 0 <= i < j < |fs| ==> key(fs[i].tag) <= key(fs[j].tag)
  }

  /** Insertion brings in no tag below a bound that the fields and the
      new field all respect. */
  lemma {:induction false} AddOrderedBounded(fs: seq<Field>, f: Field, lo: nat, key: string -> nat)
    requires forall i :: 0 <= i < |fs| ==> lo <= key(fs[i].tag)
    requires lo <= key(f.tag)
    ensures forall i :: 0 <= i < |fs| + 1 ==> lo <= key(AddOrdered(fs, f, key)[i].tag)
  {
    if fs != [] && key(fs[0].tag) <= key(f.tag) {
      assert forall i :: 0 <= i < |fs| - 1 ==> fs[1..][i] == fs[i + 1];
      AddOrderedBounded(fs[1..], f, lo, key);
    }
  }

  /** Inserting into fields in tag order keeps them in tag order. */
  lemma {:induction false} AddOrderedKeepsOrder(fs: seq<Field>, f: Field, key: string -> nat)
    requires Ascending(fs, key)
    ensures Ascending(AddOrdered(fs, f, key), key)
  {
    if fs == [] {
    } else if key(fs[0].tag) <= key(f.tag) {
      var tail := fs[1..];
      assert forall i :: 0 <= i < |tail| ==> tail[i] == fs[i + 1];
      AddOrderedKeepsOrder(tail, f, key);
      AddOrderedBounded(tail, f, key(fs[0].tag), key);
      var rest := AddOrdered(tail, f, key);
      var r := [fs[0]] + rest;
      assert forall i :: 1 <= i < |r| ==> r[i] == rest[i - 1];
    } else {
      var r := [f] + fs;
      assert forall i :: 1 <= i < |r| ==> r[i] == fs[i - 1];
    }
  }

  /** Fields added in any order come out in tag order. */
  lemma {:induction false} AddAllOrderedSorts(fs: seq<Field>, added: seq<Field>, key: string -> nat)
    requires Ascending(fs, key)
    ensures Ascending(AddAllOrdered(fs, added, key), key)
    decreases |added|
  {
    if added != [] {
      AddOrderedKeepsOrder(fs, added[0], key);
      AddAllOrderedSorts(AddOrdered(fs, added[0], key), added[1..], key);
    }
  }

  /** A field no smaller than every present one goes to the end. */
  lemma {:induction false} AddOrderedAtEnd(fs: seq<Field>, f: Field, key: string -> nat)
    requires forall i :: 0 <= i < |fs| ==> key(fs[i].tag) <= key(f.tag)
    ensures AddOrdered(fs, f, key) == fs + [f]
  {
    if fs != [] {
      assert forall i :: 0 <= i < |fs[1..]| ==> fs[1..][i] == fs[i + 1];
      AddOrderedAtEnd(fs[1..], f, key);
      assert [fs[0]] + (fs[1..] + [f]) == fs + [f];
    }
  }

  /** Adding fields that already come in tag order appends them. */
  lemma {:induction false} AddAllOrderedAppends(fs: seq<Field>, added: seq<Field>, key: string -> nat)
    requires Ascending(fs + added, key)
    ensures AddAllOrdered(fs, added, key) == fs + added
    decreases |added|
  {
    if added != [] {
      var all := fs + added;
      forall i | 0 <= i < |fs| ensures key(fs[i].tag) <= key(added[0].tag) {
        assert all[i] == fs[i] && all[|fs|] == added[0];
      }
      AddOrderedAtEnd(fs, added[0], key);
      assert fs + [added[0]] + added[1..] == all;
      AddAllOrderedAppends(fs + [added[0]], added[1..], key);
    }
  }

  // ---------------------------------------------------------------------
  // Segments in tag order

  /** The value of a three-digit tag. */
  lemma ThreeDigitTag(s: string)
    requires |s| == 3 && IsDigits(s)
    ensures TagValue(s) == 100 * DigitValue(s[0]) + 10 * DigitValue(s[1]) + DigitValue(s[2])
  {
    var s2 := s[..2];
    assert s2[..1] == s[..1] && s2[1] == s[1];
    assert s[..1][..0] == [];
    assert DigitsValue(s[..1]) == DigitValue(s[0]);
    assert DigitsValue(s2) == DigitsValue(s[..1]) * 10 + DigitValue(s[1]);
  }

  /** Every field of `seg` is tagged `tag`. */
  predicate AllTagged(seg: seq<Field>, tag: string) {
    forall i :: 0 <= i < |seg| ==> seg[i].tag == tag
  }

  /** Fields in tag order whose tags read at most that of `tag`, followed
      by fields tagged `tag`: still in order, and all at most `tag`. */
  lemma AppendTagged(acc: seq<Field>, seg: seq<Field>, tag: string, key: string -> nat)
    requires Ascending(acc, key) && (forall i :: 0 <= i < |acc| ==> key(acc[i].tag) <= key(tag))
    requires AllTagged(seg, tag)
    ensures Ascending(acc + seg, key)
    ensures forall i :: 0 <= i < |acc + seg| ==> key((acc + seg)[i].tag) <= key(tag)
  {
    var r := acc + seg;
    forall i, j | 0 <= i < j < |r| ensures key(r[i].tag) <= key(r[j].tag) {
      if j >= |acc| {
        assert r[j] == seg[j - |acc|];
        if i >= |acc| {
          assert r[i] == seg[i - |acc|];
        }
      }
    }
  }

  /** Raising the bound: fields at most `a` are at most any `b` above it. */
  lemma RaiseBound(acc: seq<Field>, a: string, b: string, key: string -> nat)
    requires forall i :: 0 <= i < |acc| ==> key(acc[i].tag) <= key(a)
    requires key(a) <= key(b)
    ensures forall i :: 0 <= i < |acc| ==> key(acc[i].tag) <= key(b)
  {
  }

  /** Four segments, each tagged in turn with tags that read in order,
      after fields whose tags read at most the first of them. */
  lemma AppendFour(acc: seq<Field>, t0: string,
                   s1: seq<Field>, t1: string, s2: seq<Field>, t2: string,
                   s3: seq<Field>, t3: string, s4: seq<Field>, t4: string, key: string -> nat)
    requires Ascending(acc, key) && forall i :: 0 <= i < |acc| ==> key(acc[i].tag) <= key(t0)
    requires key(t0) <= key(t1) <= key(t2) <= key(t3) <= key(t4)
    requires AllTagged(s1, t1) && AllTagged(s2, t2) && AllTagged(s3, t3) && AllTagged(s4, t4)
    ensures Ascending(acc + s1 + s2 + s3 + s4, key)
    ensures forall i :: 0 <= i < |acc + s1 + s2 + s3 + s4| ==> key((acc + s1 + s2 + s3 + s4)[i].tag) <= key(t4)
    ensures acc + s1 + s2 + s3 + s4 == acc + (s1 + s2 + s3 + s4)
  {
    RaiseBound(acc, t0, t1, key);
    AppendTagged(acc, s1, t1, key);
    RaiseBound(acc + s1, t1, t2, key);
    AppendTagged(acc + s1, s2, t2, key);
    RaiseBound(acc + s1 + s2, t2, t3, key);
    AppendTagged(acc + s1 + s2, s3, t3, key);
    RaiseBound(acc + s1 + s2 + s3, t3, t4, key);
    AppendTagged(acc + s1 + s2 + s3, s4, t4, key);
  }

  /** Order does not depend on how the fields are grouped. */
  lemma AscendingRegroup(a: seq<Field>, b: seq<Field>, c: seq<Field>, key: string -> nat)
    requires Ascending(a + b + c, key)
    ensures Ascending(a + (b + c), key)
  {
    assert a + b + c == a + (b + c);
  }

  // ---------------------------------------------------------------------
  // Out-of-order additions

  /** Adding a batch is adding its parts one after the other. */
  lemma {:induction false} AddAllOrderedConcat(fs: seq<Field>, a: seq<Field>, b: seq<Field>, key: string -> nat)
    ensures AddAllOrdered(fs, a + b, key) == AddAllOrdered(AddAllOrdered(fs, a, key), b, key)
    decreases |a|
  {
    if a == [] {
      assert a + b == b;
    } else {
      assert (a + b)[0] == a[0];
      assert (a + b)[1..] == a[1..] + b;
      AddAllOrderedConcat(AddOrdered(fs, a[0], key), a[1..], b, key);
    }
  }

  /** A field whose tag reads below that of the last field, and at least
      those of all the others, lands just before the last field. */
  lemma {:induction false} AddOrderedBefore(xs: seq<Field>, g: Field, f: Field, key: string -> nat)
    requires forall i :: 0 <= i < |xs| ==> key(xs[i].tag) <= key(f.tag)
    requires key(f.tag) < key(g.tag)
    ensures AddOrdered(xs + [g], f, key) == xs + [f, g]
  {
    if xs != [] {
      assert (xs + [g])[0] == xs[0];
      assert (xs + [g])[1..] == xs[1..] + [g];
      assert forall i :: 0 <= i < |xs| - 1 ==> xs[1..][i] == xs[i + 1];
      AddOrderedBefore(xs[1..], g, f, key);
      assert [xs[0]] + (xs[1..] + [f, g]) == xs + [f, g];
    }
  }

  /** Fields in tag order, then a field `g`, then a field `f` whose tag
      reads between theirs: `f` ends up in front of `g`. */
  lemma LastTwoSwapped(lead: seq<Field>, g: Field, f: Field, key: string -> nat)
    requires Ascending(lead, key)
    requires forall i :: 0 <= i < |lead| ==> key(lead[i].tag) <= key(f.tag)
    requires key(f.tag) < key(g.tag)
    ensures AddAllOrdered([], lead + [g, f], key) == lead + [f, g]
  {
    var front := lead + [g];
    RaiseBound(lead, f.tag, g.tag, key);
    AppendTagged(lead, [g], g.tag, key);
    assert [] + front == front;
    AddAllOrderedAppends([], front, key);
    AddAllOrderedConcat([], front, [f], key);
    AppendTwo(lead, g, f);
    AddAllOrderedOne(front, f, key);
    AddOrderedBefore(lead, g, f, key);
  }

  lemma AppendTwo(xs: seq<Field>, a: Field, b: Field)
    ensures xs + [a] + [b] == xs + [a, b]
  {
  }

  lemma AddAllOrderedOne(fs: seq<Field>, f: Field, key: string -> nat)
    ensures AddAllOrdered(fs, [f], key) == AddOrdered(fs, f, key)
  {
    assert [f][1..] == [];
  }

  /** ... and the result is in tag order. */
  lemma SwappedInOrder(lead: seq<Field>, g: Field, f: Field, key: string -> nat)
    requires Ascending(lead, key)
    requires forall i :: 0 <= i < |lead| ==> key(lead[i].tag) <= key(f.tag)
    requires key(f.tag) < key(g.tag)
    ensures Ascending(lead + [f, g], key)
  {
    AppendTagged(lead, [f], f.tag, key);
    RaiseBound(lead + [f], f.tag, g.tag, key);
    AppendTagged(lead + [f], [g], g.tag, key);
    AppendTwo(lead, f, g);
  }
}

=== FILE: platform_bib.dfy ===
/** Accessors over a catalog (Platform) JSON bib record, as in
  scripts/platform_bib_parser.py.

  A record has an id, holding locations, an ordered list of varFields,
  fixed fields keyed by code, standard numbers and a normalized title. The
  leader travels as the content of the varField whose fieldTag is "_"; the
  MARC tag of every other varField is its marcTag. A varField without a
  marcTag carries "" here: no accessor matches it, and the model cannot
  tell it from an empty marcTag, so the crosswalk's failure on a missing
  one is not represented. */
module PlatformBib {
  import opened Results
  import opened Strings

  datatype PSubfield = PSubfield(tag: string, content: string)

  datatype VarField = VarField(
    fieldTag: string,
    marcTag: string,
    ind1: string,
    ind2: string,
    content: Option<string>,
    subfields: Option<seq<PSubfield>>)

  datatype Bib = Bib(
    id: string,
    locations: seq<string>,
    varFields: seq<VarField>,
    fixedFields: map<string, string>,   // fixed-field code -> its "value"
    standardNumbers: seq<string>,
    normTitle: Option<string>)

  /** The fieldTag that marks the leader varField. */
  const LeaderTag := "_"

  /** The MARC tags `has_subject_tags` looks for. */
  const SubjectTags: set<string> := {"600", "610", "611", "630", "650", "651", "655"}

  function GetLocations(b: Bib): seq<string> {
    b.locations
  }

  function GetBibNo(b: Bib): string {
    b.id
  }

  function GetIsbns(b: Bib): seq<string> {
    b.standardNumbers
  }

  function GetNormalizedTitle(b: Bib): Option<string> {
    b.normTitle
  }

  // ---------------------------------------------------------------------
  // First-match lookups

  /** Position of the first varField whose fieldTag is `t`. */
  function FirstWithFieldTag(fs: seq<VarField>, t: string): (r: Option<nat>)
    ensures r.None? ==> forall i :: 0 <= i < |fs| ==> fs[i].fieldTag != t
    ensures r.Some? ==> r.value < |fs| && fs[r.value].fieldTag == t
    ensures r.Some? ==> forall j :: 0 <= j < r.value ==> fs[j].fieldTag != t
  {
    if fs == [] then None
    else if fs[0].fieldTag == t then Some(0)
    else
      match FirstWithFieldTag(fs[1..], t)
      case None =>
        assert forall i :: 0 < i < |fs| ==> fs[i] == fs[1..][i - 1];
        None
      case Some(k) => Some(k + 1)
  }

  /** Position of the first varField whose marcTag is `t`. */
  function FirstWithMarcTag(fs: seq<VarField>, t: string): (r: Option<nat>)
    ensures r.None? ==> forall i :: 0 <= i < |fs| ==> fs[i].marcTag != t
    ensures r.Some? ==> r.value < |fs| && fs[r.value].marcTag == t
    ensures r.Some? ==> forall j :: 0 <= j < r.value ==> fs[j].marcTag != t
  {
    if fs == [] then None
    else if fs[0].marcTag == t then Some(0)
    else
      match FirstWithMarcTag(fs[1..], t)
      case None =>
        assert forall i :: 0 < i < |fs| ==> fs[i] == fs[1..][i - 1];
        None
      case Some(k) => Some(k + 1)
  }

  /** `get_leader`: the content of the first "_" varField; later "_"
      varFields are never looked at. */
  function GetLeader(b: Bib): (r: Option<string>)
    ensures (forall i :: 0 <= i < |b.varFields| ==> b.varFields[i].fieldTag != LeaderTag) ==> r.None?
    ensures forall i :: 0 <= i < |b.varFields| && b.varFields[i].fieldTag == LeaderTag
                        && (forall j :: 0 <= j < i ==> b.varFields[j].fieldTag != LeaderTag)
                        ==> r == b.varFields[i].content
  {
    match FirstWithFieldTag(b.varFields, LeaderTag)
    case None => None
    case Some(i) => b.varFields[i].content
  }

  /** `leader[pos]`: fails like Python when the leader is missing (TypeError)
      or too short (IndexError). */
  function LeaderChar(b: Bib, pos: nat): (r: Result<char>)
    ensures GetLeader(b).None? ==> r == Err(NoLeader)
    ensures GetLeader(b).Some? && pos >= |GetLeader(b).value| ==> r == Err(ShortLeader(pos))
    ensures GetLeader(b).Some? && pos < |GetLeader(b).value| ==> r == Ok(GetLeader(b).value[pos])
  {
    match GetLeader(b)
    case None => Err(NoLeader)
    case Some(l) => if pos < |l| then Ok(l[pos]) else Err(ShortLeader(pos))
  }

  /** `get_rec_type`: leader position 06 (type of record). */
  function GetRecType(b: Bib): (r: Result<char>)
    ensures r.Ok? <==> GetLeader(b).Some? && |GetLeader(b).value| > 6
    ensures r.Ok? ==> r.value == GetLeader(b).value[6]
  {
    LeaderChar(b, 6)
  }

  /** `get_blvl`: leader position 07 (bibliographic level). */
  function GetBlvl(b: Bib): (r: Result<char>)
    ensures r.Ok? <==> GetLeader(b).Some? && |GetLeader(b).value| > 7
    ensures r.Ok? ==> r.value == GetLeader(b).value[7]
  {
    LeaderChar(b, 7)
  }

  /** `get_encoding_level`: leader position 17 (encoding level). */
  function GetEncodingLevel(b: Bib): (r: Result<char>)
    ensures r.Ok? <==> GetLeader(b).Some? && |GetLeader(b).value| > 17
    ensures r.Ok? ==> r.value == GetLeader(b).value[17]
  {
    LeaderChar(b, 17)
  }

  /** `get_tag_008`: the content of the first varField tagged 008. */
  function GetTag008(b: Bib): (r: Option<string>)
    ensures (forall i :: 0 <= i < |b.varFields| ==> b.varFields[i].marcTag != "008") ==> r.None?
    ensures forall i :: 0 <= i < |b.varFields| && b.varFields[i].marcTag == "008"
                        && (forall j :: 0 <= j < i ==> b.varFields[j].marcTag != "008")
                        ==> r == b.varFields[i].content
  {
    match FirstWithMarcTag(b.varFields, "008")
    case None => None
    case Some(i) => b.varFields[i].content
  }

  /** `get_item_form`: 008 position 23 (form of item for books); a missing
      008 or one too short is None, never an error. */
  function GetItemForm(b: Bib): (r: Option<char>)
    ensures r.Some? <==> GetTag008(b).Some? && |GetTag008(b).value| > 23
    ensures r.Some? ==> r.value == GetTag008(b).value[23]
  {
    match GetTag008(b)
    case None => None
    case Some(s) => if |s| > 23 then Some(s[23]) else None
  }

  // ---------------------------------------------------------------------
  // Tag presence

  /** The scan `for field in varFields: if marcTag in tags: present = True;
      break`. */
  function HasMarcTagIn(fs: seq<VarField>, tags: set<string>): (r: bool)
    ensures r <==> exists i :: 0 <= i < |fs| && fs[i].marcTag in tags
  {
    if fs == [] then false
    else if fs[0].marcTag in tags then true
    else
      assert forall i :: 0 < i < |fs| ==> fs[i] == fs[1..][i - 1];
      HasMarcTagIn(fs[1..], tags)
  }

  predicate HasMarcTag(b: Bib, tag: string) {
    HasMarcTagIn(b.varFields, {tag})
  }

  predicate Has050Tag(b: Bib)
    ensures Has050Tag(b) <==> exists i :: 0 <= i < |b.varFields| && b.varFields[i].marcTag == "050"
  {
    HasMarcTag(b, "050")
  }

  predicate Has505Tag(b: Bib)
    ensures Has505Tag(b) <==> exists i :: 0 <= i < |b.varFields| && b.varFields[i].marcTag == "505"
  {
    HasMarcTag(b, "505")
  }

  predicate Has520Tag(b: Bib)
    ensures Has520Tag(b) <==> exists i :: 0 <= i < |b.varFields| && b.varFields[i].marcTag == "520"
  {
    HasMarcTag(b, "520")
  }

  predicate Has082Tag(b: Bib)
    ensures Has082Tag(b) <==> exists i :: 0 <= i < |b.varFields| && b.varFields[i].marcTag == "082"
  {
    HasMarcTag(b, "082")
  }

  predicate HasSubjectTags(b: Bib)
    ensures HasSubjectTags(b) <==>
      exists i :: 0 <= i < |b.varFields| &&
        b.varFields[i].marcTag in {"600", "610", "611", "630", "650", "651", "655"}
  {
    HasMarcTagIn(b.varFields, SubjectTags)
  }

  /** `has_research_call_number`: an 852 is present. */
  predicate HasResearchCallNumber(b: Bib)
    ensures HasResearchCallNumber(b) <==> exists i :: 0 <= i < |b.varFields| && b.varFields[i].marcTag == "852"
  {
    HasMarcTag(b, "852")
  }

  /** `has_branch_call_number`: a 091 is present. */
  predicate HasBranchCallNumber(b: Bib)
    ensures HasBranchCallNumber(b) <==> exists i :: 0 <= i < |b.varFields| && b.varFields[i].marcTag == "091"
  {
    HasMarcTag(b, "091")
  }

  /** `has_national_library_authentication_code`: a 042 is present. */
  predicate HasNationalLibraryAuthenticationCode(b: Bib)
    ensures HasNationalLibraryAuthenticationCode(b) <==>
      exists i :: 0 <= i < |b.varFields| && b.varFields[i].marcTag == "042"
  {
    HasMarcTag(b, "042")
  }

  /** `has_lc_number`: a 010 is present. */
  predicate HasLcNumber(b: Bib)
    ensures HasLcNumber(b) <==> exists i :: 0 <= i < |b.varFields| && b.varFields[i].marcTag == "010"
  {
    HasMarcTag(b, "010")
  }

  /** `has_call_number`: a 091 or an 852 is present. */
  predicate HasCallNumber(b: Bib)
    ensures HasCallNumber(b) <==> HasBranchCallNumber(b) || HasResearchCallNumber(b)
  {
    HasMarcTagIn(b.varFields, {"091", "852"})
  }

  /** A 003 reading "OCoLC", or any 991: what `has_oclc_number` accepts. */
  predicate OclcSignal(f: VarField) {
    (f.marcTag == "003" && f.content == Some("OCoLC")) || f.marcTag == "991"
  }

  function HasOclcSignal(fs: seq<VarField>): (r: bool)
    ensures r <==> exists i :: 0 <= i < |fs| && OclcSignal(fs[i])
  {
    if fs == [] then false
    else
      assert forall i :: 0 < i < |fs| ==> fs[i] == fs[1..][i - 1];
      OclcSignal(fs[0]) || HasOclcSignal(fs[1..])
  }

  /** `has_oclc_number`. */
  predicate HasOclcNumber(b: Bib)
    ensures HasOclcNumber(b) <==>
      (exists i :: 0 <= i < |b.varFields| && b.varFields[i].marcTag == "003" && b.varFields[i].content == Some("OCoLC"))
      || (exists i :: 0 <= i < |b.varFields| && b.varFields[i].marcTag == "991")
  {
    HasOclcSignal(b.varFields)
  }

  // ---------------------------------------------------------------------
  // Accessors that walk subfields (and fail on a field without any)

  /** A varField tagged `tag` whose subfields are missing: walking its
      subfields raises TypeError. */
  predicate Bare(f: VarField, tag: string) {
    f.marcTag == tag && f.subfields.None?
  }

  predicate HasBare(fs: seq<VarField>, tag: string) {
    exists i :: 0 <= i < |fs| && Bare(fs[i], tag)
  }

  function HasBareScan(fs: seq<VarField>, tag: string): (r: bool)
    ensures r <==> HasBare(fs, tag)
  {
    if fs == [] then false
    else
      assert forall i :: 0 < i < |fs| ==> fs[i] == fs[1..][i - 1];
      Bare(fs[0], tag) || HasBareScan(fs[1..], tag)
  }

  /** An 040 carrying a subfield whose content is exactly "DLC". */
  predicate IsDlc040(f: VarField) {
    f.marcTag == "040" && f.subfields.Some?
    && exists j :: 0 <= j < |f.subfields.value| && f.subfields.value[j].content == "DLC"
  }

  function HasDlc040(fs: seq<VarField>): (r: bool)
    ensures r <==> exists i :: 0 <= i < |fs| && IsDlc040(fs[i])
  {
    if fs == [] then false
    else
      assert forall i :: 0 < i < |fs| ==> fs[i] == fs[1..][i - 1];
      IsDlc040(fs[0]) || HasDlc040(fs[1..])
  }

  /** `is_dlc_record`: true iff some 040 has a subfield reading "DLC". The
      inner `break` leaves only the subfield loop, so any 040 without
      subfields raises, wherever it stands. */
  function IsDlcRecord(b: Bib): (r: Result<bool>)
    ensures r.Err? <==> HasBare(b.varFields, "040")
    ensures r.Ok? ==> (r.value <==> exists i :: 0 <= i < |b.varFields| && IsDlc040(b.varFields[i]))
  {
    if HasBareScan(b.varFields, "040") then Err(NoSubfields("040"))
    else Ok(HasDlc040(b.varFields))
  }

  function Contents(subs: seq<PSubfield>): (r: seq<string>)
    ensures |r| == |subs|
    ensures forall i :: 0 <= i < |subs| ==> r[i] == subs[i].content
  {
    seq(|subs|, i requires 0 <= i < |subs| => subs[i].content)
  }

  /** `get_branch_call_number`: the subfield contents of the first 091
      joined by single spaces and upper-cased; None without a 091. */
  function GetBranchCallNumber(b: Bib): (r: Result<Option<string>>)
    ensures r == Ok(None) <==> !HasBranchCallNumber(b)
    ensures r.Err? <==> HasBranchCallNumber(b) && b.varFields[FirstWithMarcTag(b.varFields, "091").value].subfields.None?
    ensures r.Ok? && r.value.Some? ==>
      r.value.value == Upper(Join(Contents(b.varFields[FirstWithMarcTag(b.varFields, "091").value].subfields.value), " "))
    ensures r.Ok? && r.value.Some? ==> NoLowerCase(r.value.value)
  {
    match FirstWithMarcTag(b.varFields, "091")
    case None => Ok(None)
    case Some(i) =>
      match b.varFields[i].subfields
      case None => Err(NoSubfields("091"))
      case Some(subs) =>
        var c := Join(Contents(subs), " ");
        UpperHasNoLowerCase(c);
        Ok(Some(Upper(c)))
  }

  // ---------------------------------------------------------------------
  // OCLC number

  /** `str(int(content))` of a 001, when `int()` accepts it. */
  function ControlNumber(f: VarField): Option<string> {
    if f.marcTag == "001" && f.content.Some? && IsDigits(f.content.value)
    then Some(NatToString(DigitsValue(f.content.value)))
    else None
  }

  /** The last parsable 001 wins; nothing else assigns the number. */
  function LastControlNumber(fs: seq<VarField>): (r: Option<string>)
    ensures r.Some? ==> IsDigits(r.value) && (r.value[0] != '0' || r.value == "0")
    ensures r.Some? ==> exists i :: 0 <= i < |fs| && ControlNumber(fs[i]) == r
    ensures (forall i :: 0 <= i < |fs| ==> ControlNumber(fs[i]).None?) ==> r.None?
  {
    if fs == [] then None
    else
      var last := fs[|fs| - 1];
      var init := fs[..|fs| - 1];
      assert forall i :: 0 <= i < |init| ==> init[i] == fs[i];
      if ControlNumber(last).Some? then ControlNumber(last) else LastControlNumber(init)
  }

  /** `get_oclc_number` as written: the integer rendering of the last
      parsable 001. A 991 is walked subfield by subfield (and raises when it
      has none), but the `==` on its $y compares instead of assigning. */
  function GetOclcNumber(b: Bib): (r: Result<Option<string>>)
    ensures r.Err? <==> HasBare(b.varFields, "991")
    ensures r.Ok? ==> r.value == LastControlNumber(b.varFields)
  {
    if HasBareScan(b.varFields, "991") then Err(NoSubfields("991"))
    else Ok(LastControlNumber(b.varFields))
  }

  lemma {:induction false} LastControlNumberConcat(a: seq<VarField>, c: seq<VarField>)
    ensures LastControlNumber(a + c) ==
      if LastControlNumber(c).Some? then LastControlNumber(c) else LastControlNumber(a)
    decreases |c|
  {
    if c == [] {
      assert a + c == a;
    } else {
      var ac := a + c;
      var init := c[..|c| - 1];
      var n := ControlNumber(c[|c| - 1]);
      assert ac[|ac| - 1] == c[|c| - 1];
      assert ac[..|ac| - 1] == a + init;
      assert LastControlNumber(ac) == if n.Some? then n else LastControlNumber(a + init);
      assert LastControlNumber(c) == if n.Some? then n else LastControlNumber(init);
      LastControlNumberConcat(a, init);
    }
  }

  /** Inserting a 991 with subfields anywhere never changes what
      `get_oclc_number` returns. */
  lemma Field991NeverChangesOclcNumber(pre: seq<VarField>, f: VarField, post: seq<VarField>)
    requires f.marcTag == "991" && f.subfields.Some?
    ensures LastControlNumber(pre + [f] + post) == LastControlNumber(pre + post)
  {
    assert ControlNumber(f).None?;
    LastControlNumberConcat(pre + [f], post);
    LastControlNumberConcat(pre, post);
    LastControlNumberConcat(pre, [f]);
  }

  /** The value `get_oclc_number` evidently meant to take from a field:
      the rendering of a parsable 001, or the last $y of a 991. */
  function IntendedOclcCandidate(f: VarField): (r: Option<string>)
    ensures f.marcTag == "001" ==> r == ControlNumber(f)
  {
    if f.marcTag == "001" then ControlNumber(f)
    else if f.marcTag == "991" && f.subfields.Some? then LastY(f.subfields.value)
    else None
  }

  /** Content of the last $y. */
  function LastY(subs: seq<PSubfield>): (r: Option<string>)
    ensures r.Some? <==> exists j :: 0 <= j < |subs| && subs[j].tag == "y"
  {
    if subs == [] then None
    else
      var init := subs[..|subs| - 1];
      assert forall i :: 0 <= i < |init| ==> init[i] == subs[i];
      if subs[|subs| - 1].tag == "y" then Some(subs[|subs| - 1].content) else LastY(init)
  }

  /** What `LastY` finds is a $y with no $y after it. */
  lemma {:induction false} LastYIsLast(subs: seq<PSubfield>)
    ensures LastY(subs).Some? ==> exists j :: 0 <= j < |subs| && subs[j].tag == "y" && subs[j].content == LastY(subs).value
                                   && forall k :: j < k < |subs| ==> subs[k].tag != "y"
  {
    if subs != [] {
      var n := |subs| - 1;
      var init := subs[..n];
      if subs[n].tag == "y" {
        assert subs[n].content == LastY(subs).value;
      } else if LastY(init).Some? {
        LastYIsLast(init);
        var j :| 0 <= j < |init| && init[j].tag == "y" && init[j].content == LastY(init).value
                 && forall k :: j < k < |init| ==> init[k].tag != "y";
        assert subs[j] == init[j];
        assert forall k :: j < k < |subs| ==> subs[k].tag != "y" by {
          forall k | j < k < |subs| ensures subs[k].tag != "y" {
            if k < n { assert subs[k] == init[k]; }
          }
        }
      }
    }
  }

  function LastIntendedOclc(fs: seq<VarField>): (r: Option<string>)
    ensures (forall i :: 0 <= i < |fs| ==> IntendedOclcCandidate(fs[i]).None?) <==> r.None?
    ensures fs != [] && IntendedOclcCandidate(fs[|fs| - 1]).Some? ==> r == IntendedOclcCandidate(fs[|fs| - 1])
  {
    if fs == [] then None
    else
      var init := fs[..|fs| - 1];
      assert forall i :: 0 <= i < |init| ==> init[i] == fs[i];
      var c := IntendedOclcCandidate(fs[|fs| - 1]);
      if c.Some? then c else LastIntendedOclc(init)
  }

  /** `get_oclc_number` with line 202 read as the assignment it was meant
      to be: the last 001 number or 991 $y, in field order. */
  function GetOclcNumberIntended(b: Bib): (r: Result<Option<string>>)
    ensures r.Err? <==> HasBare(b.varFields, "991")
    ensures r.Ok? && |b.varFields| > 0 && b.varFields[|b.varFields| - 1].marcTag == "991"
            && b.varFields[|b.varFields| - 1].subfields.Some?
            && LastY(b.varFields[|b.varFields| - 1].subfields.value).Some?
            ==> r.value == LastY(b.varFields[|b.varFields| - 1].subfields.value)
  {
    if HasBareScan(b.varFields, "991") then Err(NoSubfields("991"))
    else Ok(LastIntendedOclc(b.varFields))
  }

  /** A record whose only OCLC evidence is a 991 $y: as written the number
      is lost, as intended it is returned. */
  lemma OclcNumberFrom991Lost()
    ensures var f := VarField("y", "991", " ", " ", None, Some([PSubfield("y", "12345")]));
            var b := Bib("1", [], [f], map[], [], None);
            GetOclcNumber(b) == Ok(None) && GetOclcNumberIntended(b) == Ok(Some("12345"))
  {
    var f := VarField("y", "991", " ", " ", None, Some([PSubfield("y", "12345")]));
    var b := Bib("1", [], [f], map[], [], None);
    assert !Bare(f, "991");
    assert ControlNumber(f).None?;
    assert LastY([PSubfield("y", "12345")]) == Some("12345");
  }

  // ---------------------------------------------------------------------
  // Timestamp and deletion flag

  /** `float(content)` of a 005, when it parses. */
  function Stamp(f: VarField): Option<real> {
    if f.marcTag == "005" && f.content.Some? then ParseDecimal(f.content.value) else None
  }

  /** `get_timestamp`: the last parsable 005 wins; 0.0 when there is none. */
  function GetTimestamp(b: Bib): (r: real)
    ensures r >= 0.0
    ensures (forall i :: 0 <= i < |b.varFields| ==> Stamp(b.varFields[i]).None?) ==> r == 0.0
    ensures |b.varFields| > 0 && Stamp(b.varFields[|b.varFields| - 1]).Some?
            ==> r == Stamp(b.varFields[|b.varFields| - 1]).value
    decreases |b.varFields|
  {
    var fs := b.varFields;
    if fs == [] then 0.0
    else
      var init := fs[..|fs| - 1];
      assert forall i :: 0 <= i < |init| ==> init[i] == fs[i];
      match Stamp(fs[|fs| - 1])
      case Some(t) => t
      case None => GetTimestamp(b.(varFields := init))
  }

  /** The timestamp is the stamp of the last 005 that parses, whatever
      unparsable 005s or other fields follow it. */
  lemma {:induction false} TimestampOfLastParsable(b: Bib, j: nat)
    requires j < |b.varFields| && Stamp(b.varFields[j]).Some?
    requires forall k :: j < k < |b.varFields| ==> Stamp(b.varFields[k]).None?
    ensures GetTimestamp(b) == Stamp(b.varFields[j]).value
    decreases |b.varFields|
  {
    var fs := b.varFields;
    if j < |fs| - 1 {
      var init := b.(varFields := fs[..|fs| - 1]);
      assert Stamp(fs[|fs| - 1]).None?;
      assert GetTimestamp(b) == GetTimestamp(init);
      assert init.varFields[j] == fs[j];
      assert forall k :: j < k < |init.varFields| ==> init.varFields[k] == fs[k];
      TimestampOfLastParsable(init, j);
    }
  }

  /** `is_marked_for_deletion`: Some(true) for fixed field 31 = "d",
      Some(false) for any other value, None when 31 is absent. */
  function IsMarkedForDeletion(b: Bib): (r: Option<bool>)
    ensures r.None? <==> "31" !in b.fixedFields
    ensures r == Some(true) <==> "31" in b.fixedFields && b.fixedFields["31"] == "d"
  {
    if "31" in b.fixedFields then Some(b.fixedFields["31"] == "d") else None
  }

  /** Python truthiness of the deletion flag (None is falsy). */
  predicate MarkedForDeletion(b: Bib) {
    IsMarkedForDeletion(b) == Some(true)
  }
}

=== FILE: readalong.dfy ===
/** `change_to_je` of scripts/readalong.py: a read-along call number (099)
  is rebuilt from its $a values, turning the juvenile "J" into "J-E" and
  dropping the "FIC" part. */
module ReadAlong {
  import opened Strings
  import opened Marc
  import opened Rows

  /** One $a value after the "J" rewrite. */
  function Retag(v: string): (r: string)
    ensures Strip(v) == "J" ==> r == "J-E"
    ensures Strip(v) != "J" ==> r == v
  {
    if Strip(v) == "J" then "J-E" else v
  }

  /** "J-E" has no blanks around it, so stripping leaves it alone. */
  lemma JeIsStripped()
    ensures Strip("J-E") == "J-E"
  {
    assert Stripped("J-E");
  }

  /** One pass of the loop: the rewritten value, unless it is "FIC". */
  function JeStep(v: string): (r: seq<Subfield>)
    ensures |r| <= 1
    ensures forall i :: 0 <= i < |r| ==> r[i].code == "a"
  {
    var w := Retag(v);
    if Strip(w) != "FIC" then [Subfield("a", w)] else []
  }

  /** The loop of `change_to_je` over the $a values, in order. */
  function JeSubfields(vals: seq<string>): (r: seq<Subfield>)
    ensures |r| <= |vals|
    ensures forall i :: 0 <= i < |r| ==> r[i].code == "a"
  {
    FlatMapShape(vals, JeStep);
    FlatMap(vals, JeStep)
  }

  /** Steps that emit at most one "a" subfield give at most one "a"
      subfield per value. */
  lemma {:induction false} FlatMapShape(vals: seq<string>, step: string -> seq<Subfield>)
    requires forall v :: |step(v)| <= 1 && forall i :: 0 <= i < |step(v)| ==> step(v)[i].code == "a"
    ensures |FlatMap(vals, step)| <= |vals|
    ensures forall i :: 0 <= i < |FlatMap(vals, step)| ==> FlatMap(vals, step)[i].code == "a"
  {
    if vals != [] {
      FlatMapShape(vals[1..], step);
      var head := step(vals[0]);
      var r := FlatMap(vals, step);
      forall i | 0 <= i < |r| ensures r[i].code == "a" {
        if i < |head| {
          assert r[i] == head[i];
        } else {
          assert r[i] == FlatMap(vals[1..], step)[i - |head|];
        }
      }
    }
  }

  /** `change_to_je`: a new 099 with blank indicators holding only the
      rebuilt $a subfields; every other subfield of the old call number is
      discarded. A 099 is always a data field. */
  function ChangeToJe(callNo: Field): (r: Field)
    requires callNo.DataField?
    ensures r.DataField? && r.tag == "099" && r.ind1 == " " && r.ind2 == " "
    ensures |r.subfields| <= |SubfieldValues(callNo, "a")|
    ensures forall i :: 0 <= i < |r.subfields| ==> r.subfields[i].code == "a"
  {
    DataField("099", " ", " ", JeSubfields(SubfieldValues(callNo, "a")))
  }

  /** The loop handles the values one at a time: the result for a
      concatenation is the concatenation of the results. */
  lemma {:induction false} FlatMapConcat(a: seq<string>, b: seq<string>, step: string -> seq<Subfield>)
    ensures FlatMap(a + b, step) == FlatMap(a, step) + FlatMap(b, step)
    decreases |a|
  {
    if a == [] {
      assert a + b == b;
    } else {
      assert (a + b)[0] == a[0];
      assert (a + b)[1..] == a[1..] + b;
      FlatMapConcat(a[1..], b, step);
    }
  }

  lemma JeSubfieldsConcat(a: seq<string>, b: seq<string>)
    ensures JeSubfields(a + b) == JeSubfields(a) + JeSubfields(b)
  {
    FlatMapConcat(a, b, JeStep);
  }

  /** A value that strips to "J" becomes "J-E". */
  lemma JuvenileBecomesJe(v: string)
    requires Strip(v) == "J"
    ensures JeStep(v) == [Subfield("a", "J-E")]
  {
    JeIsStripped();
  }

  /** A value that strips to "FIC" is dropped. */
  lemma FictionDropped(v: string)
    requires Strip(v) == "FIC"
    ensures JeStep(v) == []
  {
    assert Retag(v) == v;
  }

  /** Any other value is kept as it is, blanks included. */
  lemma OtherKeptVerbatim(v: string)
    requires Strip(v) != "J" && Strip(v) != "FIC"
    ensures JeStep(v) == [Subfield("a", v)]
  {
  }

  /** What one pass yields is settled. */
  lemma StepSettled(v: string)
    ensures forall i :: 0 <= i < |JeStep(v)| ==> Settled(JeStep(v)[i].value)
  {
    var w := Retag(v);
    if JeStep(v) != [] {
      assert JeStep(v) == [Subfield("a", w)];
      if Strip(v) == "J" {
        JeIsStripped();
        assert |Strip(w)| == 3;
      }
      assert Settled(w);
    }
  }

  /** Values neither "J" nor "FIC" (after stripping) come through
      unchanged and in their order. */
  predicate Settled(v: string) {
    Strip(v) != "J" && Strip(v) != "FIC"
  }

  /** A step that keeps each of the given values as one "a" subfield
      keeps all of them, in order. */
  lemma {:induction false} FlatMapKeeps(vals: seq<string>, step: string -> seq<Subfield>)
    requires forall i :: 0 <= i < |vals| ==> step(vals[i]) == [Subfield("a", vals[i])]
    ensures |FlatMap(vals, step)| == |vals|
    ensures forall i :: 0 <= i < |vals| ==> FlatMap(vals, step)[i] == Subfield("a", vals[i])
  {
    if vals != [] {
      FlatMapKeeps(vals[1..], step);
      var r := FlatMap(vals, step);
      forall i | 1 <= i < |vals| ensures r[i] == Subfield("a", vals[i]) {
        assert r[i] == FlatMap(vals[1..], step)[i - 1];
        assert vals[i] == vals[1..][i - 1];
      }
    }
  }

  lemma SettledKept(vals: seq<string>)
    requires forall i :: 0 <= i < |vals| ==> Settled(vals[i])
    ensures |JeSubfields(vals)| == |vals|
    ensures forall i :: 0 <= i < |vals| ==> JeSubfields(vals)[i] == Subfield("a", vals[i])
  {
    forall i | 0 <= i < |vals| ensures JeStep(vals[i]) == [Subfield("a", vals[i])] {
      OtherKeptVerbatim(vals[i]);
    }
    FlatMapKeeps(vals, JeStep);
  }

  /** When every step's output values are settled, so is the loop's. */
  lemma {:induction false} FlatMapSettled(vals: seq<string>, step: string -> seq<Subfield>)
    requires forall v :: forall i :: 0 <= i < |step(v)| ==> Settled(step(v)[i].value)
    ensures forall i :: 0 <= i < |FlatMap(vals, step)| ==> Settled(FlatMap(vals, step)[i].value)
  {
    if vals != [] {
      FlatMapSettled(vals[1..], step);
      var head := step(vals[0]);
      var r := FlatMap(vals, step);
      forall i | 0 <= i < |r| ensures Settled(r[i].value) {
        if i < |head| {
          assert r[i] == head[i];
        } else {
          assert r[i] == FlatMap(vals[1..], step)[i - |head|];
        }
      }
    }
  }

  /** Every value the loop produces is settled: no "J" and no "FIC" is
      left over. */
  lemma OutputSettled(vals: seq<string>)
    ensures forall i :: 0 <= i < |JeSubfields(vals)| ==> Settled(JeSubfields(vals)[i].value)
  {
    forall v ensures forall i :: 0 <= i < |JeStep(v)| ==> Settled(JeStep(v)[i].value) {
      StepSettled(v);
    }
    FlatMapSettled(vals, JeStep);
  }

  /** Converting a converted call number changes nothing. */
  lemma ChangeToJeIdempotent(callNo: Field)
    requires callNo.DataField?
    ensures ChangeToJe(ChangeToJe(callNo)) == ChangeToJe(callNo)
  {
    var once := ChangeToJe(callNo);
    var subs := once.subfields;
    OutputSettled(SubfieldValues(callNo, "a"));
    AllCodedA(subs);
    var vals := CodeValues(subs, "a");
    SettledKept(vals);
    assert JeSubfields(vals) == subs;
  }

  /** When every subfield is coded "a", the values coded "a" are all of
      them, in order. */
  lemma {:induction false} AllCodedA(subs: seq<Subfield>)
    requires forall i :: 0 <= i < |subs| ==> subs[i].code == "a"
    ensures |CodeValues(subs, "a")| == |subs|
    ensures forall i :: 0 <= i < |subs| ==> CodeValues(subs, "a")[i] == subs[i].value
  {
    if subs != [] {
      AllCodedA(subs[1..]);
      assert forall i :: 1 <= i < |subs| ==> subs[i] == subs[1..][i - 1];
    }
  }

  /** The shape of the documented conversions: a settled word, a juvenile
      "J", a "FIC" and the author's name come out as the word, "J-E" and
      the name, whatever blanks surround the "J" and the "FIC". */
  lemma JuvenileFictionExample(word: string, j: string, fic: string, name: string)
    requires Settled(word) && Strip(j) == "J" && Strip(fic) == "FIC" && Settled(name)
    ensures JeSubfields([word, j, fic, name]) == [Subfield("a", word), Subfield("a", "J-E"), Subfield("a", name)]
  {
    OtherKeptVerbatim(word);
    JuvenileBecomesJe(j);
    FictionDropped(fic);
    OtherKeptVerbatim(name);
    FlatMapDropThird(word, j, fic, name, JeStep, Subfield("a", word), Subfield("a", "J-E"), Subfield("a", name));
  }

  /** Four values whose steps give one, one, none and one subfield. */
  lemma FlatMapDropThird(a: string, b: string, c: string, d: string, step: string -> seq<Subfield>,
                         x: Subfield, y: Subfield, z: Subfield)
    requires step(a) == [x] && step(b) == [y] && step(c) == [] && step(d) == [z]
    ensures FlatMap([a, b, c, d], step) == [x, y, z]
  {
    FlatMapFour(a, b, c, d, step);
    assert [x] + [y] + [] + [z] == [x, y, z];
  }

  lemma FlatMapFour(a: string, b: string, c: string, d: string, step: string -> seq<Subfield>)
    ensures FlatMap([a, b, c, d], step) == step(a) + step(b) + step(c) + step(d)
  {
    assert [a, b, c, d][1..] == [b, c, d];
    assert [b, c, d][1..] == [c, d];
    assert [c, d][1..] == [d];
    assert [d][1..] == [];
    assert FlatMap([d], step) == step(d);
    assert FlatMap([c, d], step) == step(c) + step(d);
    assert FlatMap([b, c, d], step) == step(b) + (step(c) + step(d));
  }
}

=== FILE: results.dfy ===
/** Failure-compatible wrappers shared by every module of the model.

  `Option` stands for Python's "value or None"; `Result` stands for a value
  or the exception the original code would raise at that point. Every
  constructor of `Error` names one concrete exception site. */
module Results {

  datatype Option<+T> = None | Some(value: T) {

    /** The wrapped value, or `default` when there is none. */
    function GetOr(default: T): T {
      match this
      case Some(v) => v
      case None => default
    }
  }

  /** The exceptions the modelled code can raise, one constructor per cause. */
  datatype Error =
    | NoLeader                  // `leader[i]` on a missing leader (TypeError)
    | ShortLeader(pos: nat)     // `leader[pos]` past its end (IndexError)
    | NoSubfields(tag: string)  // iterating the None subfields of a `tag` field
    | EmptyBatch                // `sorted(...)[0]` over an empty candidate dict
    | NotAnOcn(text: string)    // normalize_ocn: no "(ocolc)" prefix
    | NotDigits(text: string)   // normalize_ocn: the remainder is not all digits
    | No001                     // `bib["001"].data = ...` without a 001
    | No008                     // `bib["008"].data` without a control 008
    | Short008                  // `data[23]` past the end of the 008
    | NoBibNumber               // a record without a 907
    | AmbiguousSubfield(code: string)  // `field[code] = v` unless exactly one `code` subfield (KeyError)
    | BadIndicators(count: nat) // a data field given an indicator list that is not a pair (ValueError)
    | RowLength(count: nat)     // a CSV row whose column count does not fit the row type (TypeError)

  datatype Result<+T> = Ok(value: T) | Err(error: Error) {

    predicate IsFailure() {
      Err?
    }

    function PropagateFailure<U>(): Result<U>
      requires Err?
    {
      Err(error)
    }

    function Extract(): T
      requires Ok?
    {
      value
    }
  }
}

=== FILE: rows.dfy ===
/** What the scripts' generators do to the rows or lines they read: keep
  those that pass a test, in their order. */
module Rows {
  /** The elements of `xs` for which `keep` holds, in order. */
  function Filter<T(==)>(xs: seq<T>, keep: T -> bool): (r: seq<T>)
    ensures |r| <= |xs|
    ensures forall i :: 0 <= i < |r| ==> r[i] in xs && keep(r[i])
    ensures forall i :: 0 <= i < |xs| && keep(xs[i]) ==> xs[i] in r
  {
    if xs == [] then []
    else
      var rest := Filter(xs[1..], keep);
      assert forall i :: 1 <= i < |xs| ==> xs[i] == xs[1..][i - 1];
      if keep(xs[0]) then [xs[0]] + rest else rest
  }

  /** The filter works element by element: the result for a concatenation
      is the concatenation of the results. */
  lemma {:induction false} FilterConcat<T>(a: seq<T>, b: seq<T>, keep: T -> bool)
    ensures Filter(a + b, keep) == Filter(a, keep) + Filter(b, keep)
    decreases |a|
  {
    if a == [] {
      assert a + b == b;
    } else {
      assert (a + b)[0] == a[0];
      assert (a + b)[1..] == a[1..] + b;
      FilterConcat(a[1..], b, keep);
    }
  }

  /** When every element passes, nothing is dropped. */
  lemma {:induction false} FilterKeepsAll<T>(xs: seq<T>, keep: T -> bool)
    requires forall i :: 0 <= i < |xs| ==> keep(xs[i])
    ensures Filter(xs, keep) == xs
  {
    if xs != [] {
      assert forall i :: 1 <= i < |xs| ==> xs[i] == xs[1..][i - 1];
      FilterKeepsAll(xs[1..], keep);
    }
  }

  /** When no element passes, nothing is kept. */
  lemma {:induction false} FilterDropsAll<T>(xs: seq<T>, keep: T -> bool)
    requires forall i :: 0 <= i < |xs| ==> !keep(xs[i])
    ensures Filter(xs, keep) == []
  {
    if xs != [] {
      assert forall i :: 1 <= i < |xs| ==> xs[i] == xs[1..][i - 1];
      FilterDropsAll(xs[1..], keep);
    }
  }

  /** The lists `f` gives for the elements of `xs`, concatenated in order. */
  function FlatMap<T, U>(xs: seq<T>, f: T -> seq<U>): seq<U> {
    if xs == [] then [] else f(xs[0]) + FlatMap(xs[1..], f)
  }

  /** Appending an element appends its list. */
  lemma {:induction false} FlatMapSnoc<T, U>(xs: seq<T>, x: T, f: T -> seq<U>)
    ensures FlatMap(xs + [x], f) == FlatMap(xs, f) + f(x)
    decreases |xs|
  {
    if xs == [] {
      assert ([] + [x])[1..] == [];
    } else {
      assert (xs + [x])[0] == xs[0];
      assert (xs + [x])[1..] == xs[1..] + [x];
      FlatMapSnoc(xs[1..], x, f);
    }
  }

  /** The list of a non-empty sequence ends with its last element's. */
  lemma FlatMapInitLast<T, U>(xs: seq<T>, f: T -> seq<U>)
    requires xs != []
    ensures FlatMap(xs, f) == FlatMap(xs[..|xs| - 1], f) + f(xs[|xs| - 1])
  {
    assert xs[..|xs| - 1] + [xs[|xs| - 1]] == xs;
    FlatMapSnoc(xs[..|xs| - 1], xs[|xs| - 1], f);
  }

  /** Number of elements that pass. */
  function CountKept<T>(xs: seq<T>, keep: T -> bool): nat {
    if xs == [] then 0 else (if keep(xs[0]) then 1 else 0) + CountKept(xs[1..], keep)
  }

  /** One element out per element that passes. */
  lemma {:induction false} FilterCount<T>(xs: seq<T>, keep: T -> bool)
    ensures |Filter(xs, keep)| == CountKept(xs, keep)
  {
    if xs != [] {
      FilterCount(xs[1..], keep);
    }
  }

  /** `xs` with every copy of `v` taken out, in order. */
  function Without<T(==)>(xs: seq<T>, v: T): (r: seq<T>)
    ensures |r| <= |xs|
  {
    if xs == [] then [] else (if xs[0] == v then [] else [xs[0]]) + Without(xs[1..], v)
  }

  lemma {:induction false} WithoutSnoc<T>(xs: seq<T>, x: T, v: T)
    ensures Without(xs + [x], v) == Without(xs, v) + (if x == v then [] else [x])
    decreases |xs|
  {
    if xs == [] {
      assert [] + [x] == [x];
      assert [x][1..] == [];
    } else {
      assert (xs + [x])[0] == xs[0];
      assert (xs + [x])[1..] == xs[1..] + [x];
      WithoutSnoc(xs[1..], x, v);
    }
  }

  /** The distinct elements of `xs`, each where it first occurs: the head,
      then the same for the rest once the head's copies are taken out. */
  function FirstOccurrences<T(==)>(xs: seq<T>): seq<T>
    decreases |xs|
  {
    if xs == [] then [] else [xs[0]] + FirstOccurrences(Without(xs[1..], xs[0]))
  }

  /** Taking out `v` keeps every other element that was there. */
  lemma {:induction false} WithoutKeeps<T>(xs: seq<T>, v: T, x: T)
    requires x != v
    ensures x in Without(xs, v) <==> x in xs
    decreases |xs|
  {
    if xs != [] {
      WithoutKeeps(xs[1..], v, x);
      assert xs == [xs[0]] + xs[1..];
    }
  }

  /** Unfolding one step from a list that ends in `x`. */
  lemma FirstOccurrencesSnocStep<T>(xs: seq<T>, x: T)
    requires xs != []
    ensures FirstOccurrences(xs) == [xs[0]] + FirstOccurrences(Without(xs[1..], xs[0]))
    ensures FirstOccurrences(xs + [x]) == [xs[0]] + FirstOccurrences(Without(xs[1..], xs[0]) + (if x == xs[0] then [] else [x]))
  {
    var ys := xs + [x];
    assert ys[0] == xs[0] && ys[1..] == xs[1..] + [x];
    WithoutSnoc(xs[1..], x, xs[0]);
  }

  /** Read from the back, a repeated element adds nothing. */
  lemma {:induction false} FirstOccurrencesSnocOld<T>(xs: seq<T>, x: T)
    requires x in xs
    ensures FirstOccurrences(xs + [x]) == FirstOccurrences(xs)
    decreases |xs|
  {
    var w := Without(xs[1..], xs[0]);
    FirstOccurrencesSnocStep(xs, x);
    if x == xs[0] {
      assert w + [] == w;
    } else {
      WithoutKeeps(xs[1..], xs[0], x);
      FirstOccurrencesSnocOld(w, x);
    }
  }

  /** Read from the back, a new element is appended. */
  lemma {:induction false} FirstOccurrencesSnocNew<T>(xs: seq<T>, x: T)
    requires x !in xs
    ensures FirstOccurrences(xs + [x]) == FirstOccurrences(xs) + [x]
    decreases |xs|
  {
    if xs == [] {
      assert [] + [x] == [x];
      assert Without([x][1..], x) == [];
    } else {
      var w := Without(xs[1..], xs[0]);
      FirstOccurrencesSnocStep(xs, x);
      WithoutKeeps(xs[1..], xs[0], x);
      FirstOccurrencesSnocNew(w, x);
    }
  }
}

=== FILE: strings.dfy ===
/** The handful of Python `str` operations the scripts rely on, written out
  with their exact edge cases: `strip`, `lower`/`upper` (ASCII letters only),
  `startswith`, `in`, slicing with negative and clamped bounds, `split` on an
  explicit separator, `join`, `zfill`, `isdigit`, `int()`/`str()` on ASCII
  digit strings and `float()` on plain decimals. */
module Strings {
  import opened Results

  // ---------------------------------------------------------------------
  // Whitespace and strip()

  /** Python's `str.isspace()` on ASCII: tab, line feed, vertical tab, form
      feed, carriage return, the four information separators and space. */
  predicate IsSpace(c: char) {
    var n := c as int;
    (9 <= n <= 13) || (28 <= n <= 32)
  }

  function TrimLeft(s: string): (r: string)
    ensures |r| <= |s| && r == s[|s| - |r|..]
    ensures forall i :: 0 <= i < |s| - |r| ==> IsSpace(s[i])
    ensures r == [] || !IsSpace(r[0])
  {
    if |s| > 0 && IsSpace(s[0]) then TrimLeft(s[1..]) else s
  }

  function TrimRight(s: string): (r: string)
    ensures |r| <= |s| && r == s[..|r|]
    ensures forall i :: |r| <= i < |s| ==> IsSpace(s[i])
    ensures r == [] || !IsSpace(r[|r| - 1])
  {
    if |s| > 0 && IsSpace(s[|s| - 1]) then TrimRight(s[..|s| - 1]) else s
  }

  /** A string that `strip()` leaves alone. */
  predicate Stripped(s: string) {
    s == [] || (!IsSpace(s[0]) && !IsSpace(s[|s| - 1]))
  }

  /** `r` sits at index `i` of `s` with only whitespace around it. */
  predicate PaddedAt(s: string, r: string, i: int) {
    && OccursAt(s, r, i)
    && (forall k :: 0 <= k < i ==> IsSpace(s[k]))
    && (forall k :: i + |r| <= k < |s| ==> IsSpace(s[k]))
  }

  /** Python's `s.strip()`: the infix of `s` left after removing the
      whitespace at both ends. */
  function Strip(s: string): (r: string)
    ensures Stripped(r)
    ensures |r| <= |s|
    ensures Stripped(s) ==> r == s
  {
    TrimmedIsStripped(s);
    TrimKeepsStripped(s);
    TrimRight(TrimLeft(s))
  }

  /** What `strip()` keeps is an infix of `s` with only whitespace around
      it. */
  lemma StripIsPadded(s: string)
    ensures exists i :: PaddedAt(s, Strip(s), i)
  {
    TrimmedIsPadded(s);
    assert PaddedAt(s, Strip(s), |s| - |TrimLeft(s)|);
  }

  lemma TrimmedIsPadded(s: string)
    ensures PaddedAt(s, TrimRight(TrimLeft(s)), |s| - |TrimLeft(s)|)
  {
    TrimmedOccurs(s);
    TrimmedRightPadding(s);
  }

  lemma TrimmedOccurs(s: string)
    ensures OccursAt(s, TrimRight(TrimLeft(s)), |s| - |TrimLeft(s)|)
  {
    var l := TrimLeft(s);
    var r := TrimRight(l);
    var i := |s| - |l|;
    assert s[i..i + |r|] == l[..|r|];
  }

  lemma TrimmedRightPadding(s: string)
    ensures var i := |s| - |TrimLeft(s)|;
      forall k :: i + |TrimRight(TrimLeft(s))| <= k < |s| ==> IsSpace(s[k])
  {
    var l := TrimLeft(s);
    var r := TrimRight(l);
    var i := |s| - |l|;
    forall k | i + |r| <= k < |s| ensures IsSpace(s[k]) {
      assert s[k] == l[k - i];
    }
  }

  lemma TrimmedIsStripped(s: string)
    ensures Stripped(TrimRight(TrimLeft(s)))
  {
    var l := TrimLeft(s);
    var r := TrimRight(l);
    assert r != [] ==> r[0] == l[0];
  }

  lemma TrimKeepsStripped(s: string)
    ensures Stripped(s) ==> TrimRight(TrimLeft(s)) == s
  {
    if s != [] && Stripped(s) {
      assert TrimLeft(s) == s;
    }
  }

  predicate AllSpaces(s: string) {
    forall k :: 0 <= k < |s| ==> IsSpace(s[k])
  }

  lemma {:induction false} TrimLeftPadding(pre: string, t: string)
    requires AllSpaces(pre) && t != [] && !IsSpace(t[0])
    ensures TrimLeft(pre + t) == t
    decreases |pre|
  {
    if pre == [] {
      assert pre + t == t;
    } else {
      assert (pre + t)[0] == pre[0];
      assert (pre + t)[1..] == pre[1..] + t;
      TrimLeftPadding(pre[1..], t);
    }
  }

  lemma {:induction false} TrimRightPadding(t: string, post: string)
    requires AllSpaces(post) && t != [] && !IsSpace(t[|t| - 1])
    ensures TrimRight(t + post) == t
    decreases |post|
  {
    if post == [] {
      assert t + post == t;
    } else {
      var s := t + post;
      assert s[|s| - 1] == post[|post| - 1];
      assert s[..|s| - 1] == t + post[..|post| - 1];
      TrimRightPadding(t, post[..|post| - 1]);
    }
  }

  /** `strip()` removes exactly the whitespace padding around a non-empty
      stripped core. */
  lemma StripPadding(pre: string, core: string, post: string)
    requires AllSpaces(pre) && AllSpaces(post)
    requires core != [] && Stripped(core)
    ensures Strip(pre + core + post) == core
  {
    var t := core + post;
    assert t[0] == core[0];
    assert pre + core + post == pre + t;
    TrimLeftPadding(pre, t);
    TrimRightPadding(core, post);
  }

  // ---------------------------------------------------------------------
  // Case mapping (ASCII letters only)

  function LowerChar(c: char): char {
    if 'A' <= c <= 'Z' then (c as int + 32) as char else c
  }

  function UpperChar(c: char): char {
    if 'a' <= c <= 'z' then (c as int - 32) as char else c
  }

  function Lower(s: string): (r: string)
    ensures |r| == |s|
    ensures forall i :: 0 <= i < |s| ==> r[i] == LowerChar(s[i])
  {
    seq(|s|, i requires 0 <= i < |s| => LowerChar(s[i]))
  }

  function Upper(s: string): (r: string)
    ensures |r| == |s|
    ensures forall i :: 0 <= i < |s| ==> r[i] == UpperChar(s[i])
  {
    seq(|s|, i requires 0 <= i < |s| => UpperChar(s[i]))
  }

  lemma LowerConcat(a: string, b: string)
    ensures Lower(a + b) == Lower(a) + Lower(b)
  {
    assert forall i :: 0 <= i < |a + b| ==> Lower(a + b)[i] == (Lower(a) + Lower(b))[i];
  }

  predicate NoLowerCase(s: string) {
    forall k :: 0 <= k < |s| ==> !('a' <= s[k] <= 'z')
  }

  lemma UpperHasNoLowerCase(s: string)
    ensures NoLowerCase(Upper(s))
  {
  }

  // ---------------------------------------------------------------------
  // Prefixes, suffixes, substrings

  predicate StartsWith(s: string, p: string) {
    |p| <= |s| && s[..|p|] == p
  }

  predicate EndsWith(s: string, p: string) {
    |p| <= |s| && s[|s| - |p|..] == p
  }

  /** `t` occurs in `s` starting at index `i`. */
  predicate OccursAt(s: string, t: string, i: int) {
    0 <= i <= |s| - |t| && s[i..i + |t|] == t
  }

  /** Python's `t in s` for strings. */
  predicate Contains(s: string, t: string) {
    exists i | 0 <= i <= |s| - |t| :: OccursAt(s, t, i)
  }

  lemma ContainsTail(s: string, t: string)
    requires |s| > 0
    ensures Contains(s[1..], t) ==> Contains(s, t)
  {
    if Contains(s[1..], t) {
      var i :| 0 <= i <= |s[1..]| - |t| && OccursAt(s[1..], t, i);
      assert s[i + 1..i + 1 + |t|] == s[1..][i..i + |t|];
      assert OccursAt(s, t, i + 1);
    }
  }

  lemma CharNotContained(s: string, c: char)
    requires c !in s
    ensures !Contains(s, [c])
  {
    forall i | 0 <= i < |s|
      ensures !OccursAt(s, [c], i)
    {
      assert s[i..i + 1] == [s[i]];
    }
  }

  /** Index of the first `c` in `s` (Python's `s.index(c)`), if any. */
  function IndexOf(s: string, c: char): (r: Option<nat>)
    ensures r.None? <==> c !in s
    ensures r.Some? ==> r.value < |s| && s[r.value] == c && c !in s[..r.value]
  {
    if s == [] then None
    else if s[0] == c then Some(0)
    else
      match IndexOf(s[1..], c)
      case None => None
      case Some(k) =>
        assert s[..k + 1] == [s[0]] + s[1..][..k];
        Some(k + 1)
  }

  /** Python's `s.replace(c, "")` for one character `c`. */
  function RemoveChar(s: string, c: char): (r: string)
    ensures c !in r
    ensures forall x :: x != c ==> (x in r <==> x in s)
    ensures c !in s ==> r == s
    ensures |r| <= |s|
  {
    if s == [] then ""
    else if s[0] == c then RemoveChar(s[1..], c)
    else [s[0]] + RemoveChar(s[1..], c)
  }

  // ---------------------------------------------------------------------
  // Python slicing

  /** A slice bound as Python resolves it: negative counts from the end,
      anything outside 0..n is clamped. */
  function ClampIndex(i: int, n: nat): (k: nat)
    ensures k <= n
    ensures 0 <= i <= n ==> k == i
  {
    if i < 0 then (if n + i < 0 then 0 else n + i)
    else if i > n then n
    else i
  }

  /** Python's `s[a:b]`. */
  function Slice(s: string, a: int, b: int): (r: string)
    ensures |r| <= |s|
    ensures 0 <= a <= b <= |s| ==> r == s[a..b]
  {
    var i := ClampIndex(a, |s|);
    var j := ClampIndex(b, |s|);
    if i < j then s[i..j] else ""
  }

  // ---------------------------------------------------------------------
  // split / join

  /** Python's `sep.join(parts)`. */
  function Join(parts: seq<string>, sep: string): string {
    if |parts| == 0 then ""
    else if |parts| == 1 then parts[0]
    else parts[0] + sep + Join(parts[1..], sep)
  }

  /** Python's `s.split(sep)` for a non-empty separator: cut at every
      occurrence, scanning left to right without overlaps. */
  function Split(s: string, sep: string): (parts: seq<string>)
    requires |sep| > 0
    ensures |parts| >= 1
    ensures Join(parts, sep) == s
    ensures !Contains(s, sep) ==> parts == [s]
    decreases |s|
  {
    if |s| < |sep| then [s]
    else if s[..|sep|] == sep then
      assert OccursAt(s, sep, 0);
      var rest := Split(s[|sep|..], sep);
      JoinEmptyFirst(rest, sep);
      [""] + rest
    else
      var rest := Split(s[1..], sep);
      JoinGrowFirst(s[0], rest, sep);
      ContainsTail(s, sep);
      [[s[0]] + rest[0]] + rest[1..]
  }

  lemma JoinEmptyFirst(rest: seq<string>, sep: string)
    requires |rest| >= 1
    ensures Join([""] + rest, sep) == sep + Join(rest, sep)
  {
    assert ([""] + rest)[1..] == rest;
  }

  lemma JoinGrowFirst(c: char, rest: seq<string>, sep: string)
    requires |rest| >= 1
    ensures Join([[c] + rest[0]] + rest[1..], sep) == [c] + Join(rest, sep)
  {
    var parts := [[c] + rest[0]] + rest[1..];
    if |rest| > 1 {
      assert parts[1..] == rest[1..];
    }
  }

  lemma {:induction false} SplitAfterFirstPart(p: string, c: char, t: string)
    requires c !in p
    ensures Split(p + [c] + t, [c]) == [p] + Split(t, [c])
    decreases |p|
  {
    var s := p + [c] + t;
    if p == [] {
      assert s[..1] == [c];
      assert s[1..] == t;
    } else {
      assert s[..1] == [p[0]];
      assert s[1..] == p[1..] + [c] + t;
      SplitAfterFirstPart(p[1..], c, t);
      assert [p[0]] + p[1..] == p;
    }
  }

  /** Splitting a join on a one-character separator gives the parts back,
      provided no part contains the separator. */
  lemma {:induction false} SplitJoin(parts: seq<string>, c: char)
    requires |parts| >= 1
    requires forall i :: 0 <= i < |parts| ==> c !in parts[i]
    ensures Split(Join(parts, [c]), [c]) == parts
    decreases |parts|
  {
    if |parts| == 1 {
      CharNotContained(parts[0], c);
    } else {
      SplitJoin(parts[1..], c);
      SplitAfterFirstPart(parts[0], c, Join(parts[1..], [c]));
      assert [parts[0]] + parts[1..] == parts;
    }
  }

  // ---------------------------------------------------------------------
  // Digits, int() and str()

  predicate IsDigit(c: char) {
    '0' <= c <= '9'
  }

  predicate AllDigits(s: string) {
    forall i :: 0 <= i < |s| ==> IsDigit(s[i])
  }

  /** Python's `s.isdigit()` on ASCII: non-empty, digits only. */
  predicate IsDigits(s: string) {
    |s| > 0 && AllDigits(s)
  }

  function DigitValue(c: char): nat
    requires IsDigit(c)
  {
    c as int - '0' as int
  }

  function DigitChar(d: nat): (c: char)
    requires d < 10
    ensures IsDigit(c) && DigitValue(c) == d
  {
    ('0' as int + d) as char
  }

  /** Python's `int(s)` for an ASCII digit string (the empty string reads as 0). */
  function DigitsValue(s: string): nat
    requires AllDigits(s)
  {
    if s == [] then 0 else DigitsValue(s[..|s| - 1]) * 10 + DigitValue(s[|s| - 1])
  }

  /** Python's `str(n)` for a natural number: the canonical decimal, with
      no leading zero unless the number is zero. */
  function NatToString(n: nat): (r: string)
    ensures IsDigits(r)
    ensures r[0] == '0' ==> r == "0"
    ensures DigitsValue(r) == n
  {
    if n < 10 then [DigitChar(n)]
    else
      var r := NatToString(n / 10) + [DigitChar(n % 10)];
      assert r[..|r| - 1] == NatToString(n / 10);
      r
  }

  lemma {:induction false} LeadingNonZeroPositive(s: string)
    requires IsDigits(s) && s[0] != '0'
    ensures DigitsValue(s) > 0
    decreases |s|
  {
    if |s| > 1 {
      LeadingNonZeroPositive(s[..|s| - 1]);
    }
  }

  /** `str(int(s)) == s` exactly for canonical digit strings. */
  lemma {:induction false} NatToStringOfCanonical(s: string)
    requires IsDigits(s) && (s[0] != '0' || s == "0")
    ensures NatToString(DigitsValue(s)) == s
    decreases |s|
  {
    if |s| > 1 {
      var t := s[..|s| - 1];
      var c := s[|s| - 1];
      LeadingNonZeroPositive(t);
      NatToStringOfCanonical(t);
      var m := DigitsValue(t);
      var d := DigitValue(c);
      assert (m * 10 + d) / 10 == m && (m * 10 + d) % 10 == d;
      assert DigitChar(DigitValue(c)) == c;
      assert s == t + [c];
    }
  }

  /** Leading zeros do not change the value of a digit string. */
  lemma {:induction false} LeadingZerosValue(k: nat, s: string)
    requires AllDigits(s)
    ensures AllDigits(Zeros(k) + s)
    ensures DigitsValue(Zeros(k) + s) == DigitsValue(s)
    decreases |s|, k
  {
    var z := Zeros(k) + s;
    if s == [] {
      assert z == Zeros(k);
      if k > 0 {
        assert z[..|z| - 1] == Zeros(k - 1) + s;
        LeadingZerosValue(k - 1, s);
      }
    } else {
      assert z[..|z| - 1] == Zeros(k) + s[..|s| - 1];
      LeadingZerosValue(k, s[..|s| - 1]);
    }
  }

  /** Python's `str(i)` for any integer. */
  function IntToString(i: int): string {
    if i < 0 then "-" + NatToString(-i) else NatToString(i)
  }

  function Zeros(n: nat): (r: string)
    ensures |r| == n
    ensures forall i :: 0 <= i < n ==> r[i] == '0'
  {
    seq(n, _ => '0')
  }

  /** Python's `s.zfill(width)`: left-pad with zeros to `width`, keeping a
      leading sign in front of the padding. */
  function ZFill(s: string, width: nat): (r: string)
    ensures |r| == if |s| >= width then |s| else width
    ensures |s| >= width ==> r == s
  {
    if |s| >= width then s
    else if |s| > 0 && (s[0] == '+' || s[0] == '-') then [s[0]] + Zeros(width - |s|) + s[1..]
    else Zeros(width - |s|) + s
  }

  // ---------------------------------------------------------------------
  // float()

  function Pow10(n: nat): (p: nat)
    ensures p >= 1
  {
    if n == 0 then 1 else 10 * Pow10(n - 1)
  }

  /** Python's `float(s)` restricted to unsigned plain decimals: digits,
      optionally a point and more digits, with at least one digit overall. */
  function ParseDecimal(s: string): (r: Option<real>)
    ensures r.Some? ==> r.value >= 0.0
    ensures IsDigits(s) ==> r == Some(DigitsValue(s) as real)
    ensures s == [] ==> r.None?
  {
    match IndexOf(s, '.')
    case None => if IsDigits(s) then Some(DigitsValue(s) as real) else None
    case Some(k) =>
      var whole := s[..k];
      var frac := s[k + 1..];
      if |whole| + |frac| > 0 && AllDigits(whole) && AllDigits(frac)
      then Some(DigitsValue(whole) as real + DigitsValue(frac) as real / Pow10(|frac|) as real)
      else None
  }
}

=== FILE: trailing_b.dfy ===
/** scripts/trailing_b.py: OCLC numbers carried in 035 $a with a trailing
  "B" (RLIN records) are normalised in place, moved to the 001 with an
  "OCoLC" 003 when the record has exactly one, and the 908 (and on request
  the 991) is dropped. Reading and writing the MARC files is left out; the
  per-record body of `fix_file` is `FixRecord`. The module docstring also
  promises to keep the legacy 001 when a 991 $y names another number; the
  body never reads a 991 $y, and `FixRecordIntended` is the body with that
  rule. */
module TrailingB {
  import opened Results
  import opened Strings
  import opened Marc
  import opened OrderedFields

  const OclcPrefix := "(OCoLC)"

  // ---------------------------------------------------------------------
  // Control fields

  lemma FieldsWithTagSplice(pre: seq<Field>, x: Field, post: seq<Field>, t: string)
    ensures FieldsWithTag(pre + [x] + post, t)
            == FieldsWithTag(pre, t) + (if x.tag == t then [x] else []) + FieldsWithTag(post, t)
  {
    FieldsWithTagConcat(pre + [x], post, t);
    FieldsWithTagConcat(pre, [x], t);
    assert [x][1..] == [];
    assert FieldsWithTag([x], t) == (if x.tag == t then [x] else []);
  }

  lemma NoTagBefore(fs: seq<Field>, tag: string, k: nat)
    requires k <= |fs|
    requires forall j :: 0 <= j < k ==> fs[j].tag != tag
    ensures FieldsWithTag(fs[..k], tag) == []
  {
    assert !HasTag(fs[..k], tag);
  }

  /** `bib[tag].data = data`, falling back to adding a new control field
      when the record has none (pymarc returns None, whose `.data` raises
      AttributeError). The new field is appended, or put in tag order when
      `ordered` (`add_field` against `add_ordered_field`). */
  function SetControlData(fs: seq<Field>, tag: string, data: string, ordered: bool): (r: seq<Field>)
    ensures FieldsWithTag(r, tag) != [] && FieldsWithTag(r, tag)[0] == ControlField(tag, data)
    ensures HasTag(fs, tag) ==> |FieldsWithTag(r, tag)| == |FieldsWithTag(fs, tag)|
                                && FieldsWithTag(r, tag)[1..] == FieldsWithTag(fs, tag)[1..]
    ensures !HasTag(fs, tag) ==> FieldsWithTag(r, tag) == [ControlField(tag, data)]
    ensures forall t :: t != tag ==> FieldsWithTag(r, t) == FieldsWithTag(fs, t)
  {
    var g := ControlField(tag, data);
    match FirstWithTag(fs, tag)
    case Some(k) =>
      var r := fs[..k] + [g] + fs[k + 1..];
      assert fs == fs[..k] + [fs[k]] + fs[k + 1..];
      NoTagBefore(fs, tag, k);
      FieldsWithTagSplice(fs[..k], fs[k], fs[k + 1..], tag);
      FieldsWithTagSplice(fs[..k], g, fs[k + 1..], tag);
      assert forall t :: t != tag ==> FieldsWithTag(r, t) == FieldsWithTag(fs, t) by {
        forall t | t != tag ensures FieldsWithTag(r, t) == FieldsWithTag(fs, t) {
          FieldsWithTagSplice(fs[..k], fs[k], fs[k + 1..], t);
          FieldsWithTagSplice(fs[..k], g, fs[k + 1..], t);
        }
      }
      r
    case None =>
      if ordered then
        AddOrderedNewTag(fs, g, TagValue);
        assert forall t :: t != tag ==> FieldsWithTag(AddOrdered(fs, g, TagValue), t) == FieldsWithTag(fs, t) by {
          forall t | t != tag ensures FieldsWithTag(AddOrdered(fs, g, TagValue), t) == FieldsWithTag(fs, t) {
            AddOrderedOtherTags(fs, g, TagValue, t);
          }
        }
        AddOrdered(fs, g, TagValue)
      else
        FieldsWithTagConcat(fs, [g], tag);
        assert forall t :: t != tag ==> FieldsWithTag(fs + [g], t) == FieldsWithTag(fs, t) by {
          forall t | t != tag ensures FieldsWithTag(fs + [g], t) == FieldsWithTag(fs, t) {
            FieldsWithTagConcat(fs, [g], t);
          }
        }
        fs + [g]
  }

  /** `enforce_oclc_symbol_in_003`: the first 003 reads "OCoLC" and no
      second 003 is ever added. */
  function EnforceOclcSymbolIn003(bib: Record): (r: Record)
    ensures r.leader == bib.leader
    ensures FieldsWithTag(r.fields, "003") != [] && FieldsWithTag(r.fields, "003")[0] == ControlField("003", "OCoLC")
    ensures CountTag(r.fields, "003") == if HasTag(bib.fields, "003") then CountTag(bib.fields, "003") else 1
    ensures forall t :: t != "003" ==> FieldsWithTag(r.fields, t) == FieldsWithTag(bib.fields, t)
  {
    bib.(fields := SetControlData(bib.fields, "003", "OCoLC", true))
  }

  /** `add_ocn_to_001`: the first 001 carries the OCN, replacing an existing
      one rather than adding a second. */
  function AddOcnTo001(bib: Record, ocn: string): (r: Record)
    ensures r.leader == bib.leader
    ensures FieldsWithTag(r.fields, "001") != [] && FieldsWithTag(r.fields, "001")[0] == ControlField("001", ocn)
    ensures CountTag(r.fields, "001") == if HasTag(bib.fields, "001") then CountTag(bib.fields, "001") else 1
    ensures forall t :: t != "001" ==> FieldsWithTag(r.fields, t) == FieldsWithTag(bib.fields, t)
  {
    bib.(fields := SetControlData(bib.fields, "001", ocn, false))
  }

  /** `ocn_as_control_no`: like `add_ocn_to_001` followed by
      `enforce_oclc_symbol_in_003`, except that a record without a 001
      fails instead of gaining one. */
  function OcnAsControlNo(bib: Record, ocn: string): (r: Result<Record>)
    ensures r.Err? <==> !HasTag(bib.fields, "001")
    ensures r.Ok? ==> FieldsWithTag(r.value.fields, "001") != []
                      && FieldsWithTag(r.value.fields, "001")[0] == ControlField("001", ocn)
    ensures r.Ok? ==> CountTag(r.value.fields, "001") == CountTag(bib.fields, "001")
    ensures r.Ok? ==> FieldsWithTag(r.value.fields, "003") != []
                      && FieldsWithTag(r.value.fields, "003")[0] == ControlField("003", "OCoLC")
  {
    if !HasTag(bib.fields, "001") then Err(No001)
    else Ok(EnforceOclcSymbolIn003(AddOcnTo001(bib, ocn)))
  }

  // ---------------------------------------------------------------------
  // OCLC numbers in 035

  /** Some value starts with `p`; stops at the first one. */
  function AnyStartsWith(vals: seq<string>, p: string): (r: bool)
    ensures r <==> exists i :: 0 <= i < |vals| && StartsWith(vals[i], p)
  {
    if vals == [] then false
    else if StartsWith(vals[0], p) then true
    else
      assert forall i :: 0 < i < |vals| ==> vals[i] == vals[1..][i - 1];
      AnyStartsWith(vals[1..], p)
  }

  /** `has_ocn`: some $a starts with "(OCoLC)", matched case-sensitively. A
      missing field, or a control field (no subfields to walk), has none. */
  function HasOcn(f: Option<Field>): (r: bool)
    ensures r <==> f.Some? && f.value.DataField?
                   && exists i :: 0 <= i < |f.value.subfields| && f.value.subfields[i].code == "a"
                                  && StartsWith(f.value.subfields[i].value, OclcPrefix)
  {
    match f
    case None => false
    case Some(ControlField(_, _)) => false
    case Some(DataField(_, _, _, subs)) =>
      var vals := CodeValues(subs, "a");
      assert forall i :: 0 <= i < |subs| && subs[i].code == "a" ==> subs[i].value in vals;
      assert AnyStartsWith(vals, OclcPrefix) ==>
        exists i :: 0 <= i < |subs| && subs[i].code == "a" && StartsWith(subs[i].value, OclcPrefix) by {
        if AnyStartsWith(vals, OclcPrefix) {
          var j :| 0 <= j < |vals| && StartsWith(vals[j], OclcPrefix);
          assert vals[j] in vals;
        }
      }
      AnyStartsWith(vals, OclcPrefix)
  }

  /** `normalize_ocn`: the "(ocolc)" prefix is recognised after lower-casing
      and stripping, but cut from the raw value; one trailing "b"/"B" is
      dropped; what is left must be a digit string. */
  function NormalizeOcn(value: string): (r: Result<string>)
    ensures !StartsWith(Strip(Lower(value)), "(ocolc)") <==> r == Err(NotAnOcn(value))
    ensures r.Ok? ==> IsDigits(r.value)
  {
    if !StartsWith(Strip(Lower(value)), "(ocolc)") then Err(NotAnOcn(value))
    else
      var core := DropTrailingB(Strip(Slice(value, 7, |value|)));
      if IsDigits(core) then Ok(core) else Err(NotDigits(core))
  }

  /** One trailing "b" or "B" and the blanks before it are dropped. */
  function DropTrailingB(rest: string): (r: string)
    ensures |r| <= |rest|
    ensures !EndsWith(Lower(rest), "b") ==> r == rest
  {
    if EndsWith(Lower(rest), "b") then Strip(Slice(rest, 0, -1)) else rest
  }

  /** A string ending in a digit has no trailing "b" to drop. */
  lemma EndsInDigit(s: string)
    requires s != [] && IsDigit(s[|s| - 1])
    ensures DropTrailingB(s) == s
  {
    var low := Lower(s);
    assert low[|s| - 1] == s[|s| - 1];
    assert low[|s| - 1..] != "b" by {
      assert low[|s| - 1..][0] == low[|s| - 1];
    }
  }

  lemma DigitsAreStripped(d: string)
    requires IsDigits(d)
    ensures Strip(d) == d
    ensures DropTrailingB(d) == d
  {
    assert IsDigit(d[0]) && IsDigit(d[|d| - 1]);
    assert Stripped(d);
    EndsInDigit(d);
  }

  /** What `fix_file` writes back into the 035 reads as the same number:
      `normalize_ocn` returns `d` from "(OCoLC)" + `d` for every digit string. */
  lemma NormalizeOcnRoundTrip(d: string)
    requires IsDigits(d)
    ensures NormalizeOcn(OclcPrefix + d) == Ok(d)
  {
    var v := OclcPrefix + d;
    var low := Lower(v);
    assert low[..7] == "(ocolc)";
    assert low[|low| - 1] == LowerChar(d[|d| - 1]);
    assert Stripped(low);
    assert Slice(v, 7, |v|) == d;
    DigitsAreStripped(d);
  }

  /** Normalising an already normalised 035 changes nothing. */
  lemma NormalizeOcnStable(value: string)
    requires NormalizeOcn(value).Ok?
    ensures NormalizeOcn(OclcPrefix + NormalizeOcn(value).value) == NormalizeOcn(value)
  {
    NormalizeOcnRoundTrip(NormalizeOcn(value).value);
  }

  /** A value that starts with "(OCoLC)" and ends in a non-blank, padded
      with blanks, passes the prefix test. */
  lemma PrefixAccepted(core: string, post: string)
    requires |core| >= 7 && core[..7] == OclcPrefix && !IsSpace(core[|core| - 1])
    requires AllSpaces(post)
    ensures StartsWith(Strip(Lower(core + post)), "(ocolc)")
  {
    LowerConcat(core, post);
    assert AllSpaces(Lower(post));
    assert Lower(core)[..7] == "(ocolc)";
    assert Lower(core)[|core| - 1] == LowerChar(core[|core| - 1]);
    StripPadding("", Lower(core), Lower(post));
    assert "" + Lower(core) + Lower(post) == Lower(core + post);
  }

  lemma DropTrailingBOf(d: string, b: string)
    requires IsDigits(d) && (b == "" || b == "b" || b == "B")
    ensures DropTrailingB(d + b) == d
  {
    DigitsAreStripped(d);
    var s := d + b;
    if b != "" {
      var low := Lower(s);
      assert low[|s| - 1] == LowerChar(b[0]) == 'b';
      assert low[|s| - 1..] == "b";
      assert s[..|s| - 1] == d;
      assert Slice(s, 0, -1) == d;
    } else {
      assert s == d;
    }
  }

  lemma AfterPrefix(tail: string)
    ensures Slice(OclcPrefix + tail, 7, |OclcPrefix + tail|) == tail
  {
    assert (OclcPrefix + tail)[7..] == tail;
  }

  /** The digits with an optional trailing "b" end in a non-blank. */
  lemma DigitsThenB(d: string, b: string)
    requires IsDigits(d) && (b == "" || b == "b" || b == "B")
    ensures d + b != [] && Stripped(d + b)
  {
    var db := d + b;
    assert db[0] == d[0];
    if b == "" {
      assert db[|db| - 1] == d[|d| - 1];
    } else {
      assert db[|db| - 1] == b[0];
    }
  }

  /** `normalize_ocn` in two steps: the prefix test, then the digits left
      after the prefix, the blanks and a trailing "b". */
  lemma NormalizeOcnSteps(v: string, core: string)
    requires StartsWith(Strip(Lower(v)), "(ocolc)")
    requires DropTrailingB(Strip(Slice(v, 7, |v|))) == core
    ensures NormalizeOcn(v) == if IsDigits(core) then Ok(core) else Err(NotDigits(core))
  {
  }

  /** The shapes the RLIN records carry: "(OCoLC)", optional blanks, the
      digits, an optional trailing "b" or "B", optional blanks. All of them
      normalise to the bare digits. */
  lemma NormalizeOcnPadded(pre: string, d: string, b: string, post: string)
    requires AllSpaces(pre) && AllSpaces(post) && IsDigits(d)
    requires b == "" || b == "b" || b == "B"
    ensures NormalizeOcn(OclcPrefix + pre + d + b + post) == Ok(d)
  {
    var db := d + b;
    var v := OclcPrefix + pre + d + b + post;
    Regroup(OclcPrefix, pre, d, b, post);
    DigitsThenB(d, b);
    assert StartsWith(Strip(Lower(v)), "(ocolc)") by {
      var core := OclcPrefix + (pre + db);
      assert core[..7] == OclcPrefix && core[|core| - 1] == db[|db| - 1];
      PrefixAccepted(core, post);
    }
    assert DropTrailingB(Strip(Slice(v, 7, |v|))) == d by {
      AfterPrefix(pre + db + post);
      StripPadding(pre, db, post);
      DropTrailingBOf(d, b);
    }
    NormalizeOcnSteps(v, d);
  }

  lemma Regroup(a: string, b: string, c: string, d: string, e: string)
    ensures a + b + c + d + e == a + (b + (c + d) + e)
    ensures a + b + c + d + e == a + (b + (c + d)) + e
  {
  }

  /** Letters between the prefix and the digits ("(OCoLC)ocn1234") are
      refused rather than skipped. */
  lemma NormalizeOcnRejectsLetters(w: string, d: string)
    requires w != [] && !IsDigit(w[0]) && !IsSpace(w[0]) && IsDigits(d)
    ensures NormalizeOcn(OclcPrefix + w + d) == Err(NotDigits(w + d))
  {
    LetterThenDigits(w, d);
    NormalizeOcnBare(w + d);
    Assoc3(OclcPrefix, w, d);
  }

  /** A stripped text that keeps its last character goes through the
      normalisation unchanged after the prefix. */
  lemma NormalizeOcnBare(t: string)
    requires t != [] && Stripped(t) && DropTrailingB(t) == t
    ensures NormalizeOcn(OclcPrefix + t) == if IsDigits(t) then Ok(t) else Err(NotDigits(t))
  {
    var v := OclcPrefix + t;
    assert StartsWith(Strip(Lower(v)), "(ocolc)") by {
      assert v + "" == v && AllSpaces("");
      assert v[..7] == OclcPrefix && v[|v| - 1] == t[|t| - 1];
      PrefixAccepted(v, "");
    }
    assert DropTrailingB(Strip(Slice(v, 7, |v|))) == t by {
      AfterPrefix(t);
    }
    NormalizeOcnSteps(v, t);
  }

  lemma LetterThenDigits(w: string, d: string)
    requires w != [] && !IsDigit(w[0]) && !IsSpace(w[0]) && IsDigits(d)
    ensures w + d != [] && Stripped(w + d) && !IsDigits(w + d) && DropTrailingB(w + d) == w + d
  {
    var wd := w + d;
    assert wd[0] == w[0] && wd[|wd| - 1] == d[|d| - 1];
    EndsInDigit(wd);
  }

  lemma Assoc3(a: string, b: string, c: string)
    ensures a + b + c == a + (b + c)
  {
  }

  lemma HasOcnExamples()
    ensures !HasOcn(Some(DataField("035", " ", " ", [Subfield("a", "(WaOLN)1234")])))
    ensures HasOcn(Some(DataField("035", " ", " ", [Subfield("a", "(OCoLC)1234B")])))
    ensures !HasOcn(None)
    ensures !HasOcn(Some(DataField("035", " ", " ", [Subfield("z", "foo")])))
  {
    assert "(WaOLN)1234"[..7] != OclcPrefix by {
      assert "(WaOLN)1234"[..7][1] != OclcPrefix[1];
    }
  }

  /** `field[code] = value`: pymarc replaces the value of the only subfield
      coded `code` and raises KeyError when there is none or more than one. */
  function SetSubfield(f: Field, code: string, value: string): (r: Result<Field>)
    requires f.DataField?
    ensures r.Ok? <==> |CodeValues(f.subfields, code)| == 1
    ensures r.Ok? ==> r.value.DataField? && r.value.tag == f.tag && r.value.ind1 == f.ind1 && r.value.ind2 == f.ind2
    ensures r.Ok? ==> |r.value.subfields| == |f.subfields|
    ensures r.Ok? ==> forall i :: 0 <= i < |f.subfields| ==>
      r.value.subfields[i] == if f.subfields[i].code == code then Subfield(code, value) else f.subfields[i]
    ensures r.Ok? ==> CodeValues(r.value.subfields, code) == [value]
  {
    if |CodeValues(f.subfields, code)| != 1 then Err(AmbiguousSubfield(code))
    else
      assert CodeValues(f.subfields, code)[0] in CodeValues(f.subfields, code);
      var k := CodeIndex(f.subfields, code).value;
      OnlyCodeAt(f.subfields, code, k);
      var subs := f.subfields[k := Subfield(code, value)];
      SingleCode(subs, code, k);
      Ok(f.(subfields := subs))
  }

  /** With exactly one subfield coded `code`, the first one is the only one. */
  lemma {:induction false} OnlyCodeAt(subs: seq<Subfield>, code: string, k: nat)
    requires |CodeValues(subs, code)| == 1
    requires k < |subs| && subs[k].code == code
    requires forall j :: 0 <= j < k ==> subs[j].code != code
    ensures forall j :: k < j < |subs| ==> subs[j].code != code
    decreases k
  {
    if k == 0 {
      assert CodeValues(subs, code) == [subs[0].value] + CodeValues(subs[1..], code);
      forall j | 0 < j < |subs| ensures subs[j].code != code {
        assert subs[j] == subs[1..][j - 1];
        assert subs[j].value !in CodeValues(subs[1..], code);
      }
    } else {
      assert CodeValues(subs, code) == CodeValues(subs[1..], code);
      OnlyCodeAt(subs[1..], code, k - 1);
      forall j | k < j < |subs| ensures subs[j].code != code {
        assert subs[j] == subs[1..][j - 1];
      }
    }
  }

  /** The loop body of `fix_file` for one 035: an OCN-bearing field has its
      $a rewritten as "(OCoLC)" + the normalised number, which is reported;
      any other field is left alone. */
  function Fix035(f: Field): (r: Result<(Field, Option<string>)>)
    ensures !HasOcn(Some(f)) ==> r == Ok((f, None))
    ensures r.Ok? && HasOcn(Some(f)) ==> r.value.1.Some? && IsDigits(r.value.1.value) && r.value.0.tag == f.tag
  {
    if !HasOcn(Some(f)) then Ok((f, None))
    else
      var ocn :- NormalizeOcn(FirstValue(f, "a").value);
      var g :- SetSubfield(f, "a", OclcPrefix + ocn);
      Ok((g, Some(ocn)))
  }

  /** An OCN-bearing 035 is fixed exactly when its first $a normalises and
      it has a single $a; the fixed field's only $a is "(OCoLC)" followed by
      the number, so it still bears an OCN. */
  lemma Fix035Rewrites(f: Field)
    requires HasOcn(Some(f))
    ensures FirstValue(f, "a").Some?
    ensures Fix035(f).Ok? <==> NormalizeOcn(FirstValue(f, "a").value).Ok? && |CodeValues(f.subfields, "a")| == 1
    ensures Fix035(f).Ok? ==>
      && NormalizeOcn(FirstValue(f, "a").value) == Ok(Fix035(f).value.1.value)
      && SubfieldValues(Fix035(f).value.0, "a") == [OclcPrefix + Fix035(f).value.1.value]
      && HasOcn(Some(Fix035(f).value.0))
  {
    var r := Fix035(f);
    if r.Ok? {
      var ocn := r.value.1.value;
      var g := r.value.0;
      assert g == SetSubfield(f, "a", OclcPrefix + ocn).value;
      var vals := CodeValues(g.subfields, "a");
      assert vals == [OclcPrefix + ocn];
      assert vals[0] in vals;
    }
  }

  /** Number of OCN-bearing 035 fields. */
  function CountOcn035(fs: seq<Field>): nat {
    if fs == [] then 0
    else (if fs[0].tag == "035" && HasOcn(Some(fs[0])) then 1 else 0) + CountOcn035(fs[1..])
  }

  /** A field list fixed one field at a time, front to back, stopping at
      the first failure; `fix` is the step for one field and the numbers it
      reports are collected in order. */
  function FixEach(fs: seq<Field>, fix: Field -> Result<(Field, Option<string>)>): (r: Result<(seq<Field>, seq<string>)>)
    ensures r.Ok? ==> |r.value.0| == |fs|
  {
    if fs == [] then Ok(([], []))
    else
      var head :- fix(fs[0]);
      var tail :- FixEach(fs[1..], fix);
      var found := if head.1.Some? then [head.1.value] else [];
      Ok(([head.0] + tail.0, found + tail.1))
  }

  /** The 035 loop of `fix_file` over the whole field list: 035s are fixed
      in place, in record order, every other field is untouched; the
      numbers found are collected in order. */
  function Fix035s(fs: seq<Field>): (r: Result<(seq<Field>, seq<string>)>)
    ensures r.Ok? ==> |r.value.0| == |fs|
  {
    FixEach(fs, FixField)
  }

  /** The loop keeps every field's tag in place. */
  lemma {:induction false} Fix035sKeepsTags(fs: seq<Field>)
    requires Fix035s(fs).Ok?
    ensures forall i :: 0 <= i < |fs| ==> Fix035s(fs).value.0[i].tag == fs[i].tag
  {
    if fs != [] {
      Fix035sKeepsTags(fs[1..]);
      var r := Fix035s(fs).value;
      assert forall i :: 0 < i < |fs| ==> r.0[i] == Fix035s(fs[1..]).value.0[i - 1] && fs[i] == fs[1..][i - 1];
    }
  }

  /** The loop leaves every field other than an 035 as it was. */
  lemma {:induction false} Fix035sKeepsOthers(fs: seq<Field>)
    requires Fix035s(fs).Ok?
    ensures forall i :: 0 <= i < |fs| && fs[i].tag != "035" ==> Fix035s(fs).value.0[i] == fs[i]
  {
    if fs != [] {
      Fix035sKeepsOthers(fs[1..]);
      var r := Fix035s(fs).value;
      assert forall i :: 0 < i < |fs| ==> r.0[i] == Fix035s(fs[1..]).value.0[i - 1] && fs[i] == fs[1..][i - 1];
    }
  }

  /** Only digit strings are collected. */
  lemma {:induction false} Fix035sCollectsDigits(fs: seq<Field>)
    requires Fix035s(fs).Ok?
    ensures forall i :: 0 <= i < |Fix035s(fs).value.1| ==> IsDigits(Fix035s(fs).value.1[i])
  {
    if fs != [] {
      Fix035sCollectsDigits(fs[1..]);
    }
  }

  /** One field of the loop: only 035s are looked at. */
  function FixField(f: Field): (r: Result<(Field, Option<string>)>)
    ensures f.tag != "035" ==> r == Ok((f, None))
    ensures r.Ok? ==> r.value.0.tag == f.tag
    ensures r.Ok? && r.value.1.Some? ==> IsDigits(r.value.1.value)
  {
    if f.tag == "035" then Fix035(f) else Ok((f, None))
  }

  /** The loop fails as soon as one field cannot be fixed. */
  lemma {:induction false} FixEachFailsOn(fs: seq<Field>, fix: Field -> Result<(Field, Option<string>)>, i: nat)
    requires i < |fs| && fix(fs[i]).Err?
    ensures FixEach(fs, fix).Err?
    decreases i
  {
    if i > 0 {
      assert fs[1..][i - 1] == fs[i];
      FixEachFailsOn(fs[1..], fix, i - 1);
    }
  }

  /** Each field of the result is that field fixed on its own. */
  lemma {:induction false} FixEachFixesEach(fs: seq<Field>, fix: Field -> Result<(Field, Option<string>)>, i: nat)
    requires i < |fs| && FixEach(fs, fix).Ok?
    ensures fix(fs[i]).Ok? && FixEach(fs, fix).value.0[i] == fix(fs[i]).value.0
    decreases i
  {
    if i > 0 {
      assert fs[1..][i - 1] == fs[i];
      FixEachFixesEach(fs[1..], fix, i - 1);
    }
  }

  /** An 035 that cannot be fixed makes the whole record fail. */
  lemma Fix035sFailsOn(fs: seq<Field>, i: nat)
    requires i < |fs| && fs[i].tag == "035"
    ensures Fix035(fs[i]).Err? ==> Fix035s(fs).Err?
  {
    if Fix035(fs[i]).Err? {
      assert FixField(fs[i]) == Fix035(fs[i]);
      FixEachFailsOn(fs, FixField, i);
    }
  }

  /** Each 035 of the result is that 035 fixed on its own. */
  lemma Fix035sFixesEach(fs: seq<Field>, i: nat)
    requires i < |fs| && fs[i].tag == "035" && Fix035s(fs).Ok?
    ensures Fix035(fs[i]).Ok? && Fix035s(fs).value.0[i] == Fix035(fs[i]).value.0
  {
    assert FixField(fs[i]) == Fix035(fs[i]);
    FixEachFixesEach(fs, FixField, i);
  }

  /** One number is collected per OCN-bearing 035. */
  lemma {:induction false} Fix035sCount(fs: seq<Field>)
    requires Fix035s(fs).Ok?
    ensures |Fix035s(fs).value.1| == CountOcn035(fs)
  {
    if fs != [] {
      Fix035sCount(fs[1..]);
    }
  }

  /** Drop the 991s when asked to, and the 908s always. */
  function Prune(fs: seq<Field>, del991: string): (r: seq<Field>)
    ensures !HasTag(r, "908")
    ensures del991 == "yes" ==> !HasTag(r, "991")
    ensures del991 != "yes" ==> FieldsWithTag(r, "991") == FieldsWithTag(fs, "991")
    ensures forall t :: t != "908" && t != "991" ==> FieldsWithTag(r, t) == FieldsWithTag(fs, t)
  {
    var kept := if del991 == "yes" then RemoveTag(fs, "991") else fs;
    RemoveTag(kept, "908")
  }

  /** With exactly one OCN found, it becomes the 001 and the 003 becomes
      "OCoLC"; otherwise the record is left as it is. */
  function MoveOcn(rec: Record, ocns: seq<string>): (r: Record)
    ensures r.leader == rec.leader
    ensures |ocns| != 1 ==> r == rec
    ensures |ocns| == 1 ==>
      && FieldsWithTag(r.fields, "001") != []
      && FieldsWithTag(r.fields, "001")[0] == ControlField("001", ocns[0])
      && FieldsWithTag(r.fields, "003") != []
      && FieldsWithTag(r.fields, "003")[0] == ControlField("003", "OCoLC")
      && CountTag(r.fields, "001") == (if HasTag(rec.fields, "001") then CountTag(rec.fields, "001") else 1)
      && CountTag(r.fields, "003") == (if HasTag(rec.fields, "003") then CountTag(rec.fields, "003") else 1)
    ensures forall t :: t != "001" && t != "003" ==> FieldsWithTag(r.fields, t) == FieldsWithTag(rec.fields, t)
  {
    if |ocns| == 1 then EnforceOclcSymbolIn003(AddOcnTo001(rec, ocns[0])) else rec
  }

  /** The per-record body of `fix_file`. */
  function FixRecord(bib: Record, del991: string): (r: Result<Record>)
    ensures r.Err? <==> Fix035s(bib.fields).Err?
    ensures r.Ok? ==> r.value.leader == bib.leader
    ensures r.Ok? ==> !HasTag(r.value.fields, "908")
    ensures r.Ok? && del991 == "yes" ==> !HasTag(r.value.fields, "991")
  {
    var fixed :- Fix035s(bib.fields);
    var moved := MoveOcn(Record(bib.leader, fixed.0), fixed.1);
    Ok(Record(bib.leader, Prune(moved.fields, del991)))
  }

  /** The 035 loop keeps the fields of every other tag. */
  lemma Fix035sKeepsOtherTags(fs: seq<Field>, t: string)
    requires Fix035s(fs).Ok? && t != "035"
    ensures FieldsWithTag(Fix035s(fs).value.0, t) == FieldsWithTag(fs, t)
  {
    Fix035sKeepsTags(fs);
    Fix035sKeepsOthers(fs);
    OtherTagsKept(fs, Fix035s(fs).value.0, t);
  }

  /** Without the request the 991s are kept as they were. */
  lemma FixRecordKeeps991(bib: Record, del991: string)
    requires FixRecord(bib, del991).Ok? && del991 != "yes"
    ensures FieldsWithTag(FixRecord(bib, del991).value.fields, "991") == FieldsWithTag(bib.fields, "991")
  {
    var fixed := Fix035s(bib.fields).value;
    Fix035sKeepsOtherTags(bib.fields, "991");
    var moved := MoveOcn(Record(bib.leader, fixed.0), fixed.1);
    var fs := Prune(moved.fields, del991);
    assert FixRecord(bib, del991).value.fields == fs;
    assert FieldsWithTag(fs, "991") == FieldsWithTag(moved.fields, "991");
    assert FieldsWithTag(moved.fields, "991") == FieldsWithTag(fixed.0, "991");
  }

  /** With exactly one OCN-bearing 035 its number (digits only) becomes the
      first 001 and "OCoLC" the first 003, without adding a second of
      either. */
  lemma FixRecordMovesOcn(bib: Record, del991: string)
    requires FixRecord(bib, del991).Ok? && CountOcn035(bib.fields) == 1
    ensures var fs := FixRecord(bib, del991).value.fields;
      && FieldsWithTag(fs, "001") != []
      && FieldsWithTag(fs, "001")[0].ControlField?
      && IsDigits(FieldsWithTag(fs, "001")[0].data)
      && FieldsWithTag(fs, "003") != []
      && FieldsWithTag(fs, "003")[0] == ControlField("003", "OCoLC")
      && CountTag(fs, "001") == (if HasTag(bib.fields, "001") then CountTag(bib.fields, "001") else 1)
      && CountTag(fs, "003") == (if HasTag(bib.fields, "003") then CountTag(bib.fields, "003") else 1)
  {
    Fix035sCount(bib.fields);
    Fix035sCollectsDigits(bib.fields);
    var fixed := Fix035s(bib.fields).value;
    Fix035sKeepsOtherTags(bib.fields, "001");
    Fix035sKeepsOtherTags(bib.fields, "003");
    assert IsDigits(fixed.1[0]);
    var moved := MoveOcn(Record(bib.leader, fixed.0), fixed.1);
    var fs := FixRecord(bib, del991).value.fields;
    assert fs == Prune(moved.fields, del991);
    assert FieldsWithTag(fs, "001") == FieldsWithTag(moved.fields, "001");
    assert FieldsWithTag(fs, "003") == FieldsWithTag(moved.fields, "003");
  }

  /** With no OCN-bearing 035, or more than one, the 001 and the 003 stay
      as they were. */
  lemma FixRecordKeepsControlNumber(bib: Record, del991: string)
    requires FixRecord(bib, del991).Ok? && CountOcn035(bib.fields) != 1
    ensures FieldsWithTag(FixRecord(bib, del991).value.fields, "001") == FieldsWithTag(bib.fields, "001")
    ensures FieldsWithTag(FixRecord(bib, del991).value.fields, "003") == FieldsWithTag(bib.fields, "003")
  {
    Fix035sCount(bib.fields);
    var fixed := Fix035s(bib.fields).value;
    Fix035sKeepsOtherTags(bib.fields, "001");
    Fix035sKeepsOtherTags(bib.fields, "003");
    assert |fixed.1| != 1;
    var moved := MoveOcn(Record(bib.leader, fixed.0), fixed.1);
    assert moved.fields == fixed.0;
    var fs := Prune(fixed.0, del991);
    assert fs == FixRecord(bib, del991).value.fields;
    assert FieldsWithTag(fs, "001") == FieldsWithTag(fixed.0, "001");
    assert FieldsWithTag(fs, "003") == FieldsWithTag(fixed.0, "003");
  }

  // ---------------------------------------------------------------------
  // The 991 $y rule of the module docstring

  /** Some 991 carries a $y other than `ocn`: the docstring's case in which
      the legacy 001 is to be kept. The $y is compared, as text, with the
      normalised number. */
  predicate Legacy991(fs: seq<Field>, ocn: string) {
    exists f :: f in FieldsWithTag(fs, "991") && exists y :: y in SubfieldValues(f, "y") && y != ocn
  }

  /** The 001/003 step as the docstring describes it: the single OCN moves to
      the 001 unless a 991 $y names another number; then the legacy 001 and
      the 003 stay. */
  function MoveOcnIntended(rec: Record, ocns: seq<string>): (r: Record)
    ensures |ocns| == 1 && Legacy991(rec.fields, ocns[0]) ==> r == rec
    ensures !(|ocns| == 1 && Legacy991(rec.fields, ocns[0])) ==> r == MoveOcn(rec, ocns)
  {
    if |ocns| == 1 && Legacy991(rec.fields, ocns[0]) then rec else MoveOcn(rec, ocns)
  }

  /** `fix_file`'s per-record body with the docstring's 991 $y rule: like
      `FixRecord`, except that a differing 991 $y keeps the 001 and 003. */
  function FixRecordIntended(bib: Record, del991: string): (r: Result<Record>)
    ensures r.Err? <==> Fix035s(bib.fields).Err?
    ensures r.Ok? ==> r.value.leader == bib.leader
    ensures r.Ok? ==> !HasTag(r.value.fields, "908")
    ensures r.Ok? && del991 == "yes" ==> !HasTag(r.value.fields, "991")
  {
    var fixed :- Fix035s(bib.fields);
    var moved := MoveOcnIntended(Record(bib.leader, fixed.0), fixed.1);
    Ok(Record(bib.leader, Prune(moved.fields, del991)))
  }

  /** The 035 loop does not change which 991 $y values a record carries. */
  lemma Fix035sKeepsLegacy991(fs: seq<Field>, ocn: string)
    requires Fix035s(fs).Ok?
    ensures Legacy991(Fix035s(fs).value.0, ocn) <==> Legacy991(fs, ocn)
  {
    Fix035sKeepsOtherTags(fs, "991");
  }

  /** As written: a 991 $y naming another number does not stop the move, so
      the single 035's number replaces the 001 and a legacy 001 that differs
      from it is lost. */
  lemma FixRecordIgnores991y(bib: Record, del991: string, ocn: string)
    requires Fix035s(bib.fields).Ok? && Fix035s(bib.fields).value.1 == [ocn]
    requires Legacy991(bib.fields, ocn)
    ensures FixRecord(bib, del991).Ok?
    ensures var fs := FixRecord(bib, del991).value.fields;
      && FieldsWithTag(fs, "001") != []
      && FieldsWithTag(fs, "001")[0] == ControlField("001", ocn)
      && (HasTag(bib.fields, "001") && FieldsWithTag(bib.fields, "001")[0] != ControlField("001", ocn) ==>
          FieldsWithTag(fs, "001") != FieldsWithTag(bib.fields, "001"))
  {
    var fixed := Fix035s(bib.fields).value;
    var moved := MoveOcn(Record(bib.leader, fixed.0), fixed.1);
    var fs := FixRecord(bib, del991).value.fields;
    assert fs == Prune(moved.fields, del991);
    assert FieldsWithTag(fs, "001") == FieldsWithTag(moved.fields, "001");
  }

  /** Corrected: a 991 $y naming another number keeps the legacy 001 and the
      003; the 035s are still cleaned. */
  lemma FixRecordIntendedKeepsLegacy(bib: Record, del991: string, ocn: string)
    requires Fix035s(bib.fields).Ok? && Fix035s(bib.fields).value.1 == [ocn]
    requires Legacy991(bib.fields, ocn)
    ensures FixRecordIntended(bib, del991).Ok?
    ensures var fs := FixRecordIntended(bib, del991).value.fields;
      && FieldsWithTag(fs, "001") == FieldsWithTag(bib.fields, "001")
      && FieldsWithTag(fs, "003") == FieldsWithTag(bib.fields, "003")
      && FieldsWithTag(fs, "035") == FieldsWithTag(Fix035s(bib.fields).value.0, "035")
  {
    var fixed := Fix035s(bib.fields).value;
    Fix035sKeepsLegacy991(bib.fields, ocn);
    assert MoveOcnIntended(Record(bib.leader, fixed.0), fixed.1).fields == fixed.0;
    assert FixRecordIntended(bib, del991).value.fields == Prune(fixed.0, del991);
    PrunedUnmoved(bib.fields, del991);
  }

  /** When the 001/003 step leaves the fields alone, the 001s and 003s come
      through the whole body and the 035s are the cleaned ones. */
  lemma PrunedUnmoved(fs: seq<Field>, del991: string)
    requires Fix035s(fs).Ok?
    ensures var gs := Prune(Fix035s(fs).value.0, del991);
      && FieldsWithTag(gs, "001") == FieldsWithTag(fs, "001")
      && FieldsWithTag(gs, "003") == FieldsWithTag(fs, "003")
      && FieldsWithTag(gs, "035") == FieldsWithTag(Fix035s(fs).value.0, "035")
  {
    PrunedKeeps(fs, del991, "001");
    PrunedKeeps(fs, del991, "003");
    PruneKeeps(Fix035s(fs).value.0, del991, "035");
  }

  /** The pruning keeps every tag but 908 and 991. */
  lemma PruneKeeps(fs: seq<Field>, del991: string, t: string)
    requires t != "908" && t != "991"
    ensures FieldsWithTag(Prune(fs, del991), t) == FieldsWithTag(fs, t)
  {
  }

  /** A tag that neither the 035 loop nor the pruning touches comes through
      both unchanged. */
  lemma PrunedKeeps(fs: seq<Field>, del991: string, t: string)
    requires Fix035s(fs).Ok? && t != "035" && t != "908" && t != "991"
    ensures FieldsWithTag(Prune(Fix035s(fs).value.0, del991), t) == FieldsWithTag(fs, t)
  {
    Fix035sKeepsOtherTags(fs, t);
  }

  /** Corrected: without such a 991 $y the single number moves to the 001
      and the 003 reads "OCoLC", as in `FixRecord`. */
  lemma FixRecordIntendedMovesOcn(bib: Record, del991: string, ocn: string)
    requires Fix035s(bib.fields).Ok? && Fix035s(bib.fields).value.1 == [ocn]
    requires !Legacy991(bib.fields, ocn)
    ensures FixRecordIntended(bib, del991) == FixRecord(bib, del991)
    ensures var fs := FixRecordIntended(bib, del991).value.fields;
      && FieldsWithTag(fs, "001") != []
      && FieldsWithTag(fs, "001")[0] == ControlField("001", ocn)
      && FieldsWithTag(fs, "003") != []
      && FieldsWithTag(fs, "003")[0] == ControlField("003", "OCoLC")
  {
    var fixed := Fix035s(bib.fields).value;
    Fix035sKeepsLegacy991(bib.fields, ocn);
    var moved := MoveOcn(Record(bib.leader, fixed.0), fixed.1);
    var fs := FixRecord(bib, del991).value.fields;
    assert fs == Prune(moved.fields, del991);
    assert FieldsWithTag(fs, "001") == FieldsWithTag(moved.fields, "001");
    assert FieldsWithTag(fs, "003") == FieldsWithTag(moved.fields, "003");
  }

  /** Corrected: with no OCN-bearing 035, or more than one, the corrected body
      is the code's. */
  lemma FixRecordIntendedOtherCounts(bib: Record, del991: string)
    requires CountOcn035(bib.fields) != 1
    ensures FixRecordIntended(bib, del991) == FixRecord(bib, del991)
  {
    if Fix035s(bib.fields).Ok? {
      Fix035sCount(bib.fields);
    }
  }

  /** Rewriting only 035s in place keeps the fields of every other tag. */
  lemma {:induction false} OtherTagsKept(fs: seq<Field>, gs: seq<Field>, t: string)
    requires t != "035" && |gs| == |fs|
    requires forall i :: 0 <= i < |fs| ==> gs[i].tag == fs[i].tag
    requires forall i :: 0 <= i < |fs| && fs[i].tag != "035" ==> gs[i] == fs[i]
    ensures FieldsWithTag(gs, t) == FieldsWithTag(fs, t)
    decreases |fs|
  {
    if fs != [] {
      OtherTagsKept(fs[1..], gs[1..], t);
    }
  }
}

=== FILE: verify_bib_nos.dfy ===
/** The log scan of scripts/verify_platform_bib_nos.py: every log line that
  records a "not found" answer from the catalog service gives the Sierra
  bib number it was about. The lines are a parameter, each with the
  trailing "\n" that iterating over a text file leaves on it: that "\n"
  is one of the two characters `extract_sierra_no` skips at the end. The
  service queries and the CSV output are not modelled. */
module VerifyBibNos {
  import opened Strings
  import opened Rows

  /** The text a "not found" log line carries. */
  const NotFoundMarker := "NYPL Platform request (404)"

  /** `extract_sierra_no`: "b", the eight characters that end two before
      the end of the line, "a". */
  function ExtractSierraNo(line: string): (r: string)
    ensures |r| >= 2 && r[0] == 'b' && r[|r| - 1] == 'a'
    ensures |line| >= 10 ==> |r| == 10 && r[1..9] == line[|line| - 10..|line| - 2]
    ensures |line| <= 2 ==> r == "ba"
  {
    var digits := Slice(line, -10, -2);
    var r := "b" + digits + "a";
    assert r[1..|r| - 1] == digits;
    r
  }

  /** A line ending in the eight digits and two more characters gives the
      digits back between "b" and "a". */
  lemma ExtractSierraNoOf(prefix: string, digits: string, end: string)
    requires |digits| == 8 && |end| == 2
    ensures ExtractSierraNo(prefix + digits + end) == "b" + digits + "a"
  {
    var line := prefix + digits + end;
    assert line[|line| - 10..|line| - 2] == digits;
    assert ExtractSierraNo(line)[1..9] == digits;
  }

  predicate IsNotFound(line: string) {
    Contains(line, NotFoundMarker)
  }

  /** A generator that yields `f(line)` for each line that passes `keep`,
      defined line by line. */
  function Scan(lines: seq<string>, keep: string -> bool, f: string -> string): (r: seq<string>)
    ensures |r| == CountKept(lines, keep)
  {
    if lines == [] then []
    else (if keep(lines[0]) then [f(lines[0])] else []) + Scan(lines[1..], keep, f)
  }

  /** The scan works line by line. */
  lemma {:induction false} ScanConcat(a: seq<string>, b: seq<string>, keep: string -> bool, f: string -> string)
    ensures Scan(a + b, keep, f) == Scan(a, keep, f) + Scan(b, keep, f)
    decreases |a|
  {
    if a == [] {
      assert a + b == b;
    } else {
      assert (a + b)[0] == a[0];
      assert (a + b)[1..] == a[1..] + b;
      ScanConcat(a[1..], b, keep, f);
    }
  }

  /** The outputs are `f` of the lines that pass, in line order. */
  lemma {:induction false} ScanOfKept(lines: seq<string>, keep: string -> bool, f: string -> string)
    ensures var kept := Filter(lines, keep);
      |Scan(lines, keep, f)| == |kept| && forall i :: 0 <= i < |kept| ==> Scan(lines, keep, f)[i] == f(kept[i])
  {
    if lines != [] {
      ScanOfKept(lines[1..], keep, f);
      var kept := Filter(lines, keep);
      var rest := Filter(lines[1..], keep);
      var out := Scan(lines, keep, f);
      var tail := Scan(lines[1..], keep, f);
      if keep(lines[0]) {
        assert kept == [lines[0]] + rest;
        assert out == [f(lines[0])] + tail;
        MappedCons(kept, out, f);
      } else {
        assert kept == rest && out == tail;
      }
    }
  }

  /** `out` is `f` of `xs`, element by element, when their heads and their
      tails are. */
  lemma MappedCons(xs: seq<string>, out: seq<string>, f: string -> string)
    requires |xs| == |out| > 0 && out[0] == f(xs[0])
    requires forall i :: 0 <= i < |xs| - 1 ==> out[1..][i] == f(xs[1..][i])
    ensures forall i :: 0 <= i < |xs| ==> out[i] == f(xs[i])
  {
    forall i | 1 <= i < |xs| ensures out[i] == f(xs[i]) {
      assert out[i] == out[1..][i - 1] && xs[i] == xs[1..][i - 1];
    }
  }

  /** Lines that do not pass give nothing. */
  lemma {:induction false} ScanSilent(lines: seq<string>, keep: string -> bool, f: string -> string)
    requires forall i :: 0 <= i < |lines| ==> !keep(lines[i])
    ensures Scan(lines, keep, f) == []
  {
    if lines != [] {
      assert forall i :: 1 <= i < |lines| ==> lines[i] == lines[1..][i - 1];
      ScanSilent(lines[1..], keep, f);
    }
  }

  /** What `missing_sierra_numbers` yields. */
  function Missing(lines: seq<string>): (r: seq<string>)
    ensures |r| == CountKept(lines, IsNotFound)
  {
    Scan(lines, IsNotFound, ExtractSierraNo)
  }

  /** The numbers are those of the "not found" lines, in line order, one
      per line. */
  lemma MissingOfNotFound(lines: seq<string>)
    ensures var kept := Filter(lines, IsNotFound);
      |Missing(lines)| == |kept| && forall i :: 0 <= i < |kept| ==> Missing(lines)[i] == ExtractSierraNo(kept[i])
  {
    ScanOfKept(lines, IsNotFound, ExtractSierraNo);
  }

  /** Lines without the marker give nothing. */
  lemma OtherLinesSilent(lines: seq<string>)
    requires forall i :: 0 <= i < |lines| ==> !IsNotFound(lines[i])
    ensures Missing(lines) == []
  {
    ScanSilent(lines, IsNotFound, ExtractSierraNo);
  }

  /** `missing_sierra_numbers`: the loop over the log. */
  method MissingSierraNumbers(lines: seq<string>) returns (nos: seq<string>)
    ensures nos == Missing(lines)
    ensures |nos| == CountKept(lines, IsNotFound)
  {
    nos := [];
    var i := 0;
    while i < |lines|
      invariant 0 <= i <= |lines|
      invariant nos == Missing(lines[..i])
    {
      var line := lines[i];
      ScanConcat(lines[..i], [line], IsNotFound, ExtractSierraNo);
      assert lines[..i + 1] == lines[..i] + [line];
      if IsNotFound(line) {
        nos := nos + [ExtractSierraNo(line)];
      }
      i := i + 1;
    }
    assert lines[..i] == lines;
  }
}
